=== FILE: README.md ===
# Magic Pass resort picker — a Dafny model of its core

The resort picker ranks the ski resorts of the Magic Pass for the coming
weekend. For every resort in a JSON catalog it fetches:

- the day's weather forecast (OpenWeather);
- a snow report (snow-forecast.com, with Open-Meteo as the fallback);
- the best public-transport journey from the starting point (Swiss transport API).

It then scores each resort on four step functions (weather, snow,
transport, size), combines them by fixed weights, sorts the resorts best
first and keeps the top N. The three data services read through an
in-memory cache with a time-to-live per entry. A progress tracker queues one update per
pipeline stage and per completed fetch.

This project models that core as pure Dafny functions over immutable
datatypes, and proves what each step promises.

- `wrappers.dfy`, `text.dfy`, `numeric.dfy` hold what the model needs from Python:
  - `Optional`, truthiness, and a JSON field that tells a missing key from `null`;
  - `str.lower`/`upper`, `in`, `split`/`join`, `str(int)`/`int(str)`;
  - `round`, `round(x, 1)`, `int()`, `min`, `max`, and the score clamp.
- `models.dfy` holds the records: resort, forecast, snow report, journey.
- `cache.dfy` is the TTL cache and the read-through policy that all three services share.
- `progress.dfy` is the progress tracker and its FIFO queue.
- `scoring.dfy` is the scoring engine.
- `snow.dfy`, `transport.dfy`, `weather.dfy` are the three services:
  - the parsers, the quality heuristic, the duration format, the day aggregation;
  - the cache keys and the read-through fetch of each.
- `resorts.dfy` is the catalog service: lazy load, and queries by id, region and canton.
- `batch.dfy` is how a batch's task results become a dictionary keyed by resort id.
- `ranking.dfy` is the stable descending sort and the `[:n]` slice.
- `recommender.dfy` covers the rest of the recommender:
  - the next-weekend dates and the reasoning sentence;
  - one recommendation per resort, the ranking;
  - the progress-reporting pipeline and the single-resort details.

Representation choices:

- Floats are exact reals.
- Instants are integer seconds on a clock passed in as a parameter. Dates are proleptic ordinals.
- What the network returns is a parameter of the function that consumes it. This covers a decoded response, a parsed page's readings, and a per-resort task result.
- Cache keys are tuples of their components rather than formatted strings.

Some facts of the code that a reader might otherwise assume differently:

- the weights are 0.20 / 0.45 / 0.10 / 0.25 (weather, snow, transport, size);
- the sort keys on the score alone and is stable, so equal totals keep catalog order;
- missing transport data scores 3.0;
- missing snow data scores the 2.5 penalty, below the neutral 5.0.

## Model

| member | source | states |
|---|---|---|
| Cache.Get | backend/utils/cache.py:14-24 | A live entry's value is returned and the cache is left alone. An expired entry reads as absent and is deleted. A missing key reads as absent. A read never adds keys. |
| Cache.Set | backend/utils/cache.py:26-29 | The key holds the value until `now + ttl_hours * 3600`. Every other entry is kept as it was. |
| Cache.Clear | backend/utils/cache.py:32-34 | No key remains. |
| Cache.Swept | backend/utils/cache.py:39-44 | Reference for `cleanup`: exactly the expired keys are gone, and every kept entry is unchanged and live. |
| Cache.Cleanup | backend/utils/cache.py:37-47 | The loop removes exactly the expired entries. The count it returns is the number of expired keys, which is how many entries the cache lost. |
| Cache.GetNeverStale | backend/utils/cache.py:16-20 | Whatever a read returns was stored under that key and has not expired. |
| Cache.SetThenGet | backend/utils/cache.py:16-29 | A written value reads back until its TTL elapses, and reads as absent from that instant on. |
| Cache.SetOtherKey | backend/utils/cache.py:26-29 | Writing one key does not change what any other key reads. |
| Cache.ClearThenGet | backend/utils/cache.py:32-34 | After `clear` every read misses. |
| Cache.SweptReadsAlike | backend/utils/cache.py:37-47 | Eager cleanup is invisible to readers: every key reads the same before and after. |
| Cache.ReadThrough | backend/services/weather_service.py:45-72 | Caching on and a hit: the cached value, with nothing fetched or stored. Otherwise: the fetched result, stored only when present. Caching off: the cache is neither read nor written. Every other key's entry is unchanged in every case. |
| Cache.ReadThroughThenHit | backend/services/weather_service.py:45-72 | A present result fetched through the cache is served unchanged by every later read before its TTL runs out, whatever a new fetch would return. |
| Progress.ParseStage | backend/utils/progress.py:7-15 | Parsing a stage value gives back a stage with that value. |
| Progress.ParseStageValue | backend/utils/progress.py:7-15 | Every stage is recovered from its string value, so the seven values are distinct. |
| Progress.ToDict | backend/utils/progress.py:26-33 | Four keys, each carrying its field. |
| Progress.ToDictRoundTrip | backend/utils/progress.py:26-33 | Nothing is lost: the update is recovered from its dictionary. |
| Progress.SetStage | backend/utils/progress.py:45-62 | The stage is switched, the count reset and the total recorded. One update `0/total` is appended to the queue. |
| Progress.IncrementMessage | backend/utils/progress.py:72-82 | The message is the stage's own label (the generic one for other stages) followed by ` (current/total)`. |
| Progress.IncrementCountsReadBack | backend/utils/progress.py:72-82 | The counts can be read back from the message: the text inside the parentheses splits at '/' into the two counts, which `int` reads as `current` and `total`. |
| Progress.Increment | backend/utils/progress.py:64-90 | Before any stage: nothing changes. Otherwise the counters are recorded and one update tagged with the current stage is appended. |
| Progress.MarkComplete | backend/utils/progress.py:92-100 | Appends the COMPLETE update `0/0` and leaves the stage and counters alone. |
| Progress.Take | backend/utils/progress.py:40 | The consumer gets the oldest update, and the rest of the queue follows it. An empty queue gives nothing. |
| Progress.RunAppends | backend/utils/progress.py:45-100 | For any sequence of calls, what was queued stays at the front in order, and each call adds at most one update. |
| Progress.RunAnnouncements | backend/utils/progress.py:45-100 | Without increments, the queue receives exactly one update per call, in call order. |
| Numeric.RoundHalfEven | backend/services/weather_service.py:28 | Python `round`: within one half of the input, with ties going to the even integer. |
| Numeric.RoundTenth | backend/core/scoring.py:101 | `round(x, 1)` is a whole number of tenths within 0.05 of `x`, and a tie goes to the even number of tenths. |
| Numeric.RoundTenthMonotone | backend/core/scoring.py:101 | Rounding to a tenth never reverses the order of two values. |
| Numeric.ClampScore | backend/core/scoring.py:100 | The result is in [0, 10]. A value already there is unchanged. Values above 10 become 10 and values below 0 become 0. |
| Numeric.RoundedClampInRange | backend/core/scoring.py:99-101 | A clamped then rounded score stays in [0, 10]. |
| Numeric.Trunc | backend/services/weather_service.py:141 | `int(x)` truncates toward zero: the largest integer not above `x` for positive `x`, the smallest not below it for negative `x`. |
| Numeric.MinOf | backend/services/weather_service.py:120 | `min` is an element of the list and at most every element. |
| Numeric.MaxOf | backend/services/weather_service.py:121 | `max` is an element of the list and at least every element. |
| Scoring.TemperatureTerm | backend/core/scoring.py:40-53 | The average temperature adds 2 with a "perfect" highlight exactly from -12 to -3 °C; 1 with a "good" highlight exactly from -15 to under -12 or above -3 to 0; nothing exactly above 0 to 2; -2 with a "warm" concern exactly above 2; -1 with a "very cold" concern exactly below -15. |
| Scoring.SnowfallTerm | backend/core/scoring.py:55-65 | Forecast snowfall adds 3.5 exactly from 20 cm, 2.5 exactly from 10 to under 20, 1 exactly from 5 to under 10, each with its highlight; nothing exactly when it is missing or under 5 cm. |
| Scoring.CloudTerm | backend/core/scoring.py:67-81 | Cloud under 30 % adds 1.5 with the sunny highlight exactly when 5 cm or more of snow falls, and otherwise 0.5 with the sunny highlight and the dry concern. 30 to under 50 adds 0.5 with "partly cloudy"; 50 to 80 nothing; over 80 subtracts 1 with "overcast". |
| Scoring.WindTerm | backend/core/scoring.py:83-91 | Wind adds 0.5 exactly under 20 km/h, nothing from 20 to 35, -1 with a "moderate winds" concern above 35 to 50, -2 with a "strong winds" concern above 50. |
| Scoring.ScoreWeather | backend/core/scoring.py:24-101 | The score is in [0, 10]. A missing forecast scores 5.0 with a single "unavailable" concern. The rain concern appears exactly when there is precipitation, no snowfall and an average above 0 °C. The sunny highlight appears exactly when cloud cover is under 30. |
| Scoring.RainPenalty | backend/core/scoring.py:93-97 | Rain costs exactly 3 raw points, charged exactly when rain applies. |
| Scoring.IdealWeatherScoresTen | backend/core/scoring.py:40-101 | A perfect temperature, 20 cm or more of snowfall, a clear sky and calm wind give the top score 10. |
| Scoring.BaseTerm | backend/core/scoring.py:119-131 | The base adds 2.5 exactly from 150 cm and 1.5 exactly from 100 to under 150, each with its highlight; 0.5 exactly from 60 to under 100; -2 with a "low base" concern exactly for a non-zero base under 40 (negative included); nothing when it is missing, zero, or 40 to under 60. |
| Scoring.NewSnowTerm | backend/core/scoring.py:133-142 | A day's new snow adds 3 with "fresh powder" exactly from 20 cm, 2 with "fresh snow" exactly from 10 to under 20, 1 exactly from 5 to under 10, nothing when missing or under 5. |
| Scoring.WeekTerm | backend/core/scoring.py:144-150 | The week's snow adds 1 with "great week" exactly from 50 cm, 0.5 exactly from 20 to under 50, nothing when missing or under 20. |
| Scoring.QualityTerm | backend/core/scoring.py:152-165 | On the lower-cased word: powder or fresh add 1.5 with "powder conditions"; packed or groomed 0.5 with "well-groomed"; icy or hard -2 with "icy conditions"; wet or spring -1 with "wet/spring snow"; any other word nothing. Each holds exactly for its words. |
| Scoring.IdealSnowScoresTen | backend/core/scoring.py:103-169 | A base of 150 cm or more, 20 cm or more of fresh snow and powder give the top score 10, whatever the week's snowfall. |
| Scoring.ScoreSnow | backend/core/scoring.py:103-169 | The score is in [0, 10]. A missing report scores the 2.5 penalty with one concern. Any report scores at least 1.0. |
| Scoring.WeatherHighlights | backend/core/scoring.py:67-75 | The sunny highlight is present exactly when cloud cover is under 30, whichever other factors fire. |
| Scoring.WeatherConcerns | backend/core/scoring.py:93-97 | The rain concern is present exactly when there is precipitation, no snowfall and an average above 0 °C. |
| Scoring.MissingSnowIsPenalised | backend/core/scoring.py:114-117 | A missing report scores below a report with no readings and unknown quality, which scores the neutral 5.0. |
| Scoring.DurationTerm | backend/core/scoring.py:186-205 | The duration step is 10 exactly under 120 minutes, 8.5 exactly from 120 to under 150, 7 from 150 to under 180, 5.5 from 180 to under 210, 4 from 210 to under 240, and 2 from 240 on. |
| Scoring.ChangesTerm | backend/core/scoring.py:207-217 | No change adds 0.5 with a "direct connection" highlight. One change adds nothing. Two subtract 0.5. Three or more subtract 1 with a "multiple changes" concern. A negative count adds nothing. |
| Scoring.ScoreTransport | backend/core/scoring.py:171-221 | The score is in [0, 10]. A missing journey scores 3.0 with one concern. A journey scores its duration step plus its change adjustment, clamped and rounded. |
| Scoring.TransportScoreExtremes | backend/core/scoring.py:186-221 | A direct journey under two hours scores 10 (10.5 clamped). A journey of four hours or more with three or more changes scores 1. |
| Scoring.DurationTermMonotone | backend/core/scoring.py:189-205 | A longer journey never gets a larger duration step. |
| Scoring.TransportMonotoneInDuration | backend/core/scoring.py:186-221 | With the same number of changes, a longer journey never scores higher. |
| Scoring.TransportMonotoneInChanges | backend/core/scoring.py:207-221 | With the same duration, more changes never score higher. |
| Scoring.SizeTerm | backend/core/scoring.py:245-271 | The documented scale, each band exactly: 10 from 200 km, 9 from 150, 8 from 100, 7 from 70 (each with its highlight), 6 from 50, 5 from 30, 4 from 15 ("small"), 3 from 5 ("very small"), 2 below 5 ("tiny"). |
| Scoring.ScoreSize | backend/core/scoring.py:223-273 | An unknown resort or size scores the neutral 5.0 with one concern. A known size scores its band of the scale, with that band's notes. |
| Scoring.SizeMonotone | backend/core/scoring.py:247-271 | A larger ski area never scores lower. |
| Scoring.TotalScore | backend/core/scoring.py:275-289 | The total is 0.20 × weather + 0.45 × snow + 0.10 × transport + 0.25 × size, rounded to one decimal. Four sub-scores in [0, 10] give a total in [0, 10]. |
| Scoring.SubScoreShares | backend/core/scoring.py:16-19 | A perfect sub-score alone contributes its weight: 2.0 for weather, 4.5 for snow, 1.0 for transport, 2.5 for size. |
| Scoring.TotalOfEqualScores | backend/core/scoring.py:16-19 | The weights sum to one: four equal sub-scores give that same total. |
| Scoring.TotalMonotone | backend/core/scoring.py:283-289 | Raising any sub-score never lowers the total. |
| Scoring.ScoreResort | backend/core/scoring.py:291-321 | All five scores are in [0, 10]. The total is the weighted total of the four sub-scores. Highlights and concerns are concatenated in weather, snow, transport, size order. |
| Scoring.AllMissingScore | backend/core/scoring.py:291-321 | With every feed missing and the size unknown, a resort still scores 3.7. Its concerns are the four "unavailable" notes, in order. |
| SnowService.DetermineSnowQuality | backend/services/snow_service.py:196-223 | The label is one of five. It is "Powder" exactly when 24 h snowfall ≥ 15. It is "Fresh" exactly when 5 ≤ 24 h < 15, or the week's fall is ≥ 20 without a 24 h fall of 5. It is "Packed" exactly when there was no recent fall, the base is ≥ 30 and the week's fall is under 5. It is "Unknown" exactly when there was no recent fall and no base. |
| SnowService.FreshSnowGetsTopQuality | backend/services/snow_service.py:203-211 | A recent fall is always labelled Powder or Fresh. |
| SnowService.LastN | backend/services/snow_service.py:174 | `xs[-7:]`: the last seven elements, or all of them when there are fewer. |
| SnowService.OpenMeteoReadings | backend/services/snow_service.py:149-174 | The base is the rounded last reported depth. The 24 h fall is the rounded last reported snowfall. `null` entries are skipped. The weekly fall is present exactly when the 24 h fall is, and is then the rounded sum of the last seven reported snowfalls. |
| SnowService.WeeklyFallCoversLastDay | backend/services/snow_service.py:168-174 | When no reported snowfall is negative, the weekly fall is at least the 24 h fall, since the last reported day is among the seven summed. |
| SnowService.Positive | backend/services/snow_service.py:184-186 | A reading survives exactly when it is present and strictly positive, and it is then unchanged. |
| SnowService.ParseOpenMeteo | backend/services/snow_service.py:146-194 | `None` exactly when no reading is truthy. Otherwise each of the base, 24 h and weekly readings is kept exactly when positive, the summit and lift counts are absent, and the quality is the heuristic's label for the unfiltered readings. |
| SnowService.EmptySeriesGiveNothing | backend/services/snow_service.py:153-190 | Series in which nothing is reported yield no conditions. |
| SnowService.PageQuality | backend/services/snow_service.py:279-290 | The first keyword found in the fixed order powder, fresh, packed/groomed, icy/hard decides the label. Without any keyword the label is "Variable" exactly when the base is positive. |
| SnowService.ParseSnowForecastPage | backend/services/snow_service.py:279-305 | `None` exactly when all four readings are falsy. Otherwise the readings are kept as found and the quality comes from the lower-cased page text. |
| SnowService.CacheKeyInjective | backend/services/snow_service.py:39 | Different resort ids never share a cache entry. |
| SnowService.GetConditions | backend/services/snow_service.py:32-61 | A cache hit is returned without consulting any source. Otherwise: the page is consulted exactly when the resort has a slug; Open-Meteo is consulted exactly when the page gave nothing; the result is the page's answer, or else Open-Meteo's; a present result is what the cache then holds. An absent result adds no key, and every other resort's entry is untouched. |
| SnowService.FallbackOnlyWhenNeeded | backend/services/snow_service.py:49-55 | No slug: only Open-Meteo is consulted. The page answered: only the page. The page failed: the page, then Open-Meteo. |
| SnowService.GetConditionsThenHit | backend/services/snow_service.py:41-59 | Fetched conditions are served again from the cache, unchanged and without consulting any source, until the TTL runs out. |
| TransportService.Classify | backend/services/transport_service.py:125-131 | A section is a bus exactly when its category is one of B, BUS, NFB. |
| TransportService.TrainsAndDefault | backend/services/transport_service.py:126-131 | The named train categories, and every other or missing category, classify as trains. |
| TransportService.ParseTimestamp | backend/services/transport_service.py:148-160 | An empty timestamp reads as the current instant. Any other is read by the ISO-8601 parser. |
| TransportService.StringOr | backend/services/transport_service.py:138-142 | A missing key gives the default, a present value is kept, and `null` is rejected. |
| TransportService.ParseSegment | backend/services/transport_service.py:119-146 | A segment is produced exactly when neither station name nor line name is `null` and both times parse. It carries the category's kind, the station names ("Unknown" when missing), the two endpoint times as parsed, and the line name ("" when missing). |
| TransportService.ParseSegments | backend/services/transport_service.py:99-105 | At most one segment per section. |
| TransportService.ParseSegmentsSingle | backend/services/transport_service.py:100-105 | A single section gives its decoded segment when it has a journey that decodes, and nothing otherwise. |
| TransportService.ParseSegmentsCons | backend/services/transport_service.py:100-105 | The first section's segment, if any, comes first, followed by the segments of the remaining sections. |
| TransportService.ParseSegmentsAppend | backend/services/transport_service.py:100-105 | Sections are decoded one by one, in order: decoding a concatenation concatenates the decodings. |
| TransportService.WalkIsDropped | backend/services/transport_service.py:102 | A section without a journey (a walk) contributes no segment. |
| TransportService.ParseFormattedDuration | backend/services/transport_service.py:162-178 | Round trip: a duration written in the API's `DDdHH:MM:SS` format, each field zero-padded to two digits, reads back as its length in minutes. |
| TransportService.TwoDigitsParse | backend/services/transport_service.py:168 | `int` reads a zero-padded field back as its number. |
| TransportService.ParseLaidOutDuration | backend/services/transport_service.py:162-178 | Any string laid out as `<d>d<h>:<m>:00`, with each part readable by `int`, reads as `d*1440 + h*60 + m`. |
| TransportService.ParseTimeOfDay | backend/services/transport_service.py:170-178 | Without a day part, `<h>:<m>:00` reads as `h*60 + m`. |
| TransportService.MalformedDurationIsZero | backend/services/transport_service.py:174-180 | A string without ':' cannot be read, and the fallback gives 0 minutes. |
| TransportService.TopTimestamp | backend/services/transport_service.py:82-93 | A connection time is read exactly when it is present and non-empty, and the reading is then the parser's reading of it. A missing, `null` or empty time reads as nothing. |
| TransportService.ParseConnection | backend/services/transport_service.py:78-117 | A journey exactly when both top-level times are usable and neither `sections` nor `transfers` is `null`. Its fields: the two times; the duration in minutes (a missing duration reads as 0 minutes, a `null` one as 0); the transfers (0 when missing); the decoded segments. |
| TransportService.FirstJourney | backend/services/transport_service.py:56-61 | No or empty connections give `None`. Otherwise the result is the first connection, decoded. |
| TransportService.GetJourney | backend/services/transport_service.py:24-76 | A hit returns the cached journey without a request. A miss requests the API and decodes the first connection. With caching on, a present result is what the cache holds under the key, with the full TTL when it was fetched. Other keys are untouched. |
| TransportService.WithPostBus | backend/services/transport_service.py:196-198 | The PostBus minutes are added exactly when they are truthy. Nothing else changes. |
| TransportService.GetResortJourneyAsWritten | backend/services/transport_service.py:182-202 | The route by the resort's name is tried first and wins when it gives a journey. Otherwise, without a nearest station, the answer is `None`. With one, the answer is the station route's journey with the PostBus minutes added. When caching is on and the minutes are added, they are added to the very journey object the cache holds: the station's entry is replaced by the lengthened journey with its expiry kept. Otherwise the cache is what the station lookup left. |
| TransportService.GetResortJourney | backend/services/transport_service.py:182-202 | The name route is used when it gives a journey. Failing that, the station route with the PostBus minutes added to a copy. Failing that, `None`. |
| TransportService.PostBusCountedTwice | backend/services/transport_service.py:196-198 | As written, a second identical request within the TTL returns a journey longer by one more PostBus leg. |
| TransportService.RepeatedRequestsAgree | backend/services/transport_service.py:182-202 | With the copy, a repeated request within the TTL returns the same journey. |
| WeatherService.DegreesToDirection | backend/services/weather_service.py:25-29 | The result is always one of the eight compass points. |
| WeatherService.CompassPoints | backend/services/weather_service.py:27-29 | Every whole number of eighths of a turn names its own compass point, clockwise from north. |
| WeatherService.FullTurn | backend/services/weather_service.py:28 | Adding a full turn does not change the direction. |
| WeatherService.VisibilityOf | backend/services/weather_service.py:31-37 | "Good" exactly below 30 % cloud and "Poor" exactly from 70 %. |
| WeatherService.VisibilityMonotone | backend/services/weather_service.py:31-37 | More cloud never means better visibility. |
| WeatherService.ItemsOn | backend/services/weather_service.py:89-94 | The kept items are exactly the list's items dated on the target day. |
| WeatherService.ConditionsOf | backend/services/weather_service.py:116-118 | The first condition of each item that has one, and nothing else. |
| WeatherService.Count | backend/services/weather_service.py:128 | `list.count`: positive exactly when the value occurs. |
| WeatherService.MostCommon | backend/services/weather_service.py:128 | "Unknown" for an empty list. Otherwise one of the values, occurring at least as often as any other. |
| WeatherService.MeanBounds | backend/services/weather_service.py:124-125 | A mean lies within any bounds all the values lie within. |
| WeatherService.CloudCoverBounds | backend/services/weather_service.py:141 | The day's truncated mean cloud cover is a percentage when every item's is. |
| WeatherService.TemperatureRange | backend/services/weather_service.py:120-133 | The low and high are rounded temperatures of items of the day, ordered, and bound every item's rounded temperature. |
| WeatherService.Aggregate | backend/services/weather_service.py:101-145 | The minimum and maximum are rounded item temperatures, are ordered, and bound every item's temperature. Snowfall is present exactly when the summed fall is positive and is then a tenth of it, rounded. Precipitation is the summed rain, rounded to one decimal. The wind speed is the mean speed in km/h (times 3.6), rounded to one decimal. The cloud cover is the truncated mean cover. Other fields: the visibility of the integer cloud cover; the first item's wind direction; the most common description; the first item's icon, or "Unknown" and "" without conditions. |
| WeatherService.AggregateSingleItem | backend/services/weather_service.py:101-145 | A one-item day is that item's readings: its temperature is both the low and the high, its rain is the precipitation, snowfall is present exactly when its snow is positive, the wind is its speed in km/h, and the cloud cover is its own. |
| WeatherService.WindSpeedWithinItems | backend/services/weather_service.py:124-137 | The day's wind speed lies between the calmest and the windiest item's speed, each converted to km/h and rounded the same way. |
| WeatherService.ParseForecast | backend/services/weather_service.py:84-99 | `None` exactly when no item falls on the target date. Otherwise the result aggregates that day's items. |
| WeatherService.NearbyCoordinatesShareKey | backend/services/weather_service.py:43 | Coordinates equal to four decimals share a cache key. |
| WeatherService.GetForecast | backend/services/weather_service.py:39-82 | A hit returns the cached forecast without a request. A miss requests and parses, and the result is dated on the requested day. Caching on with a positive TTL: a present result is read back from the cache. Caching off: the cache is untouched. An absent result adds no key, and every other key's entry is untouched. |
| WeatherService.NearbyPointServedFromCache | backend/services/weather_service.py:43-49 | A nearby point (equal to four decimals) on the same day reads the stored forecast without a request. |
| ResortService.NewService | backend/services/resort_service.py:14-19 | A fresh service is not loaded and holds no resorts. |
| ResortService.Load | backend/services/resort_service.py:21-41 | A no-op once loaded. Otherwise it fails when the catalog cannot be read, and holds exactly the decoded resorts when it can. |
| ResortService.LoadIdempotent | backend/services/resort_service.py:23-24 | Loading twice is loading once. |
| ResortService.LoadKeepsWellFormed | backend/services/resort_service.py:30-31 | A loaded service's list is exactly the decoded file. |
| ResortService.GetAll | backend/services/resort_service.py:43-47 | Succeeds exactly when loading succeeds, and returns the loaded catalog. |
| ResortService.FindById | backend/services/resort_service.py:54-57 | `None` exactly when no resort has the id. Otherwise the first resort that has it. |
| ResortService.GetById | backend/services/resort_service.py:49-57 | Loads lazily, then returns the first resort with the id. |
| ResortService.InRegion | backend/services/resort_service.py:64 | Keeps exactly the catalog's resorts whose region matches ignoring case. |
| ResortService.InRegionAppend | backend/services/resort_service.py:64 | The filter keeps catalog order: it distributes over concatenation. |
| ResortService.ByRegion | backend/services/resort_service.py:59-64 | Loads lazily, then filters by region. |
| ResortService.InCanton | backend/services/resort_service.py:71 | Keeps exactly the resorts that have a canton equal to the query ignoring case. A resort without a canton matches none. |
| ResortService.InCantonAsWritten | backend/services/resort_service.py:71 | The comprehension as written fails exactly when some resort has no canton. When it succeeds, it returns the resorts whose canton matches, in catalog order. |
| ResortService.ByCantonAsWritten | backend/services/resort_service.py:66-71 | As written, a loaded catalog's canton query fails exactly when the catalog holds a canton-less resort. When it succeeds, it returns the matching resorts with the loaded service. |
| ResortService.ByCanton | backend/services/resort_service.py:66-71 | Corrected: succeeds exactly when loading does, and returns the matching resorts. |
| ResortService.CantonFiltersAgree | backend/services/resort_service.py:71 | On a catalog where every resort has a canton, the as-written and corrected filters agree. |
| ResortService.CantonlessResortBreaksQuery | backend/services/resort_service.py:71 | Witness: with one Swiss and one foreign resort, the query for "vs" fails as written. The corrected query returns the Swiss resort. |
| Batch.Collect | backend/services/snow_service.py:335-340 | An id has an entry exactly when some resort with that id has a task that returned. |
| Batch.CollectByResort | backend/services/weather_service.py:177-182 | With distinct ids, each resort's entry is its own task's result, and a resort whose task raised has no entry. |
| Batch.CompletedCount | backend/services/transport_service.py:218-225 | At most one progress step per task. The count is the number of tasks exactly when every task returned, and 0 exactly when every task raised. |
| Batch.CompletedCountAppend | backend/services/transport_service.py:218-225 | Counting two batches one after the other is adding their counts. |
| Ranking.Insert | backend/core/recommender.py:277 | Insertion adds exactly the new element: the result holds the old elements and it, with multiplicities. |
| Ranking.InsertKeepsDescending | backend/core/recommender.py:277 | Inserting into a list sorted largest first leaves it sorted largest first. |
| Ranking.SortDescending | backend/core/recommender.py:277 | The result is a permutation of the input, sorted by score, largest first. |
| Ranking.SortIsStable | backend/core/recommender.py:277 | Equal scores keep their original order. |
| Ranking.Take | backend/core/recommender.py:280 | `s[:n]` is a prefix of length `min(n, len)`. A negative `n` counts from the end. |
| Ranking.TopDominatesRest | backend/core/recommender.py:276-280 | Every kept element scores at least as high as every dropped one. |
| Recommender.NextWeekend | backend/core/recommender.py:39-49 | The Saturday is the first Saturday on or after today: today itself exactly when today is a Saturday, and never more than six days ahead. The Sunday is the day after. |
| Recommender.Opening | backend/core/recommender.py:313-321 | The opening clause by band: ≥ 8, ≥ 6, ≥ 4, below 4. |
| Recommender.Factor | backend/core/recommender.py:325-338 | A phrase for a score of 7 or more, another for a score under 4, none in between. |
| Recommender.Factors | backend/core/recommender.py:323-338 | Each phrase appears exactly when its sub-score is in its band. There are no phrases exactly when all three sub-scores are middling. |
| Recommender.Reasoning | backend/core/recommender.py:302-343 | The sentence starts with the opening and ends with a full stop. With factors it reads "opening. with a, b." and without them "opening.". |
| Recommender.MiddlingResortGetsBareOpening | backend/core/recommender.py:318-343 | Middling sub-scores give the bare opening sentence. |
| Recommender.Cap | backend/core/recommender.py:270-271 | `[:5]` keeps a prefix of at most the limit, and all notes when there are fewer. No limit keeps everything. |
| Recommender.Recommend | backend/core/recommender.py:239-273 | The recommendation carries the resort's scores and the data it was scored from. Its notes are capped, its score is in [0, 10], and its reasoning comes from its own scores. |
| Recommender.ScoreCatalog | backend/core/recommender.py:238-274 | One recommendation per resort, in catalog order, built from the data found under its id (none when absent). |
| Recommender.Rank | backend/core/recommender.py:276-280 | The top `n`, sorted by score descending, of length `min(n, len)`. Each is one of the scored recommendations. |
| Recommender.StepUpdates | backend/utils/progress.py:64-90 | The `k` increments of a batch are `k` updates, all in the batch's stage, the `i`-th counting `i` out of the catalog size. |
| Recommender.Steps | backend/services/weather_service.py:169-171 | Each task that returns appends one increment, counting up from 1 out of the catalog size. |
| Recommender.FetchUpdates | backend/core/recommender.py:191-225 | A fetch stage's updates are all in that stage: the announcement, then one per completed task. |
| Recommender.FetchStage | backend/core/recommender.py:191-201 | Announce the stage with `0/total`, then one step per completed task. |
| Recommender.GenerateWithProgress | backend/core/recommender.py:155-300 | A catalog that cannot be loaded fails after the loading announcement alone. Otherwise the result is the top `n` of the ranked catalog. The queue holds: loading; each fetch stage with its steps; scoring; summary; complete. |
| Recommender.AfterLoading | backend/core/recommender.py:191-293 | After loading, the queue receives the three fetch stages, then scoring, summary and completion, in order. |
| Recommender.RunStages | backend/core/recommender.py:182-293 | The stages of a run's updates, stage by stage. |
| Recommender.PipelineStageOrder | backend/core/recommender.py:182-293 | However many tasks complete, the queue's stages, with repeats merged, are the seven pipeline stages once each, in order. |
| Recommender.EveryResortRanked | backend/core/recommender.py:238-277 | Before the cut, the ranking holds every catalog resort, even one with no data at all. |
| Recommender.FeedsMatchResorts | backend/core/recommender.py:239-242 | With distinct ids, each recommendation carries its own resort's fetched data, and nothing when a task raised. |
| Recommender.ResortDetails | backend/core/recommender.py:345-395 | `None` exactly when no catalog resort has the id. Otherwise the recommendation of the first resort with that id, from the given data: its scores, data, reasoning and all its notes uncapped. |
| Recommender.DetailsMatchCatalogEntry | backend/core/recommender.py:238-271 | From the same data, a resort's details and its ranking entry have the same resort, scores and reasoning; the ranking's notes are the details' notes cut to five. |
| Wrappers.Somes | backend/services/snow_service.py:154-155 | Filtering out `None` keeps exactly the present values. |
| Wrappers.SomesAppend | backend/services/snow_service.py:154-155 | The filter keeps the order: filtering a concatenation concatenates the filtered parts. |
| Wrappers.SomesSingle | backend/services/snow_service.py:154-155 | A present value is kept and a `None` dropped. |
| Wrappers.LastPresent | backend/services/snow_service.py:163-165 | The last present value is one of the list's values. |
| Wrappers.LastOfSomes | backend/services/snow_service.py:163-171 | `[v for v in xs if v is not None][-1]` is the last present entry, and the filtered list is empty exactly when there is none. |
| Text.Split | backend/services/transport_service.py:167 | `split` gives one more piece than there are separators, and no piece contains the separator. |
| Text.JoinSplit | backend/services/transport_service.py:167 | Joining the pieces back with the separator gives the original string. |
| Text.ParseInt | backend/services/transport_service.py:168 | `int` succeeds exactly on ASCII digits with an optional leading sign. A digit string reads as its decimal value, and a sign applies to the digits after it. The empty string fails. |
| Text.ParseIntToString | backend/services/transport_service.py:168 | `int(str(i)) == i` for every integer. |
| Numeric.SumAtLeastLast | backend/services/snow_service.py:174 | A sum of non-negative values is at least its last value. |
| Text.ContainsIsOccurrence | backend/services/snow_service.py:281 | `word in text` holds exactly when `word` occurs at some index. |

## Left out

- HTTP requests, HTML parsing, JSON decoding, timeouts and logging are left out. What a request returns is a parameter. This covers the decoded connections, the forecast items, the Open-Meteo series, and the readings and text of a snow-forecast.com page. Locating the readings in the page's HTML (backend/services/snow_service.py:228-277) is not modelled.
- `asyncio` concurrency and the semaphores are left out. A batch is its per-resort task results in catalog order; the dictionary and the progress steps are built from them.
- Exceptions other than those the code catches are left out. The non-progress `generate_recommendations` (backend/core/recommender.py:51-153) is left out as well: it scores and ranks exactly like `generate_recommendations_with_progress`, without a tracker.
- The LLM summary, the weekend label text and `generated_at` are left out. The FastAPI layer in main.py is not part of this model.
- The date defaults of the recommender are left out. The start location and the target date are folded into the per-resort task results.
- Timestamp parsing is the parameter `parseTime`. Converting an item's Unix time to a local date is the item's `day` field.
- Numeric.RoundHalfEven: works on exact reals, so binary floating-point representation effects on ties are not modelled. The same goes for `Numeric.RoundTenth` and every score built from them.
- Text.Lower: only ASCII letters are case-mapped; `Text.Upper` likewise.
- Text.ParseInt: no surrounding whitespace or digit-group underscores, which Python's `int` accepts.
- WeatherService.KeyOf: the key is the pair of coordinates rounded to four decimals, not the formatted string. So `-0.0000` and `0.0000` share a key here, but not in the source.
- WeatherService.MostCommon: on a tie the model picks the earliest description. The source picks by set iteration order, which depends on string hashing.
- The per-service `cache_hours` settings are the `ttlHours` parameters. Their defaults are the constants `SnowCacheHours`, `TransportCacheHours` and `WeatherCacheHours`. `cache_enabled` is the `enabled` parameter.
- Pydantic validation is left out beyond what the parsers reject. The model does cover two rejections: a `null` `transfers`, which makes the journey fail, and a `null` station or line name, which makes the segment fail. A `null` station object is modelled as a `null` name.
- TransportService.ParseConnection: a `null` entry in `sections` is not representable. In the source, `section.get` on it raises, and the whole connection becomes `None` (backend/services/transport_service.py:101-117).
- TransportService.ParseSegment: a `null` departure or arrival object is not representable. In the source, `.get` on it raises, and the segment is dropped (backend/services/transport_service.py:133-146). A missing object reads as `{}`, as in the model.
- The record fields that nothing in the core reads are kept but unconstrained. These are the elevations, the website, the Magic Pass flag, and the lift and run counts.
- TransportService.ParseSegments: its own contract bounds only the number of segments. Which segment each section gives, and in which order, is stated by `ParseSegmentsSingle`, `ParseSegmentsCons` and `ParseSegmentsAppend`.
- Scoring.Note: a highlight or concern is a note kind with the value it reports. The f-string texts and their `:.0f` and `:.1f` rounding are not modelled.
- Batch.Collect: task results are values. The in-place change of a cached journey is modelled for one request (`GetResortJourneyAsWritten`), but a batch does not thread one cache through its tasks, so the leak from one resort's task into another's is not modelled.
- main.py picks "next Saturday" with a formula that lacks the today-is-Saturday case that `_get_next_weekend_dates` has. main.py is not part of this model.

## Findings

| source | as written | input that shows it | evidently intended | confidence | as-written member | corrected member |
|---|---|---|---|---|---|---|
| backend/services/transport_service.py:198 | The PostBus minutes are added in place to the journey object `get_journey` returned. With caching on, that object is the cached one. | A resort whose name has no connection, reached by its station with a 20-minute PostBus leg, requested twice within 24 h. The second answer is 20 minutes longer than the first. The same leak crosses resorts in one batch: resorts A then B, neither with a connection by name, share nearest station S, with PostBus legs pA and pB. When B's task runs after A's lookup of S is cached, A's returned journey object ends up lengthened by pA + pB. | Add the PostBus leg to a copy, so repeated requests agree. | not executed | TransportService.GetResortJourneyAsWritten, TransportService.PostBusCountedTwice | TransportService.GetResortJourney, TransportService.RepeatedRequestsAgree |
| backend/services/resort_service.py:71 | `r.canton.upper()` on every resort, although `canton` is `None` for French and Italian resorts. | A catalog with one resort in canton VS and one French resort, queried for "vs". The query raises `AttributeError` instead of returning the VS resort. | Skip resorts without a canton. | not executed | ResortService.ByCantonAsWritten, ResortService.CantonlessResortBreaksQuery | ResortService.ByCanton, ResortService.CantonFiltersAgree |

=== FILE: batch.dfy ===
/** Assembly of a batch fetch. Each resort's fetch runs as its own task; the
    results come back in task order (catalog order), a task that raised is
    logged and skipped, and every other result is stored under its resort's
    id, so a later resort with the same id overwrites an earlier one. */
module Batch {
  import opened Models

  /** The outcome of one resort's task: it raised, or it returned a value. */
  datatype TaskResult<V> = Raised | Completed(value: V)

  /** The batch's dictionary from resort id to result. */
  function Collect<V>(resorts: seq<Resort>, results: seq<TaskResult<V>>): (m: map<string, V>)
    requires |results| == |resorts|
    ensures forall k :: k in m <==>
              exists i :: 0 <= i < |resorts| && resorts[i].id == k && results[i].Completed?
    decreases |resorts|
  {
    if |resorts| == 0 then map[]
    else
      var n := |resorts| - 1;
      var m := Collect(resorts[..n], results[..n]);
      if results[n].Completed? then m[resorts[n].id := results[n].value] else m
  }

  predicate DistinctIds(resorts: seq<Resort>) {
    forall i, j :: 0 <= i < j < |resorts| ==> resorts[i].id != resorts[j].id
  }

  /** With distinct ids the dictionary does not depend on the order tasks
      finish in: each id maps to its own resort's result, and a resort whose
      task raised has no entry. */
  lemma {:induction false} CollectByResort<V>(resorts: seq<Resort>, results: seq<TaskResult<V>>, i: int)
    requires |results| == |resorts| && DistinctIds(resorts) && 0 <= i < |resorts|
    ensures results[i].Completed? ==>
              resorts[i].id in Collect(resorts, results) && Collect(resorts, results)[resorts[i].id] == results[i].value
    ensures results[i].Raised? ==> resorts[i].id !in Collect(resorts, results)
    decreases |resorts|
  {
    var n := |resorts| - 1;
    if i < n {
      CollectByResort(resorts[..n], results[..n], i);
    }
  }

  /** Number of tasks that returned: each of them reported one progress step. */
  function CompletedCount<V>(results: seq<TaskResult<V>>): (n: nat)
    ensures n <= |results|
    ensures n == |results| <==> forall i :: 0 <= i < |results| ==> results[i].Completed?
    ensures n == 0 <==> forall i :: 0 <= i < |results| ==> results[i].Raised?
  {
    if |results| == 0 then 0
    else CompletedCount(results[..|results| - 1]) + (if results[|results| - 1].Completed? then 1 else 0)
  }

  /** Counting is additive over task order: the count of a concatenation is
      the sum of the counts, so each task contributes exactly one step if it
      completed and none if it raised. */
  lemma {:induction false} CompletedCountAppend<V>(a: seq<TaskResult<V>>, b: seq<TaskResult<V>>)
    ensures CompletedCount(a + b) == CompletedCount(a) + CompletedCount(b)
    decreases |b|
  {
    if |b| == 0 {
      assert a + b == a;
    } else {
      var n := |b| - 1;
      assert (a + b)[..|a + b| - 1] == a + b[..n];
      assert (a + b)[|a + b| - 1] == b[n];
      CompletedCountAppend(a, b[..n]);
    }
  }

  /** One task's own contribution to the count. */
  lemma CompletedCountSingle<V>(t: TaskResult<V>)
    ensures CompletedCount([t]) == if t.Completed? then 1 else 0
  {
    assert [t][..0] == [];
  }

  /** `dict.get(id)` on a batch whose values are themselves optional: absent
      keys and absent values both read as `None`. */
  function Lookup<V>(m: map<string, Wrappers.Option<V>>, id: string): Wrappers.Option<V> {
    if id in m then m[id] else Wrappers.None
  }
}

=== FILE: cache.dfy ===
/** The in-memory cache with a time-to-live per entry, as a value-level state
    machine. The clock is an integer number of seconds passed in by the
    caller; an entry written at `now` with a TTL of `h` hours expires at
    `now + h * 3600` and reads as absent from that instant on. */
module Cache {
  import opened Wrappers

  const SecondsPerHour: int := 3600

  datatype Entry<V> = Entry(value: V, expiry: int)

  datatype SimpleCache<K, V> = SimpleCache(entries: map<K, Entry<V>>)

  /** What a read returns: the value found, and the cache after lazy eviction. */
  datatype Lookup<K, V> = Lookup(value: Option<V>, cache: SimpleCache<K, V>)

  function Empty<K, V>(): (c: SimpleCache<K, V>)
    ensures |c.entries| == 0
  {
    SimpleCache(map[])
  }

  /** An entry is live at `now` when `now` is strictly before its expiry. */
  predicate Live<V>(e: Entry<V>, now: int) {
    now < e.expiry
  }

  /** `get`: a live entry's value; an expired entry is deleted and reads as
      absent; an absent key reads as absent and changes nothing. */
  function Get<K, V>(c: SimpleCache<K, V>, key: K, now: int): (r: Lookup<K, V>)
    ensures key in c.entries && Live(c.entries[key], now) ==>
              r == Lookup(Some(c.entries[key].value), c)
    ensures key in c.entries && !Live(c.entries[key], now) ==>
              r.value.None? && r.cache.entries == c.entries - {key}
    ensures key !in c.entries ==> r == Lookup(None, c)
    ensures r.cache.entries.Keys <= c.entries.Keys
  {
    if key in c.entries then
      var e := c.entries[key];
      if now < e.expiry then Lookup(Some(e.value), c)
      else Lookup(None, SimpleCache(c.entries - {key}))
    else Lookup(None, c)
  }

  /** `set`: last write wins; the entry expires `ttlHours` hours from `now`.
      Every other entry is kept as it was. */
  function Set<K, V>(c: SimpleCache<K, V>, key: K, value: V, ttlHours: int, now: int): (r: SimpleCache<K, V>)
    ensures key in r.entries && r.entries[key] == Entry(value, now + ttlHours * SecondsPerHour)
    ensures r.entries.Keys == c.entries.Keys + {key}
    ensures forall k :: k in c.entries && k != key ==> r.entries[k] == c.entries[k]
  {
    SimpleCache(c.entries[key := Entry(value, now + ttlHours * SecondsPerHour)])
  }

  /** `clear`: drop every entry. */
  function Clear<K, V>(c: SimpleCache<K, V>): (r: SimpleCache<K, V>)
    ensures forall k :: k !in r.entries
  {
    Empty()
  }

  /** The keys whose entries have expired at `now`. */
  function ExpiredKeys<K, V>(c: SimpleCache<K, V>, now: int): set<K> {
    set k | k in c.entries && !Live(c.entries[k], now)
  }

  /** The cache with every expired entry removed and every live one kept. */
  function Swept<K, V>(c: SimpleCache<K, V>, now: int): (r: SimpleCache<K, V>)
    ensures r.entries.Keys == c.entries.Keys - ExpiredKeys(c, now)
    ensures forall k :: k in r.entries ==> r.entries[k] == c.entries[k] && Live(c.entries[k], now)
  {
    SimpleCache(map k | k in c.entries && Live(c.entries[k], now) :: c.entries[k])
  }

  /** Removing exactly the expired keys from the cache leaves `Swept`, which
      is smaller by the number of expired keys. */
  lemma SweptByRemoval<K, V>(c: SimpleCache<K, V>, now: int, entries: map<K, Entry<V>>)
    requires entries.Keys == c.entries.Keys - ExpiredKeys(c, now)
    requires forall k :: k in entries ==> entries[k] == c.entries[k]
    ensures SimpleCache(entries) == Swept(c, now)
    ensures |entries| == |c.entries| - |ExpiredKeys(c, now)|
  {
    var expired := ExpiredKeys(c, now);
    assert entries == Swept(c, now).entries;
    assert c.entries.Keys == entries.Keys + expired;
    assert entries.Keys !! expired;
    assert |c.entries.Keys| == |entries.Keys| + |expired|;
  }

  /** `cleanup`: delete the expired entries one by one and count them. */
  method Cleanup<K, V>(c: SimpleCache<K, V>, now: int) returns (r: SimpleCache<K, V>, removed: nat)
    ensures r == Swept(c, now)
    ensures removed == |ExpiredKeys(c, now)|
    ensures removed == |c.entries| - |r.entries|
  {
    var expired := ExpiredKeys(c, now);
    var pending := expired;
    var entries := c.entries;
    ghost var done: set<K> := {};
    removed := 0;
    while pending != {}
      invariant done !! pending && done + pending == expired
      invariant entries.Keys == c.entries.Keys - done
      invariant forall k :: k in entries ==> entries[k] == c.entries[k]
      invariant removed == |done|
      decreases pending
    {
      var k :| k in pending;
      entries := entries - {k};
      pending := pending - {k};
      done := done + {k};
      removed := removed + 1;
    }
    r := SimpleCache(entries);
    SweptByRemoval(c, now, entries);
  }

  /** A read never yields a stale value: whatever `get` returns was stored
      under that key and is still live. */
  lemma GetNeverStale<K, V>(c: SimpleCache<K, V>, key: K, now: int)
    ensures Get(c, key, now).value.Some? ==>
              key in c.entries && Live(c.entries[key], now)
              && Get(c, key, now).value.value == c.entries[key].value
  {
  }

  /** Round trip: a value written with a TTL is read back until the TTL has
      elapsed and reads as absent from then on. */
  lemma {:induction false} SetThenGet<K, V>(c: SimpleCache<K, V>, key: K, value: V, ttlHours: int, now: int, later: int)
    ensures later < now + ttlHours * SecondsPerHour ==>
              Get(Set(c, key, value, ttlHours, now), key, later).value == Some(value)
    ensures later >= now + ttlHours * SecondsPerHour ==>
              Get(Set(c, key, value, ttlHours, now), key, later).value == None
  {
  }

  /** Writing one key leaves what every other key reads unchanged. */
  lemma SetOtherKey<K, V>(c: SimpleCache<K, V>, key: K, other: K, value: V, ttlHours: int, now: int, later: int)
    requires other != key
    ensures Get(Set(c, key, value, ttlHours, now), other, later).value == Get(c, other, later).value
  {
  }

  /** After `clear` every read misses. */
  lemma ClearThenGet<K, V>(c: SimpleCache<K, V>, key: K, now: int)
    ensures Get(Clear(c), key, now) == Lookup(None, Empty())
  {
  }

  /** Eager eviction by `cleanup` is invisible to readers: every key reads
      the same from the swept cache as from the original one. */
  lemma SweptReadsAlike<K, V>(c: SimpleCache<K, V>, key: K, now: int)
    ensures Get(Swept(c, now), key, now).value == Get(c, key, now).value
  {
  }

  /** The read-through policy every service applies: with caching enabled, a
      live entry is returned as is; otherwise the `fetched` result is used and
      stored only when it is present. With caching disabled the cache is
      neither read nor written. */
  function ReadThrough<K, V>(c: SimpleCache<K, V>, enabled: bool, key: K, now: int, ttlHours: int, fetched: Option<V>): (r: Lookup<K, V>)
    ensures enabled && Get(c, key, now).value.Some? ==> r == Get(c, key, now)
    ensures !(enabled && Get(c, key, now).value.Some?) ==> r.value == fetched
    ensures !enabled ==> r.cache == c
    ensures enabled && Get(c, key, now).value.None? && fetched.Some? ==>
              r.cache == Set(Get(c, key, now).cache, key, fetched.value, ttlHours, now)
    ensures fetched.None? ==> r.cache.entries.Keys <= c.entries.Keys
    ensures forall k :: k in c.entries && k != key ==> k in r.cache.entries && r.cache.entries[k] == c.entries[k]
  {
    if !enabled then Lookup(fetched, c)
    else
      var hit := Get(c, key, now);
      if hit.value.Some? then hit
      else if fetched.Some? then Lookup(fetched, Set(hit.cache, key, fetched.value, ttlHours, now))
      else Lookup(None, hit.cache)
  }

  /** A present result fetched through the cache is served from the cache,
      unchanged, on every later read before its TTL runs out. */
  lemma ReadThroughThenHit<K, V>(c: SimpleCache<K, V>, key: K, now: int, ttlHours: int, fetched: Option<V>, later: int, again: Option<V>)
    requires ReadThrough(c, true, key, now, ttlHours, fetched).value.Some?
    requires Get(c, key, now).value.None?
    requires now <= later < now + ttlHours * SecondsPerHour
    ensures ReadThrough(ReadThrough(c, true, key, now, ttlHours, fetched).cache, true, key, later, ttlHours, again).value
            == ReadThrough(c, true, key, now, ttlHours, fetched).value
  {
  }
}

=== FILE: models.dfy ===
/** The records the services exchange: catalog entries, weather forecasts,
    snow reports and public-transport journeys. Timestamps and dates are
    integers: instants are seconds on the process clock, dates are Python
    proleptic ordinals (`date.toordinal()`). */
module Models {
  import opened Wrappers

  datatype Coordinates = Coordinates(latitude: real, longitude: real)

  /** How a resort is reached from the rail network. */
  datatype AccessInfo = AccessInfo(
    nearestStation: string,
    postbusRequired: bool,
    postbusDurationMinutes: Option<int>)

  /** One catalog entry. `canton` is absent for French and Italian resorts. */
  datatype Resort = Resort(
    id: string,
    name: string,
    region: string,
    canton: Option<string>,
    country: string,
    coordinates: Coordinates,
    elevationBase: int,
    elevationTop: int,
    access: AccessInfo,
    website: string,
    magicPassValid: bool,
    snowForecastSlug: Option<string>,
    skiableTerrainKm: Option<real>)

  datatype Visibility = Good | Moderate | Poor

  /** The day's weather at one resort. */
  datatype WeatherForecast = WeatherForecast(
    date: int,
    temperatureMin: real,
    temperatureMax: real,
    precipitationMm: real,
    snowfallCm: Option<real>,
    windSpeed: real,
    windDirection: string,
    cloudCover: int,
    visibility: Visibility,
    conditions: string,
    icon: string)

  /** A snow report. `snowQuality` is free text compared case-insensitively. */
  datatype SnowConditions = SnowConditions(
    resortId: string,
    dateUpdated: int,
    snowBase: Option<int>,
    snowSummit: Option<int>,
    newSnow24h: Option<int>,
    newSnow7d: Option<int>,
    snowQuality: string,
    liftsOpen: Option<int>,
    runsOpen: Option<int>)

  datatype TransportKind = Train | Bus

  datatype JourneySegment = JourneySegment(
    kind: TransportKind,
    fromStation: string,
    toStation: string,
    departure: int,
    arrival: int,
    line: string)

  /** The best public-transport connection to a destination. */
  datatype Journey = Journey(
    departureTime: int,
    arrivalTime: int,
    durationMinutes: int,
    changes: int,
    segments: seq<JourneySegment>)
}

=== FILE: numeric.dfy ===
/** Numeric helpers standing for Python builtins on floats, computed on exact
    reals: `round` (half to even), `round(x, 1)`, `int()` truncation, `sum`,
    `min`, `max`, and the `max(0.0, min(10.0, x))` clamp of the scorer. */
module Numeric {

  /** Python's `round(x)` on an exact real: nearest integer, ties to even. */
  function RoundHalfEven(x: real): (r: int)
    ensures x - 0.5 <= r as real <= x + 0.5
    ensures x - x.Floor as real == 0.5 ==> r % 2 == 0
  {
    var f := x.Floor;
    var d := x - f as real;
    if d < 0.5 then f
    else if d > 0.5 then f + 1
    else if f % 2 == 0 then f
    else f + 1
  }

  /** Rounding never reverses the order of two values. */
  lemma RoundHalfEvenMonotone(x: real, y: real)
    requires x <= y
    ensures RoundHalfEven(x) <= RoundHalfEven(y)
  {
    var fx, fy := x.Floor, y.Floor;
    if fx < fy {
      assert RoundHalfEven(x) <= fx + 1 <= fy <= RoundHalfEven(y);
    }
  }

  /** Rounding leaves an integer where it is. */
  lemma RoundHalfEvenOfInt(k: int)
    ensures RoundHalfEven(k as real) == k
  {
    assert (k as real).Floor == k;
  }

  /** Rounding commutes with shifting by an even whole number (an odd shift
      moves the ties to the other parity). */
  lemma RoundHalfEvenShift(x: real, k: int)
    requires k % 2 == 0
    ensures RoundHalfEven(x + k as real) == RoundHalfEven(x) + k
  {
    assert (x + k as real).Floor == x.Floor + k;
    assert (x + k as real) - (x.Floor + k) as real == x - x.Floor as real;
    assert (x.Floor + k) % 2 == x.Floor % 2;
  }

  /** Python's `round(x, 1)` on an exact real: the nearest multiple of a
      tenth, a tie going to the even number of tenths. */
  function RoundTenth(x: real): (r: real)
    ensures x - 0.05 <= r <= x + 0.05
    ensures (r * 10.0).Floor as real == r * 10.0
    ensures x * 10.0 - (x * 10.0).Floor as real == 0.5 ==> (r * 10.0).Floor % 2 == 0
  {
    var tenths := RoundHalfEven(x * 10.0);
    assert (tenths as real / 10.0) * 10.0 == tenths as real;
    tenths as real / 10.0
  }

  lemma RoundTenthMonotone(x: real, y: real)
    requires x <= y
    ensures RoundTenth(x) <= RoundTenth(y)
  {
    RoundHalfEvenMonotone(x * 10.0, y * 10.0);
  }

  /** A number with at most one decimal is left unchanged by `round(x, 1)`. */
  lemma RoundTenthOfTenths(k: int)
    ensures RoundTenth(k as real / 10.0) == k as real / 10.0
  {
    assert (k as real / 10.0) * 10.0 == k as real;
    RoundHalfEvenOfInt(k);
  }

  /** `max(0.0, min(10.0, x))`. */
  function ClampScore(x: real): (r: real)
    ensures 0.0 <= r <= 10.0
    ensures 0.0 <= x <= 10.0 ==> r == x
    ensures x > 10.0 ==> r == 10.0
    ensures x < 0.0 ==> r == 0.0
  {
    var upper := if x < 10.0 then x else 10.0;
    if upper > 0.0 then upper else 0.0
  }

  lemma ClampScoreMonotone(x: real, y: real)
    requires x <= y
    ensures ClampScore(x) <= ClampScore(y)
  {
  }

  /** A clamped and rounded score stays in [0, 10]. */
  lemma RoundedClampInRange(x: real)
    ensures 0.0 <= RoundTenth(ClampScore(x)) <= 10.0
  {
    RoundTenthMonotone(0.0, ClampScore(x));
    RoundTenthMonotone(ClampScore(x), 10.0);
    RoundTenthOfTenths(0);
    RoundTenthOfTenths(100);
  }

  /** Python's `int(x)` for a float: truncation toward zero. */
  function Trunc(x: real): (r: int)
    ensures x >= 0.0 ==> 0 <= r && r as real <= x < r as real + 1.0
    ensures x < 0.0 ==> r <= 0 && r as real - 1.0 < x <= r as real
  {
    if x >= 0.0 then x.Floor else -((-x).Floor)
  }

  function Sum(s: seq<real>): real {
    if |s| == 0 then 0.0 else s[0] + Sum(s[1..])
  }

  /** A sum of non-negative values is at least its last value. */
  lemma {:induction false} SumAtLeastLast(s: seq<real>)
    requires |s| > 0
    requires forall i :: 0 <= i < |s| ==> s[i] >= 0.0
    ensures Sum(s) >= s[|s| - 1]
  {
    if |s| > 1 {
      SumAtLeastLast(s[1..]);
    }
  }

  function SumInt(s: seq<int>): int {
    if |s| == 0 then 0 else s[0] + SumInt(s[1..])
  }

  /** Python's `min(s)` on a non-empty list. */
  function MinOf(s: seq<real>): (r: real)
    requires |s| > 0
    ensures r in s
    ensures forall i :: 0 <= i < |s| ==> r <= s[i]
  {
    if |s| == 1 then s[0]
    else
      var rest := MinOf(s[1..]);
      if s[0] <= rest then s[0] else rest
  }

  /** Python's `max(s)` on a non-empty list. */
  function MaxOf(s: seq<real>): (r: real)
    requires |s| > 0
    ensures r in s
    ensures forall i :: 0 <= i < |s| ==> s[i] <= r
  {
    if |s| == 1 then s[0]
    else
      var rest := MaxOf(s[1..]);
      if s[0] >= rest then s[0] else rest
  }
}

=== FILE: progress.dfy ===
/** The progress tracker: the current stage with its counters, and the FIFO
    queue of updates the streaming endpoint drains. */
module Progress {
  import opened Wrappers
  import opened Text

  /** The stages of one recommendation request, in the order they are run. */
  datatype Stage =
    | LoadingResorts
    | FetchingWeather
    | ScrapingSnow
    | FetchingTransport
    | Scoring
    | GeneratingAi
    | Complete

  /** The enum's string value, as serialised to the client. */
  function StageValue(s: Stage): string {
    match s
    case LoadingResorts => "loading_resorts"
    case FetchingWeather => "fetching_weather"
    case ScrapingSnow => "scraping_snow"
    case FetchingTransport => "fetching_transport"
    case Scoring => "scoring"
    case GeneratingAi => "generating_ai"
    case Complete => "complete"
  }

  /** `ProgressStage(value)`: the stage with that value, if any. */
  function ParseStage(v: string): (r: Option<Stage>)
    ensures r.Some? ==> StageValue(r.value) == v
  {
    if v == "loading_resorts" then Some(LoadingResorts)
    else if v == "fetching_weather" then Some(FetchingWeather)
    else if v == "scraping_snow" then Some(ScrapingSnow)
    else if v == "fetching_transport" then Some(FetchingTransport)
    else if v == "scoring" then Some(Scoring)
    else if v == "generating_ai" then Some(GeneratingAi)
    else if v == "complete" then Some(Complete)
    else None
  }

  /** Every stage is recovered from its value, so values are distinct. */
  lemma ParseStageValue(s: Stage)
    ensures ParseStage(StageValue(s)) == Some(s)
  {
  }

  /** One progress update sent to the client. */
  datatype Update = Update(stage: Stage, message: string, current: int, total: int)

  /** A JSON value in the serialised update. */
  datatype DictValue = Text(text: string) | Number(number: int)

  /** `ProgressUpdate.to_dict`: four keys, one per field. */
  function ToDict(u: Update): (d: map<string, DictValue>)
    ensures d.Keys == {"stage", "message", "current", "total"}
    ensures d["stage"] == Text(StageValue(u.stage))
    ensures d["message"] == Text(u.message)
    ensures d["current"] == Number(u.current) && d["total"] == Number(u.total)
  {
    map["stage" := Text(StageValue(u.stage)), "message" := Text(u.message),
        "current" := Number(u.current), "total" := Number(u.total)]
  }

  /** Reads an update back from its dictionary form. */
  function FromDict(d: map<string, DictValue>): Option<Update> {
    if "stage" in d && "message" in d && "current" in d && "total" in d
       && d["stage"].Text? && d["message"].Text? && d["current"].Number? && d["total"].Number?
    then
      match ParseStage(d["stage"].text)
      case None => None
      case Some(s) => Some(Update(s, d["message"].text, d["current"].number, d["total"].number))
    else None
  }

  /** `to_dict` loses nothing: the update is recovered from its dictionary. */
  lemma ToDictRoundTrip(u: Update)
    ensures FromDict(ToDict(u)) == Some(u)
  {
    ParseStageValue(u.stage);
  }

  /** The tracker: current stage (none before the first `set_stage`), the
      counters of that stage, and the queue of updates not yet consumed. */
  datatype Tracker = Tracker(stage: Option<Stage>, count: int, total: int, queue: seq<Update>)

  function NewTracker(): Tracker {
    Tracker(None, 0, 0, [])
  }

  /** `set_stage`: switch stage, reset the count, record the total, and
      enqueue an update announcing the stage with 0 of `total` done. */
  function SetStage(t: Tracker, stage: Stage, message: string, total: int): (r: Tracker)
    ensures r.stage == Some(stage) && r.count == 0 && r.total == total
    ensures r.queue == t.queue + [Update(stage, message, 0, total)]
  {
    Tracker(Some(stage), 0, total, t.queue + [Update(stage, message, 0, total)])
  }

  /** The message prefix of an increment in `stage`. */
  function StageLabel(stage: Stage): string {
    match stage
    case FetchingWeather => "Fetching weather from OpenWeather..."
    case ScrapingSnow => "Getting snow conditions from snow-forecast.com..."
    case FetchingTransport => "Getting transport from Swiss Transport API..."
    case _ => "Processing..."
  }

  /** The message of an increment: the stage's label then `(current/total)`. */
  function IncrementMessage(stage: Stage, current: int, total: int): (m: string)
    ensures |m| > |StageLabel(stage)| && m[..|StageLabel(stage)|] == StageLabel(stage)
    ensures m[|m| - 1] == ')'
    ensures m[|StageLabel(stage)|..] == " (" + IntToString(current) + "/" + IntToString(total) + ")"
  {
    var prefix := StageLabel(stage);
    var counts := " (" + IntToString(current) + "/" + IntToString(total) + ")";
    assert (prefix + counts)[..|prefix|] == prefix && (prefix + counts)[|prefix|..] == counts;
    prefix + counts
  }

  /** The counts can be read back from an increment's message: the text
      between the label's " (" and the closing ')' splits at '/' into two
      pieces that `int` reads as `current` and `total`. */
  lemma IncrementCountsReadBack(stage: Stage, current: int, total: int)
    ensures var m := IncrementMessage(stage, current, total);
            var n := |StageLabel(stage)|;
            n + 2 <= |m| - 1 && Split(m[n + 2..|m| - 1], '/') == [IntToString(current), IntToString(total)]
    ensures ParseInt(IntToString(current)) == Some(current) && ParseInt(IntToString(total)) == Some(total)
  {
    var c, t := IntToString(current), IntToString(total);
    var m := IncrementMessage(stage, current, total);
    var n := |StageLabel(stage)|;
    CountsBetweenParens(StageLabel(stage), c, t);
    assert m[n + 2..|m| - 1] == c + ['/'] + t;
    NoSlashInNumber(current);
    NoSlashInNumber(total);
    SplitAtFirst(c, '/', t);
    SplitWithoutSeparator(t, '/');
    ParseIntToString(current);
    ParseIntToString(total);
  }

  /** The text between " (" and the closing ')' after any prefix. */
  lemma CountsBetweenParens(prefix: string, c: string, t: string)
    ensures var m := prefix + (" (" + c + "/" + t + ")");
            |prefix| + 2 <= |m| - 1 && m[|prefix| + 2..|m| - 1] == c + ['/'] + t
  {
  }

  /** `str(i)` is a sign and digits, never a '/'. */
  lemma NoSlashInNumber(i: int)
    ensures '/' !in IntToString(i)
  {
    var digits := NatToString(if i < 0 then -i else i);
    assert forall k :: 0 <= k < |digits| ==> IsDigit(digits[k]);
    assert '/' !in digits;
  }

  /** `increment`: a no-op before any stage is set; otherwise record the
      counters and enqueue an update tagged with the current stage. */
  function Increment(t: Tracker, current: int, total: int): (r: Tracker)
    ensures t.stage.None? ==> r == t
    ensures t.stage.Some? ==>
              r.stage == t.stage && r.count == current && r.total == total
              && r.queue == t.queue + [Update(t.stage.value, IncrementMessage(t.stage.value, current, total), current, total)]
  {
    match t.stage
    case None => t
    case Some(s) =>
      Tracker(Some(s), current, total,
              t.queue + [Update(s, IncrementMessage(s, current, total), current, total)])
  }

  /** `complete`: enqueue the COMPLETE update with 0/0. The tracker's own
      stage and counters are left as they were. */
  function MarkComplete(t: Tracker): (r: Tracker)
    ensures r.stage == t.stage && r.count == t.count && r.total == t.total
    ensures r.queue == t.queue + [Update(Complete, "Complete!", 0, 0)]
  {
    t.(queue := t.queue + [Update(Complete, "Complete!", 0, 0)])
  }

  /** The consumer side of the queue: the oldest update, if any. */
  function Take(t: Tracker): (r: Option<(Update, Tracker)>)
    ensures |t.queue| == 0 <==> r.None?
    ensures r.Some? ==> [r.value.0] + r.value.1.queue == t.queue
  {
    if |t.queue| == 0 then None else Some((t.queue[0], t.(queue := t.queue[1..])))
  }

  /** A call made on the tracker. */
  datatype Call =
    | SetStageCall(stage: Stage, message: string, total: int)
    | IncrementCall(current: int, total: int)
    | CompleteCall

  function Apply(t: Tracker, c: Call): Tracker {
    match c
    case SetStageCall(s, m, n) => SetStage(t, s, m, n)
    case IncrementCall(cur, n) => Increment(t, cur, n)
    case CompleteCall => MarkComplete(t)
  }

  /** The tracker after a sequence of calls, made in order. */
  function Run(t: Tracker, calls: seq<Call>): Tracker
    decreases |calls|
  {
    if |calls| == 0 then t else Run(Apply(t, calls[0]), calls[1..])
  }

  /** The queue is first-in first-out: calls only append, so what was already
      queued stays at the front in its order, and each call adds at most one
      update. */
  lemma {:induction false} RunAppends(t: Tracker, calls: seq<Call>)
    ensures |t.queue| <= |Run(t, calls).queue| <= |t.queue| + |calls|
    ensures Run(t, calls).queue[..|t.queue|] == t.queue
    decreases |calls|
  {
    if |calls| > 0 {
      var t' := Apply(t, calls[0]);
      assert t'.queue[..|t.queue|] == t.queue;
      RunAppends(t', calls[1..]);
      assert Run(t, calls) == Run(t', calls[1..]);
      assert Run(t, calls).queue[..|t.queue|] == Run(t, calls).queue[..|t'.queue|][..|t.queue|];
    }
  }

  /** The update a stage-setting or completing call enqueues, whatever the state. */
  function Announcement(c: Call): Update
    requires !c.IncrementCall?
  {
    match c
    case SetStageCall(s, m, n) => Update(s, m, 0, n)
    case CompleteCall => Update(Complete, "Complete!", 0, 0)
  }

  /** Without increments, the queue receives exactly one update per call, in
      the order the calls were made. */
  lemma {:induction false} RunAnnouncements(t: Tracker, calls: seq<Call>)
    requires forall i :: 0 <= i < |calls| ==> !calls[i].IncrementCall?
    ensures Run(t, calls).queue == t.queue + seq(|calls|, i requires 0 <= i < |calls| => Announcement(calls[i]))
    decreases |calls|
  {
    if |calls| > 0 {
      var t' := Apply(t, calls[0]);
      assert t'.queue == t.queue + [Announcement(calls[0])];
      RunAnnouncements(t', calls[1..]);
      var rest := seq(|calls| - 1, i requires 0 <= i < |calls| - 1 => Announcement(calls[1..][i]));
      var all := seq(|calls|, i requires 0 <= i < |calls| => Announcement(calls[i]));
      assert all == [Announcement(calls[0])] + rest;
    }
  }

  /** The stages of a list of updates with consecutive repeats merged: the
      stage sequence an observer of the queue sees. */
  function Collapse(stages: seq<Stage>): (r: seq<Stage>)
    ensures |r| <= |stages|
    ensures |stages| > 0 ==> |r| > 0 && r[0] == stages[0]
    ensures forall i :: 0 <= i < |r| - 1 ==> r[i] != r[i + 1]
  {
    if |stages| <= 1 then stages
    else if stages[0] == stages[1] then Collapse(stages[1..])
    else [stages[0]] + Collapse(stages[1..])
  }

  function StagesOf(q: seq<Update>): seq<Stage> {
    seq(|q|, i requires 0 <= i < |q| => q[i].stage)
  }

  /** The stages of a concatenation are the concatenated stages. */
  lemma StagesOfAppend(a: seq<Update>, b: seq<Update>)
    ensures StagesOf(a + b) == StagesOf(a) + StagesOf(b)
  {
  }

  /** The fixed stage order of the recommendation pipeline. */
  const PipelineStages: seq<Stage> :=
    [LoadingResorts, FetchingWeather, ScrapingSnow, FetchingTransport, Scoring, GeneratingAi, Complete]
}

=== FILE: ranking.dfy ===
/** Ranking: Python's `list.sort(key=..., reverse=True)`, a stable sort in
    descending key order (items with equal keys keep their original order),
    and the `[:n]` slice that keeps the top of the list. */
module Ranking {

  /** Non-increasing in the key from front to back. */
  predicate Descending<T>(s: seq<T>, key: T -> real) {
    forall i, j :: 0 <= i < j < |s| ==> key(s[i]) >= key(s[j])
  }

  /** Puts `x` in front of the first element whose key is not larger. */
  function Insert<T>(x: T, s: seq<T>, key: T -> real): (r: seq<T>)
    ensures multiset(r) == multiset(s) + multiset{x}
    ensures |r| == |s| + 1
  {
    if |s| == 0 || key(s[0]) <= key(x) then [x] + s
    else
      assert s == [s[0]] + s[1..];
      [s[0]] + Insert(x, s[1..], key)
  }

  /** Every key of a list is at most `b`. */
  predicate Bounded<T>(s: seq<T>, key: T -> real, b: real) {
    forall k :: 0 <= k < |s| ==> key(s[k]) <= b
  }

  /** Inserting an element under the bound keeps the list under it. */
  lemma {:induction false} InsertKeepsBound<T>(x: T, s: seq<T>, key: T -> real, b: real)
    requires Bounded(s, key, b) && key(x) <= b
    ensures Bounded(Insert(x, s, key), key, b)
  {
    if |s| > 0 && key(s[0]) > key(x) {
      InsertKeepsBound(x, s[1..], key, b);
    }
  }

  /** Inserting into a descending list keeps it descending. */
  lemma {:induction false} InsertKeepsDescending<T>(x: T, s: seq<T>, key: T -> real)
    requires Descending(s, key)
    ensures Descending(Insert(x, s, key), key)
  {
    if |s| == 0 || key(s[0]) <= key(x) {
      var r := [x] + s;
      forall i, j | 0 <= i < j < |r| ensures key(r[i]) >= key(r[j]) {
        assert r[j] == s[j - 1];
        if i > 0 {
          assert r[i] == s[i - 1];
        } else {
          assert key(s[0]) >= key(s[j - 1]);
        }
      }
    } else {
      var tail := s[1..];
      var rest := Insert(x, tail, key);
      InsertKeepsDescending(x, tail, key);
      assert Bounded(tail, key, key(s[0])) by {
        forall k | 0 <= k < |tail| ensures key(tail[k]) <= key(s[0]) {
          assert tail[k] == s[k + 1];
        }
      }
      InsertKeepsBound(x, tail, key, key(s[0]));
      var r := [s[0]] + rest;
      forall i, j | 0 <= i < j < |r| ensures key(r[i]) >= key(r[j]) {
        assert r[j] == rest[j - 1];
        if i > 0 {
          assert r[i] == rest[i - 1];
        }
      }
    }
  }

  /** The ranked list: sorted by key, largest first, stably. */
  function SortDescending<T>(s: seq<T>, key: T -> real): (r: seq<T>)
    ensures multiset(r) == multiset(s)
    ensures |r| == |s|
    ensures Descending(r, key)
  {
    if |s| == 0 then []
    else
      assert s == [s[0]] + s[1..];
      var sorted := SortDescending(s[1..], key);
      InsertKeepsDescending(s[0], sorted, key);
      var r := Insert(s[0], sorted, key);
      assert |r| == |multiset(r)|;
      r
  }

  /** The elements whose key equals `v`, in order. */
  function WithKey<T>(s: seq<T>, key: T -> real, v: real): seq<T> {
    if |s| == 0 then []
    else (if key(s[0]) == v then [s[0]] else []) + WithKey(s[1..], key, v)
  }

  /** Inserting `x` puts it in front of every element with the same key. */
  lemma {:induction false} InsertKeepsTies<T>(x: T, s: seq<T>, key: T -> real, v: real)
    ensures WithKey(Insert(x, s, key), key, v) == (if key(x) == v then [x] else []) + WithKey(s, key, v)
  {
    if |s| == 0 || key(s[0]) <= key(x) {
      assert ([x] + s)[1..] == s;
    } else {
      var rest := Insert(x, s[1..], key);
      InsertKeepsTies(x, s[1..], key, v);
      assert ([s[0]] + rest)[1..] == rest;
      assert WithKey([s[0]] + rest, key, v) == (if key(s[0]) == v then [s[0]] else []) + WithKey(rest, key, v);
      assert WithKey(s, key, v) == (if key(s[0]) == v then [s[0]] else []) + WithKey(s[1..], key, v);
    }
  }

  /** Stability: among elements with equal keys, the ranked list keeps the
      original order. */
  lemma {:induction false} SortIsStable<T>(s: seq<T>, key: T -> real, v: real)
    ensures WithKey(SortDescending(s, key), key, v) == WithKey(s, key, v)
  {
    if |s| > 0 {
      SortIsStable(s[1..], key, v);
      InsertKeepsTies(s[0], SortDescending(s[1..], key), key, v);
    }
  }

  /** Python's `s[:n]`; a negative `n` counts from the end. */
  function Take<T>(s: seq<T>, n: int): (r: seq<T>)
    ensures n >= 0 ==> |r| == (if n < |s| then n else |s|)
    ensures n < 0 ==> |r| == (if |s| + n > 0 then |s| + n else 0)
    ensures r == s[..|r|]
  {
    if n >= 0 then (if n < |s| then s[..n] else s)
    else (if |s| + n > 0 then s[..|s| + n] else [])
  }

  /** The top of the ranking dominates the rest: every kept element's key is
      at least every dropped element's key. */
  lemma TopDominatesRest<T>(s: seq<T>, key: T -> real, n: int)
    requires Descending(s, key)
    ensures forall i, j :: 0 <= i < |Take(s, n)| <= j < |s| ==> key(s[i]) >= key(s[j])
  {
  }
}

=== FILE: recommender.dfy ===
/** The recommender's sequential core: the next-weekend dates, one scored
    recommendation per catalog resort, the ranking and the top-N cut, the
    reasoning sentence, the stage sequence of the progress-reporting
    pipeline, and the single-resort details. What each service returns for
    a resort is a parameter; the concurrent fetching itself is not modelled. */
module Recommender {
  import opened Wrappers
  import opened Text
  import opened Models
  import opened Scoring
  import Batch
  import Ranking
  import Progress
  import ResortService

  /** `date.weekday()` of a proleptic ordinal: Monday is 0, and ordinal 1
      (1 January of year 1) is a Monday. */
  function Weekday(ordinal: int): (d: int)
    ensures 0 <= d < 7
  {
    (ordinal + 6) % 7
  }

  const Saturday: int := 5

  /** `_get_next_weekend_dates`: the first Saturday on or after `today`, and
      the Sunday after it. */
  function NextWeekend(today: int): (r: (int, int))
    ensures Weekday(r.0) == Saturday
    ensures today <= r.0 <= today + 6
    ensures r.0 == today <==> Weekday(today) == Saturday
    ensures forall d :: today <= d < r.0 ==> Weekday(d) != Saturday
    ensures r.1 == r.0 + 1
  {
    var daysUntilSaturday := (Saturday - Weekday(today)) % 7;
    var saturday := if daysUntilSaturday == 0 && Weekday(today) == Saturday then today
                    else today + (if daysUntilSaturday == 0 then 7 else daysUntilSaturday);
    WeekdayStep(today, saturday);
    (saturday, saturday + 1)
  }

  /** Weekdays advance by one per day, wrapping after Sunday. */
  lemma WeekdayAfter(today: int, m: nat)
    ensures Weekday(today + m) == (Weekday(today) + m) % 7
  {
    var q := (today + 6) / 7;
    assert today + 6 == 7 * q + Weekday(today);
    assert today + m + 6 == 7 * q + (Weekday(today) + m);
  }

  /** The day found by counting forward to Saturday is the first Saturday. */
  lemma WeekdayStep(today: int, saturday: int)
    requires saturday == today + (Saturday - Weekday(today)) % 7
    ensures Weekday(saturday) == Saturday
    ensures forall d :: today <= d < saturday ==> Weekday(d) != Saturday
  {
    WeekdayAfter(today, saturday - today);
    forall d | today <= d < saturday ensures Weekday(d) != Saturday {
      WeekdayAfter(today, d - today);
    }
  }

  /** The opening clause of the reasoning, by the total's band. */
  function Opening(name: string, total: real): (s: string)
    ensures total >= 8.0 ==> s == name + " looks excellent this weekend"
    ensures 6.0 <= total < 8.0 ==> s == name + " is a solid choice"
    ensures 4.0 <= total < 6.0 ==> s == name + " is an option worth considering"
    ensures total < 4.0 ==> s == name + " may not be ideal this weekend"
  {
    if total >= 8.0 then name + " looks excellent this weekend"
    else if total >= 6.0 then name + " is a solid choice"
    else if total >= 4.0 then name + " is an option worth considering"
    else name + " may not be ideal this weekend"
  }

  /** The phrase for one sub-score, if it is notably good (7 or more) or
      notably poor (under 4). */
  function Factor(score: real, good: string, poor: string): (r: seq<string>)
    ensures score >= 7.0 ==> r == [good]
    ensures score < 4.0 ==> r == [poor]
    ensures 4.0 <= score < 7.0 ==> r == []
  {
    if score >= 7.0 then [good] else if score < 4.0 then [poor] else []
  }

  /** The factor phrases, in weather, snow, transport order. */
  function Factors(weather: real, snow: real, transport: real): (r: seq<string>)
    ensures |r| <= 3
    ensures "great weather" in r <==> weather >= 7.0
    ensures "challenging weather" in r <==> weather < 4.0
    ensures "excellent snow conditions" in r <==> snow >= 7.0
    ensures "limited snow" in r <==> snow < 4.0
    ensures "easy access" in r <==> transport >= 7.0
    ensures "long travel time" in r <==> transport < 4.0
    ensures |r| == 0 <==> 4.0 <= weather < 7.0 && 4.0 <= snow < 7.0 && 4.0 <= transport < 7.0
  {
    Factor(weather, "great weather", "challenging weather")
      + Factor(snow, "excellent snow conditions", "limited snow")
      + Factor(transport, "easy access", "long travel time")
  }

  /** The opening sentence, then "with" and the factor phrases when there
      are any, joined as sentences and ended with a full stop. */
  function Sentence(opening: string, factors: seq<string>): (r: string)
    ensures |r| > |opening| && r[..|opening|] == opening
    ensures r[|r| - 1] == '.'
    ensures |factors| == 0 ==> r == opening + "."
    ensures |factors| > 0 ==> r == opening + ". with " + Join(factors, ", ") + "."
  {
    var tail := if |factors| > 0 then ["with " + Join(factors, ", ")] else [];
    JoinSentences(opening, tail);
    Join([opening] + tail, ". ") + "."
  }

  /** The opening alone, or the opening and one more clause joined as sentences. */
  lemma JoinSentences(opening: string, tail: seq<string>)
    requires |tail| <= 1
    ensures Join([opening] + tail, ". ") == if |tail| == 0 then opening else opening + ". " + tail[0]
  {
    if |tail| == 1 {
      assert ([opening] + tail)[1..] == tail;
    } else {
      assert [opening] + tail == [opening];
    }
  }

  /** `_generate_reasoning`: the opening for the total's band, then the
      phrases of the notably good or poor sub-scores. */
  function Reasoning(name: string, total: real, weather: real, snow: real, transport: real): (r: string)
    ensures |r| > |Opening(name, total)| && r[..|Opening(name, total)|] == Opening(name, total)
    ensures r[|r| - 1] == '.'
    ensures |Factors(weather, snow, transport)| == 0 ==> r == Opening(name, total) + "."
    ensures |Factors(weather, snow, transport)| > 0 ==>
              r == Opening(name, total) + ". with " + Join(Factors(weather, snow, transport), ", ") + "."
  {
    Sentence(Opening(name, total), Factors(weather, snow, transport))
  }

  /** A resort whose sub-scores are all middling gets the bare opening. */
  lemma MiddlingResortGetsBareOpening(name: string, total: real)
    requires 4.0 <= total < 6.0
    ensures Reasoning(name, total, 5.0, 5.0, 5.0) == name + " is an option worth considering."
  {
  }

  /** At most this many highlights and concerns are kept per ranked resort. */
  const MaxNotes: int := 5

  datatype Recommendation = Recommendation(
    resort: Resort,
    score: real,
    weatherScore: real,
    snowScore: real,
    transportScore: real,
    sizeScore: real,
    weatherForecast: Option<WeatherForecast>,
    snowConditions: Option<SnowConditions>,
    journey: Option<Journey>,
    highlights: seq<Note>,
    concerns: seq<Note>,
    reasoning: string)

  /** The notes kept: all of them, or the first `limit`. */
  function Cap(notes: seq<Note>, limit: Option<nat>): (r: seq<Note>)
    ensures limit.None? ==> r == notes
    ensures limit.Some? ==> |r| <= limit.value && |r| <= |notes| && r == notes[..|r|]
                            && (|notes| >= limit.value ==> |r| == limit.value)
                            && (|notes| < limit.value ==> r == notes)
  {
    if limit.Some? then Ranking.Take(notes, limit.value) else notes
  }

  /** The recommendation for one resort from whatever data was found for
      it; `limit` caps the notes (the catalog paths) or not (the details). */
  function Recommend(resort: Resort, weather: Option<WeatherForecast>, snow: Option<SnowConditions>,
                     journey: Option<Journey>, limit: Option<nat>): (r: Recommendation)
    ensures var s := ScoreResort(weather, snow, journey, Some(resort));
            && r.resort == resort && r.score == s.total
            && r.weatherScore == s.weather && r.snowScore == s.snow
            && r.transportScore == s.transport && r.sizeScore == s.size
            && r.weatherForecast == weather && r.snowConditions == snow && r.journey == journey
            && r.highlights == Cap(s.highlights, limit) && r.concerns == Cap(s.concerns, limit)
    ensures 0.0 <= r.score <= 10.0
    ensures r.reasoning == Reasoning(resort.name, r.score, r.weatherScore, r.snowScore, r.transportScore)
  {
    var s := ScoreResort(weather, snow, journey, Some(resort));
    Recommendation(resort, s.total, s.weather, s.snow, s.transport, s.size, weather, snow, journey,
                   Cap(s.highlights, limit), Cap(s.concerns, limit), Reasoning(resort.name, s.total, s.weather, s.snow, s.transport))
  }

  /** The batch results of the three services, keyed by resort id. */
  datatype Feeds = Feeds(
    weather: map<string, Option<WeatherForecast>>,
    snow: map<string, Option<SnowConditions>>,
    transport: map<string, Option<Journey>>)

  /** One recommendation per catalog resort, in catalog order, with at most
      five notes of each kind. */
  function ScoreCatalog(resorts: seq<Resort>, feeds: Feeds): (r: seq<Recommendation>)
    ensures |r| == |resorts|
    ensures forall i :: 0 <= i < |resorts| ==>
              r[i] == Recommend(resorts[i], Batch.Lookup(feeds.weather, resorts[i].id),
                                Batch.Lookup(feeds.snow, resorts[i].id),
                                Batch.Lookup(feeds.transport, resorts[i].id), Some(MaxNotes))
  {
    seq(|resorts|, i requires 0 <= i < |resorts| =>
      Recommend(resorts[i], Batch.Lookup(feeds.weather, resorts[i].id), Batch.Lookup(feeds.snow, resorts[i].id),
                Batch.Lookup(feeds.transport, resorts[i].id), Some(MaxNotes)))
  }

  function ScoreOf(r: Recommendation): real {
    r.score
  }

  /** The ranked recommendations, best first, cut to the first `n`. */
  function Rank(recommendations: seq<Recommendation>, n: int): (r: seq<Recommendation>)
    ensures r == Ranking.Take(Ranking.SortDescending(recommendations, ScoreOf), n)
    ensures Ranking.Descending(r, ScoreOf)
    ensures n >= 0 ==> |r| == (if n < |recommendations| then n else |recommendations|)
    ensures forall x :: x in r ==> x in recommendations
  {
    var sorted := Ranking.SortDescending(recommendations, ScoreOf);
    var top := Ranking.Take(sorted, n);
    assert forall x :: x in top ==> x in multiset(sorted);
    top
  }

  /** What one resort's task in each batch produced. */
  datatype Tasks = Tasks(
    weather: Resort -> Batch.TaskResult<Option<WeatherForecast>>,
    snow: Resort -> Batch.TaskResult<Option<SnowConditions>>,
    transport: Resort -> Batch.TaskResult<Option<Journey>>)

  function Results<V>(resorts: seq<Resort>, task: Resort -> Batch.TaskResult<V>): (r: seq<Batch.TaskResult<V>>)
    ensures |r| == |resorts| && forall i :: 0 <= i < |resorts| ==> r[i] == task(resorts[i])
  {
    seq(|resorts|, i requires 0 <= i < |resorts| => task(resorts[i]))
  }

  /** The updates of `count` progress steps in `stage`: steps 1, 2, ... out of `total`. */
  function StepUpdates(stage: Progress.Stage, count: nat, total: int): (r: seq<Progress.Update>)
    ensures |r| == count
    ensures Progress.StagesOf(r) == Repeat(stage, count)
    ensures forall i :: 0 <= i < count ==> r[i].current == i + 1 && r[i].total == total
  {
    if count == 0 then []
    else
      var earlier := StepUpdates(stage, count - 1, total);
      var step := Progress.Update(stage, Progress.IncrementMessage(stage, count, total), count, total);
      Progress.StagesOfAppend(earlier, [step]);
      assert Repeat(stage, count - 1) + [stage] == Repeat(stage, count);
      earlier + [step]
  }

  /** The progress steps of one batch: one increment per task that
      returned, counting up from 1, each out of the catalog size. */
  function Steps(t: Progress.Tracker, completed: nat, total: int): (r: Progress.Tracker)
    requires t.stage.Some?
    ensures r.stage == t.stage
    ensures r.queue == t.queue + StepUpdates(t.stage.value, completed, total)
  {
    if completed == 0 then t
    else
      var before := Steps(t, completed - 1, total);
      StepUpdatesGrow(t.stage.value, completed, total);
      Progress.Increment(before, completed, total)
  }

  /** One more step appends the update for that step. */
  lemma StepUpdatesGrow(stage: Progress.Stage, count: nat, total: int)
    requires count > 0
    ensures StepUpdates(stage, count, total) == StepUpdates(stage, count - 1, total)
              + [Progress.Update(stage, Progress.IncrementMessage(stage, count, total), count, total)]
  {
  }

  /** The updates of one fetch stage: its announcement with `0/total`, then
      one step per completed task. */
  function FetchUpdates(stage: Progress.Stage, total: int, completed: nat): (r: seq<Progress.Update>)
    ensures Progress.StagesOf(r) == Repeat(stage, 1 + completed)
  {
    var r := [Progress.Update(stage, Progress.IncrementMessage(stage, 0, total), 0, total)]
             + StepUpdates(stage, completed, total);
    Progress.StagesOfAppend([Progress.Update(stage, Progress.IncrementMessage(stage, 0, total), 0, total)],
                            StepUpdates(stage, completed, total));
    r
  }

  /** A fetch stage: announce it, then count the batch's completed tasks. */
  function FetchStage<V>(t: Progress.Tracker, stage: Progress.Stage, resorts: seq<Resort>,
                         task: Resort -> Batch.TaskResult<V>): (r: Progress.Tracker)
    ensures r.stage == Some(stage)
    ensures r.queue == t.queue + FetchUpdates(stage, |resorts|, Batch.CompletedCount(Results(resorts, task)))
  {
    var k := |resorts|;
    var announced := Progress.SetStage(t, stage, Progress.IncrementMessage(stage, 0, k), k);
    Steps(announced, Batch.CompletedCount(Results(resorts, task)), k)
  }

  /** The outcome of a run of the pipeline: the top recommendations (or the
      failure to load the catalog), and the progress tracker afterwards. */
  datatype Run = Run(result: Result<seq<Recommendation>, ResortService.ServiceError>, tracker: Progress.Tracker)

  /** The feeds built from the three batches. */
  function FeedsOf(resorts: seq<Resort>, tasks: Tasks): Feeds {
    Feeds(Batch.Collect(resorts, Results(resorts, tasks.weather)),
          Batch.Collect(resorts, Results(resorts, tasks.snow)),
          Batch.Collect(resorts, Results(resorts, tasks.transport)))
  }

  const LoadingUpdate: Progress.Update := Progress.Update(Progress.LoadingResorts, "Loading resort data...", 0, 0)

  /** The three updates after the fetch stages: scoring, the summary, done. */
  const ClosingUpdates: seq<Progress.Update> := [
    Progress.Update(Progress.Scoring, "Scoring resorts...", 0, 0),
    Progress.Update(Progress.GeneratingAi, "Generating AI summary...", 0, 0),
    Progress.Update(Progress.Complete, "Complete!", 0, 0)]

  /** Everything a successful run enqueues, for a catalog of `total`
      resorts and the given numbers of completed tasks per batch. */
  function RunUpdates(total: int, weather: nat, snow: nat, transport: nat): seq<Progress.Update> {
    [LoadingUpdate] + FetchUpdates(Progress.FetchingWeather, total, weather)
      + FetchUpdates(Progress.ScrapingSnow, total, snow)
      + FetchUpdates(Progress.FetchingTransport, total, transport) + ClosingUpdates
  }

  function Repeat(s: Progress.Stage, n: nat): (r: seq<Progress.Stage>)
    ensures |r| == n && forall i :: 0 <= i < n ==> r[i] == s
  {
    seq(n, i => s)
  }

  /** `generate_recommendations_with_progress` after its date defaults:
      announce loading, load the catalog, run the three fetch stages, score
      every resort, rank, keep the top `n`, announce the summary, complete.
      The summary text itself is not modelled. */
  function GenerateWithProgress(service: ResortService.ResortService, t: Progress.Tracker, tasks: Tasks, n: int): (r: Run)
    ensures ResortService.Load(service).Failure? ==>
              r.result.Failure? && r.tracker.queue == t.queue + [LoadingUpdate]
    ensures ResortService.Load(service).Success? ==>
              var resorts := ResortService.Load(service).value.resorts;
              && r.result == Success(Rank(ScoreCatalog(resorts, FeedsOf(resorts, tasks)), n))
              && r.tracker.queue == t.queue + RunUpdates(|resorts|,
                                                         Batch.CompletedCount(Results(resorts, tasks.weather)),
                                                         Batch.CompletedCount(Results(resorts, tasks.snow)),
                                                         Batch.CompletedCount(Results(resorts, tasks.transport)))
  {
    var t0 := Progress.SetStage(t, Progress.LoadingResorts, "Loading resort data...", 0);
    match ResortService.GetAll(service)
    case Failure(e) => Run(Failure(e), t0)
    case Success(answer) =>
      var resorts := answer.value;
      Run(Success(Rank(ScoreCatalog(resorts, FeedsOf(resorts, tasks)), n)), AfterLoading(t, t0, resorts, tasks))
  }

  /** The three fetch stages, one after the other. */
  function FetchAll(t0: Progress.Tracker, resorts: seq<Resort>, tasks: Tasks): (r: Progress.Tracker)
    ensures r.queue == t0.queue
                       + FetchUpdates(Progress.FetchingWeather, |resorts|, Batch.CompletedCount(Results(resorts, tasks.weather)))
                       + FetchUpdates(Progress.ScrapingSnow, |resorts|, Batch.CompletedCount(Results(resorts, tasks.snow)))
                       + FetchUpdates(Progress.FetchingTransport, |resorts|, Batch.CompletedCount(Results(resorts, tasks.transport)))
  {
    var t1 := FetchStage(t0, Progress.FetchingWeather, resorts, tasks.weather);
    var t2 := FetchStage(t1, Progress.ScrapingSnow, resorts, tasks.snow);
    FetchStage(t2, Progress.FetchingTransport, resorts, tasks.transport)
  }

  /** The closing announcements: scoring, the summary, done. */
  function Close(t3: Progress.Tracker): (r: Progress.Tracker)
    ensures r.queue == t3.queue + ClosingUpdates
  {
    var t4 := Progress.SetStage(t3, Progress.Scoring, "Scoring resorts...", 0);
    var t5 := Progress.SetStage(t4, Progress.GeneratingAi, "Generating AI summary...", 0);
    Progress.MarkComplete(t5)
  }

  /** The tracker from the loading announcement to completion. */
  function AfterLoading(t: Progress.Tracker, t0: Progress.Tracker, resorts: seq<Resort>, tasks: Tasks): (r: Progress.Tracker)
    requires t0.queue == t.queue + [LoadingUpdate]
    ensures r.queue == t.queue + RunUpdates(|resorts|,
                                            Batch.CompletedCount(Results(resorts, tasks.weather)),
                                            Batch.CompletedCount(Results(resorts, tasks.snow)),
                                            Batch.CompletedCount(Results(resorts, tasks.transport)))
  {
    var k := |resorts|;
    var fw := FetchUpdates(Progress.FetchingWeather, k, Batch.CompletedCount(Results(resorts, tasks.weather)));
    var ss := FetchUpdates(Progress.ScrapingSnow, k, Batch.CompletedCount(Results(resorts, tasks.snow)));
    var ft := FetchUpdates(Progress.FetchingTransport, k, Batch.CompletedCount(Results(resorts, tasks.transport)));
    AppendChain(t.queue, [LoadingUpdate], fw, ss, ft, ClosingUpdates);
    Close(FetchAll(t0, resorts, tasks))
  }

  /** Collapsing a run of one stage followed by something else. */
  lemma {:induction false} CollapseRun(s: Progress.Stage, m: nat, rest: seq<Progress.Stage>)
    requires |rest| == 0 || rest[0] != s
    ensures Progress.Collapse(Repeat(s, m + 1) + rest) == [s] + Progress.Collapse(rest)
    decreases m
  {
    var whole := Repeat(s, m + 1) + rest;
    if m == 0 {
      if |rest| > 0 {
        assert whole[1..] == rest;
      } else {
        assert whole == [s];
      }
    } else {
      assert whole[1..] == Repeat(s, m) + rest;
      CollapseRun(s, m - 1, rest);
    }
  }

  /** Appending piece by piece is appending the pieces joined. */
  lemma AppendChain<T>(q: seq<T>, a: seq<T>, b: seq<T>, c: seq<T>, d: seq<T>, e: seq<T>)
    ensures q + a + b + c + d + e == q + (a + b + c + d + e)
  {
  }

  /** Concatenation regrouped to the right. */
  lemma AppendRight<T>(a: seq<T>, b: seq<T>, c: seq<T>, d: seq<T>, e: seq<T>)
    ensures a + b + c + d + e == a + (b + (c + (d + e)))
  {
  }

  /** The stages of a run's updates, stage by stage. */
  lemma RunStages(total: int, weather: nat, snow: nat, transport: nat)
    ensures Progress.StagesOf(RunUpdates(total, weather, snow, transport))
            == [Progress.LoadingResorts] + (Repeat(Progress.FetchingWeather, 1 + weather)
               + (Repeat(Progress.ScrapingSnow, 1 + snow) + (Repeat(Progress.FetchingTransport, 1 + transport)
               + [Progress.Scoring, Progress.GeneratingAi, Progress.Complete])))
  {
    var fw := FetchUpdates(Progress.FetchingWeather, total, weather);
    var ss := FetchUpdates(Progress.ScrapingSnow, total, snow);
    var ft := FetchUpdates(Progress.FetchingTransport, total, transport);
    assert Progress.StagesOf(ClosingUpdates) == [Progress.Scoring, Progress.GeneratingAi, Progress.Complete];
    assert Progress.StagesOf([LoadingUpdate]) == [Progress.LoadingResorts];
    Progress.StagesOfAppend([LoadingUpdate] + fw + ss + ft, ClosingUpdates);
    Progress.StagesOfAppend([LoadingUpdate] + fw + ss, ft);
    Progress.StagesOfAppend([LoadingUpdate] + fw, ss);
    Progress.StagesOfAppend([LoadingUpdate], fw);
    AppendRight([Progress.LoadingResorts], Progress.StagesOf(fw), Progress.StagesOf(ss), Progress.StagesOf(ft),
                Progress.StagesOf(ClosingUpdates));
  }

  /** The three closing stages are distinct, so merging repeats keeps them. */
  lemma CollapseTail()
    ensures Progress.Collapse([Progress.Scoring, Progress.GeneratingAi, Progress.Complete])
            == [Progress.Scoring, Progress.GeneratingAi, Progress.Complete]
  {
    var tail := [Progress.Scoring, Progress.GeneratingAi, Progress.Complete];
    assert tail[1..] == [Progress.GeneratingAi, Progress.Complete];
    assert tail[1..][1..] == [Progress.Complete];
  }

  /** The closing stages of a run, as the list of stages and once merged. */
  const ClosingStages: seq<Progress.Stage> := [Progress.Scoring, Progress.GeneratingAi, Progress.Complete]

  /** Merging the transport run and the closing stages. */
  lemma CollapseFromTransport(transport: nat)
    ensures Progress.Collapse(Repeat(Progress.FetchingTransport, 1 + transport) + ClosingStages)
            == [Progress.FetchingTransport] + ClosingStages
  {
    CollapseTail();
    CollapseRun(Progress.FetchingTransport, transport, ClosingStages);
  }

  /** Merging the snow run and everything after it. */
  lemma CollapseFromSnow(snow: nat, transport: nat)
    ensures Progress.Collapse(Repeat(Progress.ScrapingSnow, 1 + snow)
              + (Repeat(Progress.FetchingTransport, 1 + transport) + ClosingStages))
            == [Progress.ScrapingSnow, Progress.FetchingTransport] + ClosingStages
  {
    CollapseFromTransport(transport);
    CollapseRun(Progress.ScrapingSnow, snow, Repeat(Progress.FetchingTransport, 1 + transport) + ClosingStages);
  }

  /** Merging the weather run and everything after it. */
  lemma CollapseFromWeather(weather: nat, snow: nat, transport: nat)
    ensures Progress.Collapse(Repeat(Progress.FetchingWeather, 1 + weather)
              + (Repeat(Progress.ScrapingSnow, 1 + snow)
              + (Repeat(Progress.FetchingTransport, 1 + transport) + ClosingStages)))
            == Progress.PipelineStages[1..]
  {
    var afterSnow := Repeat(Progress.ScrapingSnow, 1 + snow)
                     + (Repeat(Progress.FetchingTransport, 1 + transport) + ClosingStages);
    CollapseFromSnow(snow, transport);
    CollapseRun(Progress.FetchingWeather, weather, afterSnow);
  }

  /** Merging the repeats of the run-shaped stage list leaves each stage once. */
  lemma CollapseStages(weather: nat, snow: nat, transport: nat)
    ensures Progress.Collapse([Progress.LoadingResorts] + (Repeat(Progress.FetchingWeather, 1 + weather)
               + (Repeat(Progress.ScrapingSnow, 1 + snow) + (Repeat(Progress.FetchingTransport, 1 + transport)
               + [Progress.Scoring, Progress.GeneratingAi, Progress.Complete]))))
            == Progress.PipelineStages
  {
    var afterWeather := Repeat(Progress.FetchingWeather, 1 + weather)
                        + (Repeat(Progress.ScrapingSnow, 1 + snow)
                        + (Repeat(Progress.FetchingTransport, 1 + transport) + ClosingStages));
    CollapseFromWeather(weather, snow, transport);
    assert Repeat(Progress.LoadingResorts, 1) == [Progress.LoadingResorts];
    CollapseRun(Progress.LoadingResorts, 0, afterWeather);
  }

  /** However many tasks complete, an observer of the queue sees the
      pipeline's stages once each, in the fixed order. */
  lemma PipelineStageOrder(total: int, weather: nat, snow: nat, transport: nat)
    ensures Progress.Collapse(Progress.StagesOf(RunUpdates(total, weather, snow, transport))) == Progress.PipelineStages
  {
    RunStages(total, weather, snow, transport);
    CollapseStages(weather, snow, transport);
  }

  /** Every catalog resort is scored, even when every feed failed for it:
      before the cut the ranking holds exactly the catalog's resorts. */
  lemma EveryResortRanked(resorts: seq<Resort>, feeds: Feeds)
    ensures multiset(Ranking.SortDescending(ScoreCatalog(resorts, feeds), ScoreOf))
            == multiset(ScoreCatalog(resorts, feeds))
    ensures forall i :: 0 <= i < |resorts| ==>
              exists j :: 0 <= j < |resorts| && Ranking.SortDescending(ScoreCatalog(resorts, feeds), ScoreOf)[j].resort == resorts[i]
  {
    var scored := ScoreCatalog(resorts, feeds);
    var sorted := Ranking.SortDescending(scored, ScoreOf);
    forall i | 0 <= i < |resorts|
      ensures exists j :: 0 <= j < |resorts| && sorted[j].resort == resorts[i]
    {
      assert scored[i].resort == resorts[i];
      assert scored[i] in multiset(sorted);
      var j :| 0 <= j < |sorted| && sorted[j] == scored[i];
      assert sorted[j].resort == resorts[i];
    }
  }

  /** With distinct ids, each recommendation carries exactly the data its
      own resort's tasks returned, and nothing when a task raised. */
  lemma FeedsMatchResorts(resorts: seq<Resort>, tasks: Tasks, i: int)
    requires Batch.DistinctIds(resorts) && 0 <= i < |resorts|
    ensures var rec := ScoreCatalog(resorts, FeedsOf(resorts, tasks))[i];
            && (tasks.weather(resorts[i]).Completed? ==> rec.weatherForecast == tasks.weather(resorts[i]).value)
            && (tasks.weather(resorts[i]).Raised? ==> rec.weatherForecast.None?)
            && (tasks.snow(resorts[i]).Completed? ==> rec.snowConditions == tasks.snow(resorts[i]).value)
            && (tasks.snow(resorts[i]).Raised? ==> rec.snowConditions.None?)
            && (tasks.transport(resorts[i]).Completed? ==> rec.journey == tasks.transport(resorts[i]).value)
            && (tasks.transport(resorts[i]).Raised? ==> rec.journey.None?)
  {
    Batch.CollectByResort(resorts, Results(resorts, tasks.weather), i);
    Batch.CollectByResort(resorts, Results(resorts, tasks.snow), i);
    Batch.CollectByResort(resorts, Results(resorts, tasks.transport), i);
  }

  /** `get_resort_details`: `None` for an id not in the catalog; otherwise
      the resort's recommendation with all its notes. The data found for
      the resort is a parameter. */
  function ResortDetails(service: ResortService.ResortService, id: string, weather: Option<WeatherForecast>,
                         snow: Option<SnowConditions>, journey: Option<Journey>)
    : (r: Result<Option<Recommendation>, ResortService.ServiceError>)
    ensures ResortService.Load(service).Failure? ==> r.Failure?
    ensures ResortService.Load(service).Success? ==>
              var resorts := ResortService.Load(service).value.resorts;
              && r.Success?
              && (r.value.None? <==> forall i :: 0 <= i < |resorts| ==> resorts[i].id != id)
              && (r.value.Some? ==>
                    r.value.value.resort.id == id
                    && r.value.value.highlights == ScoreResort(weather, snow, journey, Some(r.value.value.resort)).highlights
                    && r.value.value.concerns == ScoreResort(weather, snow, journey, Some(r.value.value.resort)).concerns)
    ensures ResortService.Load(service).Success? && r.Success? && r.value.Some? ==>
              r.value.value == Recommend(ResortService.FindById(ResortService.Load(service).value.resorts, id).value,
                                         weather, snow, journey, None)
  {
    match ResortService.GetById(service, id)
    case Failure(e) => Failure(e)
    case Success(answer) =>
      match answer.value
      case None => Success(None)
      case Some(resort) => Success(Some(Recommend(resort, weather, snow, journey, None)))
  }

  /** The details of a resort agree with its entry in the ranking computed
      from the same data: the same scores and reasoning, the ranking only
      capping the notes at five. `i` is the first catalog position holding
      the id. */
  lemma DetailsMatchCatalogEntry(service: ResortService.ResortService, id: string, feeds: Feeds, i: nat)
    requires ResortService.Load(service).Success?
    requires i < |ResortService.Load(service).value.resorts|
    requires ResortService.Load(service).value.resorts[i].id == id
    requires forall j :: 0 <= j < i ==> ResortService.Load(service).value.resorts[j].id != id
    ensures var d := ResortDetails(service, id, Batch.Lookup(feeds.weather, id), Batch.Lookup(feeds.snow, id),
                                   Batch.Lookup(feeds.transport, id));
            var c := ScoreCatalog(ResortService.Load(service).value.resorts, feeds)[i];
            && d.Success? && d.value.Some?
            && d.value.value.resort == c.resort && d.value.value.score == c.score
            && d.value.value.weatherScore == c.weatherScore && d.value.value.snowScore == c.snowScore
            && d.value.value.transportScore == c.transportScore && d.value.value.sizeScore == c.sizeScore
            && d.value.value.reasoning == c.reasoning
            && c.highlights == Cap(d.value.value.highlights, Some(MaxNotes))
            && c.concerns == Cap(d.value.value.concerns, Some(MaxNotes))
  {
    var resorts := ResortService.Load(service).value.resorts;
    var weather, snow, journey :=
      Batch.Lookup(feeds.weather, id), Batch.Lookup(feeds.snow, id), Batch.Lookup(feeds.transport, id);
    FirstMatchFound(resorts, id, i);
    var details := Recommend(resorts[i], weather, snow, journey, None);
    var entry := Recommend(resorts[i], weather, snow, journey, Some(MaxNotes));
    assert ResortDetails(service, id, weather, snow, journey) == Success(Some(details));
    assert ScoreCatalog(resorts, feeds)[i] == entry;
  }

  /** `FindById` returns the resort at the first position holding the id. */
  lemma FirstMatchFound(resorts: seq<Resort>, id: string, i: nat)
    requires i < |resorts| && resorts[i].id == id
    requires forall j :: 0 <= j < i ==> resorts[j].id != id
    ensures ResortService.FindById(resorts, id) == Some(resorts[i])
  {
    var found := ResortService.FindById(resorts, id);
    var k :| 0 <= k < |resorts| && resorts[k] == found.value && found.value.id == id
             && forall j :: 0 <= j < k ==> resorts[j].id != id;
    assert k == i;
  }
}

=== FILE: resorts.dfy ===
/** The resort catalog: loaded once, lazily, from its data file, then
    queried by id, region and canton. Reading and decoding the file is a
    parameter: `source` is the decoded list of resorts, or `None` when the
    file is missing, is not valid JSON, or holds a record that does not
    validate (the source logs and re-raises in each case). */
module ResortService {
  import opened Wrappers
  import opened Text
  import opened Models

  datatype ServiceError =
    | CatalogUnreadable
      /** `r.canton.upper()` raised on a resort without a canton. */
    | CantonMissing(resortId: string)

  datatype ResortService = ResortService(source: Option<seq<Resort>>, resorts: seq<Resort>, loaded: bool)

  /** A service that has not loaded its catalog yet. */
  function NewService(source: Option<seq<Resort>>): (s: ResortService)
    ensures !s.loaded && s.resorts == []
  {
    ResortService(source, [], false)
  }

  /** `load_resorts`: a no-op once loaded; otherwise read the catalog or fail. */
  function Load(s: ResortService): (r: Result<ResortService, ServiceError>)
    ensures s.loaded ==> r == Success(s)
    ensures !s.loaded && s.source.None? ==> r == Failure(CatalogUnreadable)
    ensures !s.loaded && s.source.Some? ==>
              r == Success(ResortService(s.source, s.source.value, true))
    ensures r.Success? ==> r.value.loaded && r.value.source == s.source
  {
    if s.loaded then Success(s)
    else if s.source.None? then Failure(CatalogUnreadable)
    else Success(ResortService(s.source, s.source.value, true))
  }

  /** Loading twice is loading once. */
  lemma LoadIdempotent(s: ResortService)
    requires Load(s).Success?
    ensures Load(Load(s).value) == Load(s)
  {
  }

  /** A loaded service's catalog is exactly the decoded file. */
  predicate WellFormed(s: ResortService) {
    s.loaded ==> s.source == Some(s.resorts)
  }

  lemma LoadKeepsWellFormed(s: ResortService)
    requires WellFormed(s) && Load(s).Success?
    ensures WellFormed(Load(s).value) && Load(s).value.resorts == s.source.value
  {
  }

  /** A query's answer and the service after the lazy load it may perform. */
  datatype Answer<T> = Answer(value: T, service: ResortService)

  /** `get_all_resorts`. */
  function GetAll(s: ResortService): (r: Result<Answer<seq<Resort>>, ServiceError>)
    ensures r.Success? <==> Load(s).Success?
    ensures r.Success? ==> r.value == Answer(Load(s).value.resorts, Load(s).value)
  {
    match Load(s)
    case Failure(e) => Failure(e)
    case Success(t) => Success(Answer(t.resorts, t))
  }

  /** The first resort with the given id. */
  function FindById(resorts: seq<Resort>, id: string): (r: Option<Resort>)
    ensures r.None? <==> forall i :: 0 <= i < |resorts| ==> resorts[i].id != id
    ensures r.Some? ==> exists i :: 0 <= i < |resorts| && resorts[i] == r.value && r.value.id == id
                                     && forall j :: 0 <= j < i ==> resorts[j].id != id
  {
    if |resorts| == 0 then None
    else if resorts[0].id == id then Some(resorts[0])
    else
      var rest := FindById(resorts[1..], id);
      if rest.Some? then
        ghost var i :| 0 <= i < |resorts[1..]| && resorts[1..][i] == rest.value && rest.value.id == id
                       && forall j :: 0 <= j < i ==> resorts[1..][j].id != id;
        assert resorts[i + 1] == rest.value;
        rest
      else rest
  }

  /** `get_resort_by_id`. */
  function GetById(s: ResortService, id: string): (r: Result<Answer<Option<Resort>>, ServiceError>)
    ensures r.Success? <==> Load(s).Success?
    ensures r.Success? ==> r.value == Answer(FindById(Load(s).value.resorts, id), Load(s).value)
  {
    match Load(s)
    case Failure(e) => Failure(e)
    case Success(t) => Success(Answer(FindById(t.resorts, id), t))
  }

  /** The resorts whose region equals `region` ignoring case, in catalog order. */
  function InRegion(resorts: seq<Resort>, region: string): (r: seq<Resort>)
    ensures |r| <= |resorts|
    ensures forall x :: x in r <==> x in resorts && Lower(x.region) == Lower(region)
  {
    if |resorts| == 0 then []
    else
      var last := resorts[|resorts| - 1];
      InRegion(resorts[..|resorts| - 1], region)
        + (if Lower(last.region) == Lower(region) then [last] else [])
  }

  /** Filtering keeps catalog order: it distributes over concatenation. */
  lemma {:induction false} InRegionAppend(a: seq<Resort>, b: seq<Resort>, region: string)
    ensures InRegion(a + b, region) == InRegion(a, region) + InRegion(b, region)
    decreases |b|
  {
    if |b| == 0 {
      assert a + b == a;
    } else {
      var n := |b| - 1;
      var extra := if Lower(b[n].region) == Lower(region) then [b[n]] else [];
      assert (a + b)[..|a + b| - 1] == a + b[..n];
      assert (a + b)[|a + b| - 1] == b[n];
      assert InRegion(a + b, region) == InRegion(a + b[..n], region) + extra;
      assert InRegion(b, region) == InRegion(b[..n], region) + extra;
      InRegionAppend(a, b[..n], region);
    }
  }

  /** `get_resorts_by_region`. */
  function ByRegion(s: ResortService, region: string): (r: Result<Answer<seq<Resort>>, ServiceError>)
    ensures r.Success? <==> Load(s).Success?
    ensures r.Success? ==> r.value == Answer(InRegion(Load(s).value.resorts, region), Load(s).value)
  {
    match Load(s)
    case Failure(e) => Failure(e)
    case Success(t) => Success(Answer(InRegion(t.resorts, region), t))
  }

  /** The resort has a canton, equal to `canton` ignoring case. */
  predicate CantonMatches(x: Resort, canton: string) {
    x.canton.Some? && Upper(x.canton.value) == Upper(canton)
  }

  /** The resorts whose canton equals `canton` ignoring case; a resort
      without a canton matches no canton. */
  function InCanton(resorts: seq<Resort>, canton: string): (r: seq<Resort>)
    ensures |r| <= |resorts|
    ensures forall x :: x in r <==> x in resorts && x.canton.Some? && Upper(x.canton.value) == Upper(canton)
  {
    if |resorts| == 0 then []
    else
      var last := resorts[|resorts| - 1];
      InCanton(resorts[..|resorts| - 1], canton) + (if CantonMatches(last, canton) then [last] else [])
  }

  /** The comprehension of the source, evaluated in catalog order:
      upper-casing the first missing canton raises. */
  function InCantonAsWritten(resorts: seq<Resort>, canton: string): (r: Result<seq<Resort>, ServiceError>)
    ensures r.Failure? <==> exists i :: 0 <= i < |resorts| && resorts[i].canton.None?
    ensures r.Success? ==> r.value == InCanton(resorts, canton)
  {
    if |resorts| == 0 then Success([])
    else if resorts[0].canton.None? then Failure(CantonMissing(resorts[0].id))
    else
      match InCantonAsWritten(resorts[1..], canton)
      case Failure(e) =>
        assert exists i :: 0 <= i < |resorts| && resorts[i].canton.None? by {
          var i :| 0 <= i < |resorts[1..]| && resorts[1..][i].canton.None?;
          assert resorts[i + 1].canton.None?;
        }
        Failure(e)
      case Success(rest) =>
        InCantonPrepend(resorts[0], resorts[1..], canton);
        assert [resorts[0]] + resorts[1..] == resorts;
        Success((if CantonMatches(resorts[0], canton) then [resorts[0]] else []) + rest)
  }

  /** `get_resorts_by_canton` as written: any canton-less resort in the
      catalog makes every canton query raise. */
  function ByCantonAsWritten(s: ResortService, canton: string): (r: Result<Answer<seq<Resort>>, ServiceError>)
    ensures Load(s).Failure? ==> r == Failure(CatalogUnreadable)
    ensures Load(s).Success? ==>
              (r.Failure? <==> exists i :: 0 <= i < |Load(s).value.resorts| && Load(s).value.resorts[i].canton.None?)
    ensures r.Success? ==> r.value == Answer(InCanton(Load(s).value.resorts, canton), Load(s).value)
  {
    match Load(s)
    case Failure(e) => Failure(e)
    case Success(t) =>
      match InCantonAsWritten(t.resorts, canton)
      case Failure(e) => Failure(e)
      case Success(found) => Success(Answer(found, t))
  }

  /** `get_resorts_by_canton` skipping resorts without a canton. */
  function ByCanton(s: ResortService, canton: string): (r: Result<Answer<seq<Resort>>, ServiceError>)
    ensures r.Success? <==> Load(s).Success?
    ensures r.Success? ==> r.value == Answer(InCanton(Load(s).value.resorts, canton), Load(s).value)
  {
    match Load(s)
    case Failure(e) => Failure(e)
    case Success(t) => Success(Answer(InCanton(t.resorts, canton), t))
  }

  /** On a catalog where every resort has a canton, the comprehension as
      written and the corrected filter give the same list. */
  lemma {:induction false} CantonFiltersAgree(resorts: seq<Resort>, canton: string)
    requires forall i :: 0 <= i < |resorts| ==> resorts[i].canton.Some?
    ensures InCantonAsWritten(resorts, canton) == Success(InCanton(resorts, canton))
  {
    if |resorts| > 0 {
      CantonFiltersAgree(resorts[1..], canton);
      InCantonPrepend(resorts[0], resorts[1..], canton);
      assert [resorts[0]] + resorts[1..] == resorts;
    }
  }

  /** The corrected filter seen from the front of the list. */
  lemma InCantonPrepend(x: Resort, rest: seq<Resort>, canton: string)
    ensures InCanton([x] + rest, canton) == (if CantonMatches(x, canton) then [x] else []) + InCanton(rest, canton)
  {
    InCantonAppend([x], rest, canton);
    InCantonSingle(x, canton);
  }

  lemma InCantonSingle(x: Resort, canton: string)
    ensures InCanton([x], canton) == if CantonMatches(x, canton) then [x] else []
  {
    assert [x][..0] == [];
  }

  lemma {:induction false} InCantonAppend(a: seq<Resort>, b: seq<Resort>, canton: string)
    ensures InCanton(a + b, canton) == InCanton(a, canton) + InCanton(b, canton)
    decreases |b|
  {
    if |b| == 0 {
      assert a + b == a;
    } else {
      var n := |b| - 1;
      assert (a + b)[..|a + b| - 1] == a + b[..n];
      assert (a + b)[|a + b| - 1] == b[n];
      InCantonAppend(a, b[..n], canton);
    }
  }

  /** As written, one French or Italian resort (no canton) in the catalog
      makes a query for a Swiss canton fail even though Swiss resorts match
      it; the corrected query returns them. */
  lemma CantonlessResortBreaksQuery(swiss: Resort, foreign: Resort)
    requires swiss.canton == Some("VS") && foreign.canton.None?
    ensures var s := ResortService(Some([swiss, foreign]), [swiss, foreign], true);
            && ByCantonAsWritten(s, "vs").Failure?
            && ByCanton(s, "vs") == Success(Answer([swiss], s))
  {
    var s := ResortService(Some([swiss, foreign]), [swiss, foreign], true);
    assert s.resorts[1].canton.None?;
    assert Upper("VS") == Upper("vs");
    assert InCanton([swiss, foreign], "vs") == [swiss] by {
      assert [swiss, foreign][..1] == [swiss];
      assert [swiss][..0] == [];
    }
  }
}

=== FILE: scoring.dfy ===
/** The scoring engine: four step-function sub-scores (weather, snow,
    transport, size), each on a 0-10 scale, combined by a fixed weighted sum.
    Each sub-score also yields the highlights and concerns that explain it;
    their wording is a `Note` carrying the number the message prints. */
module Scoring {
  import opened Wrappers
  import opened Numeric
  import opened Text
  import opened Models

  const WeatherWeight: real := 0.20
  const SnowWeight: real := 0.45
  const TransportWeight: real := 0.10
  const SizeWeight: real := 0.25

  /** Missing snow data is a penalty, not a neutral score. */
  const SnowUnavailablePenalty: real := 2.5

  /** The messages a sub-score can attach, with the value each one prints. */
  datatype Note =
    | WeatherUnavailable
    | PerfectTemperature(avgTemp: real)
    | GoodTemperature(avgTemp: real)
    | WarmTemperatures(avgTemp: real)
    | VeryCold(avgTemp: real)
    | HeavySnowfall(cm: real)
    | GoodSnowfall(cm: real)
    | SomeFreshSnow(cm: real)
    | SunnyConditions
    | DryConditions
    | PartlyCloudy
    | Overcast
    | StrongWinds(kmh: real)
    | ModerateWinds(kmh: real)
    | RainExpected
    | SnowUnavailable
    | ExcellentBase(baseCm: int)
    | GoodBase(baseCm: int)
    | LowBase(baseCm: int)
    | FreshPowder(newCm: int)
    | FreshSnow(newCm: int)
    | GreatWeek(weekCm: int)
    | PowderConditions
    | WellGroomed
    | IcyConditions
    | WetSpringSnow
    | TransportUnavailable
    | QuickJourney(hours: real)
    | GoodTravelTime(hours: real)
    | ReasonableTravelTime(hours: real)
    | LongJourney(hours: real)
    | VeryLongJourney(hours: real)
    | DirectConnection
    | MultipleChanges(changes: int)
    | SizeUnknown
    | MassiveArea(km: real)
    | VeryLargeArea(km: real)
    | LargeArea(km: real)
    | GoodSizedArea(km: real)
    | SmallArea(km: real)
    | VerySmallArea(km: real)
    | TinyArea(km: real)

  /** One factor's contribution: its score change and the notes it adds. */
  datatype Term = Term(delta: real, highlights: seq<Note>, concerns: seq<Note>)

  /** A sub-score with its highlights and concerns. */
  datatype Assessment = Assessment(score: real, highlights: seq<Note>, concerns: seq<Note>)

  // ---------------------------------------------------------------- weather

  function AverageTemperature(f: WeatherForecast): real {
    (f.temperatureMin + f.temperatureMax) / 2.0
  }

  /** The temperature step: +2 in the ideal band of -12 to -3 degrees, +1 a
      little either side of it, -2 above 2 degrees, -1 below -15. */
  function TemperatureTerm(avg: real): (t: Term)
    ensures -12.0 <= avg <= -3.0 <==> t == Term(2.0, [PerfectTemperature(avg)], [])
    ensures (-15.0 <= avg < -12.0 || -3.0 < avg <= 0.0) <==> t == Term(1.0, [GoodTemperature(avg)], [])
    ensures 0.0 < avg <= 2.0 <==> t == Term(0.0, [], [])
    ensures avg > 2.0 <==> t == Term(-2.0, [], [WarmTemperatures(avg)])
    ensures avg < -15.0 <==> t == Term(-1.0, [], [VeryCold(avg)])
  {
    if -12.0 <= avg <= -3.0 then Term(2.0, [PerfectTemperature(avg)], [])
    else if (-15.0 <= avg < -3.0) || (-3.0 < avg <= 0.0) then Term(1.0, [GoodTemperature(avg)], [])
    else if avg > 2.0 then Term(-2.0, [], [WarmTemperatures(avg)])
    else if avg < -15.0 then Term(-1.0, [], [VeryCold(avg)])
    else Term(0.0, [], [])
  }

  /** The forecast snowfall step: +3.5 from 20 cm, +2.5 from 10, +1 from 5. */
  function SnowfallTerm(snowfall: Option<real>): (t: Term)
    ensures snowfall.Some? && snowfall.value >= 20.0 <==> snowfall.Some? && t == Term(3.5, [HeavySnowfall(snowfall.value)], [])
    ensures snowfall.Some? && 10.0 <= snowfall.value < 20.0 <==> snowfall.Some? && t == Term(2.5, [GoodSnowfall(snowfall.value)], [])
    ensures snowfall.Some? && 5.0 <= snowfall.value < 10.0 <==> snowfall.Some? && t == Term(1.0, [SomeFreshSnow(snowfall.value)], [])
    ensures snowfall.None? || snowfall.value < 5.0 <==> t == Term(0.0, [], [])
  {
    if !TruthyReal(snowfall) then Term(0.0, [], [])
    else if snowfall.value >= 20.0 then Term(3.5, [HeavySnowfall(snowfall.value)], [])
    else if snowfall.value >= 10.0 then Term(2.5, [GoodSnowfall(snowfall.value)], [])
    else if snowfall.value >= 5.0 then Term(1.0, [SomeFreshSnow(snowfall.value)], [])
    else Term(0.0, [], [])
  }

  /** The cloud step: a clear sky (under 30 %) earns +1.5 with at least 5 cm
      of snowfall and +0.5 with a dry-conditions concern otherwise; partly
      cloudy (under 50 %) +0.5; overcast (over 80 %) -1. */
  function CloudTerm(cloudCover: int, snowfall: Option<real>): (t: Term)
    ensures cloudCover < 30 && snowfall.Some? && snowfall.value >= 5.0 <==> t == Term(1.5, [SunnyConditions], [])
    ensures cloudCover < 30 && (snowfall.None? || snowfall.value < 5.0) <==> t == Term(0.5, [SunnyConditions], [DryConditions])
    ensures 30 <= cloudCover < 50 <==> t == Term(0.5, [PartlyCloudy], [])
    ensures 50 <= cloudCover <= 80 <==> t == Term(0.0, [], [])
    ensures cloudCover > 80 <==> t == Term(-1.0, [], [Overcast])
  {
    if cloudCover < 30 then
      if TruthyReal(snowfall) && snowfall.value >= 5.0 then Term(1.5, [SunnyConditions], [])
      else Term(0.5, [SunnyConditions], [DryConditions])
    else if cloudCover < 50 then Term(0.5, [PartlyCloudy], [])
    else if cloudCover > 80 then Term(-1.0, [], [Overcast])
    else Term(0.0, [], [])
  }

  /** The wind step: +0.5 under 20 km/h, -1 above 35, -2 above 50. */
  function WindTerm(windSpeed: real): (t: Term)
    ensures windSpeed < 20.0 <==> t == Term(0.5, [], [])
    ensures 20.0 <= windSpeed <= 35.0 <==> t == Term(0.0, [], [])
    ensures 35.0 < windSpeed <= 50.0 <==> t == Term(-1.0, [], [ModerateWinds(windSpeed)])
    ensures windSpeed > 50.0 <==> t == Term(-2.0, [], [StrongWinds(windSpeed)])
  {
    if windSpeed < 20.0 then Term(0.5, [], [])
    else if windSpeed > 50.0 then Term(-2.0, [], [StrongWinds(windSpeed)])
    else if windSpeed > 35.0 then Term(-1.0, [], [ModerateWinds(windSpeed)])
    else Term(0.0, [], [])
  }

  /** Rain is expected when there is precipitation, no snowfall, and the
      average temperature is above freezing. */
  predicate RainApplies(f: WeatherForecast) {
    f.precipitationMm > 0.0 && !TruthyReal(f.snowfallCm) && AverageTemperature(f) > 0.0
  }

  function RainTerm(f: WeatherForecast): Term {
    if RainApplies(f) then Term(-3.0, [], [RainExpected]) else Term(0.0, [], [])
  }

  /** A raw score clamped to [0, 10] and rounded to one decimal, with the
      notes gathered so far. */
  function Finish(raw: real, highlights: seq<Note>, concerns: seq<Note>): (a: Assessment)
    ensures 0.0 <= a.score <= 10.0
    ensures a.highlights == highlights && a.concerns == concerns
  {
    RoundedClampInRange(raw);
    Assessment(RoundTenth(ClampScore(raw)), highlights, concerns)
  }

  /** The weather before clamping: 5.0 plus every factor's delta. */
  function WeatherRaw(f: WeatherForecast): real {
    var avg := AverageTemperature(f);
    5.0 + TemperatureTerm(avg).delta + SnowfallTerm(f.snowfallCm).delta
    + CloudTerm(f.cloudCover, f.snowfallCm).delta + WindTerm(f.windSpeed).delta + RainTerm(f).delta
  }

  /** The highlights of the weather factors, in the order they are checked;
      only the cloud factor can call the conditions sunny. */
  function WeatherHighlights(f: WeatherForecast): (hs: seq<Note>)
    ensures SunnyConditions in hs <==> f.cloudCover < 30
  {
    var temperature := TemperatureTerm(AverageTemperature(f)).highlights;
    var snowfall := SnowfallTerm(f.snowfallCm).highlights;
    var wind := WindTerm(f.windSpeed).highlights;
    var rain := RainTerm(f).highlights;
    assert SunnyConditions !in temperature;
    assert SunnyConditions !in snowfall;
    assert SunnyConditions !in wind;
    assert SunnyConditions !in rain;
    temperature + snowfall + CloudTerm(f.cloudCover, f.snowfallCm).highlights + wind + rain
  }

  /** The concerns of the weather factors, in the order they are checked;
      only the rain factor can expect rain. */
  function WeatherConcerns(f: WeatherForecast): (cs: seq<Note>)
    ensures RainExpected in cs <==> RainApplies(f)
  {
    var temperature := TemperatureTerm(AverageTemperature(f)).concerns;
    var snowfall := SnowfallTerm(f.snowfallCm).concerns;
    var cloud := CloudTerm(f.cloudCover, f.snowfallCm).concerns;
    var wind := WindTerm(f.windSpeed).concerns;
    assert RainExpected !in temperature;
    assert RainExpected !in snowfall;
    assert RainExpected !in cloud;
    assert RainExpected !in wind;
    temperature + snowfall + cloud + wind + RainTerm(f).concerns
  }

  /** `score_weather`. */
  function ScoreWeather(forecast: Option<WeatherForecast>): (r: Assessment)
    ensures 0.0 <= r.score <= 10.0
    ensures forecast.None? ==> r == Assessment(5.0, [], [WeatherUnavailable])
    ensures forecast.Some? ==> r.score == RoundTenth(ClampScore(WeatherRaw(forecast.value)))
    ensures forecast.Some? ==> (RainExpected in r.concerns <==> RainApplies(forecast.value))
    ensures forecast.Some? ==> (SunnyConditions in r.highlights <==> forecast.value.cloudCover < 30)
  {
    match forecast
    case None => Assessment(5.0, [], [WeatherUnavailable])
    case Some(f) => Finish(WeatherRaw(f), WeatherHighlights(f), WeatherConcerns(f))
  }

  /** The rain penalty is exactly three points of raw weather score, and it
      is charged exactly when rain applies: removing the precipitation gives
      back three points if and only if rain applied. */
  lemma RainPenalty(f: WeatherForecast)
    ensures WeatherRaw(f.(precipitationMm := 0.0)) == WeatherRaw(f) + (if RainApplies(f) then 3.0 else 0.0)
  {
    var g := f.(precipitationMm := 0.0);
    assert !RainApplies(g);
  }

  /** Ideal conditions (perfect temperature, heavy snowfall, clear sky, calm
      wind) reach the top of the scale. */
  lemma IdealWeatherScoresTen(f: WeatherForecast)
    requires -12.0 <= AverageTemperature(f) <= -3.0
    requires f.snowfallCm.Some? && f.snowfallCm.value >= 20.0
    requires f.cloudCover < 30 && f.windSpeed < 20.0
    ensures ScoreWeather(Some(f)).score == 10.0
  {
    RoundTenthOfTenths(100);
  }

  // ------------------------------------------------------------------- snow

  /** The base-depth step: +2.5 from 150 cm, +1.5 from 100, +0.5 from 60,
      -2 under 40; a zero or missing depth counts for nothing. */
  function BaseTerm(base: Option<int>): (t: Term)
    ensures base.Some? && base.value >= 150 <==> base.Some? && t == Term(2.5, [ExcellentBase(base.value)], [])
    ensures base.Some? && 100 <= base.value < 150 <==> base.Some? && t == Term(1.5, [GoodBase(base.value)], [])
    ensures base.Some? && 60 <= base.value < 100 <==> t == Term(0.5, [], [])
    ensures base.Some? && base.value != 0 && base.value < 40 <==> base.Some? && t == Term(-2.0, [], [LowBase(base.value)])
    ensures base.None? || base.value == 0 || 40 <= base.value < 60 <==> t == Term(0.0, [], [])
  {
    if !TruthyInt(base) then Term(0.0, [], [])
    else if base.value >= 150 then Term(2.5, [ExcellentBase(base.value)], [])
    else if base.value >= 100 then Term(1.5, [GoodBase(base.value)], [])
    else if base.value >= 60 then Term(0.5, [], [])
    else if base.value < 40 then Term(-2.0, [], [LowBase(base.value)])
    else Term(0.0, [], [])
  }

  /** The 24-hour new-snow step: +3 from 20 cm, +2 from 10, +1 from 5. */
  function NewSnowTerm(newSnow: Option<int>): (t: Term)
    ensures newSnow.Some? && newSnow.value >= 20 <==> newSnow.Some? && t == Term(3.0, [FreshPowder(newSnow.value)], [])
    ensures newSnow.Some? && 10 <= newSnow.value < 20 <==> newSnow.Some? && t == Term(2.0, [FreshSnow(newSnow.value)], [])
    ensures newSnow.Some? && 5 <= newSnow.value < 10 <==> t == Term(1.0, [], [])
    ensures newSnow.None? || newSnow.value < 5 <==> t == Term(0.0, [], [])
  {
    if !TruthyInt(newSnow) then Term(0.0, [], [])
    else if newSnow.value >= 20 then Term(3.0, [FreshPowder(newSnow.value)], [])
    else if newSnow.value >= 10 then Term(2.0, [FreshSnow(newSnow.value)], [])
    else if newSnow.value >= 5 then Term(1.0, [], [])
    else Term(0.0, [], [])
  }

  /** The 7-day snowfall step: +1 from 50 cm, +0.5 from 20. */
  function WeekTerm(week: Option<int>): (t: Term)
    ensures week.Some? && week.value >= 50 <==> week.Some? && t == Term(1.0, [GreatWeek(week.value)], [])
    ensures week.Some? && 20 <= week.value < 50 <==> t == Term(0.5, [], [])
    ensures week.None? || week.value < 20 <==> t == Term(0.0, [], [])
  {
    if !TruthyInt(week) then Term(0.0, [], [])
    else if week.value >= 50 then Term(1.0, [GreatWeek(week.value)], [])
    else if week.value >= 20 then Term(0.5, [], [])
    else Term(0.0, [], [])
  }

  /** The quality step, on the lower-cased word: powder or fresh +1.5,
      packed or groomed +0.5, icy or hard -2, wet or spring -1. */
  function QualityTerm(quality: string): (t: Term)
    ensures Lower(quality) in {"powder", "fresh"} <==> t == Term(1.5, [PowderConditions], [])
    ensures Lower(quality) in {"packed", "groomed"} <==> t == Term(0.5, [WellGroomed], [])
    ensures Lower(quality) in {"icy", "hard"} <==> t == Term(-2.0, [], [IcyConditions])
    ensures Lower(quality) in {"wet", "spring"} <==> t == Term(-1.0, [], [WetSpringSnow])
    ensures Lower(quality) !in {"powder", "fresh", "packed", "groomed", "icy", "hard", "wet", "spring"}
            <==> t == Term(0.0, [], [])
  {
    var q := Lower(quality);
    if q == "powder" || q == "fresh" then Term(1.5, [PowderConditions], [])
    else if q == "packed" || q == "groomed" then Term(0.5, [WellGroomed], [])
    else if q == "icy" || q == "hard" then Term(-2.0, [], [IcyConditions])
    else if q == "wet" || q == "spring" then Term(-1.0, [], [WetSpringSnow])
    else Term(0.0, [], [])
  }

  /** The snow score before clamping: 5.0 plus every factor's delta. */
  function SnowRaw(c: SnowConditions): real {
    5.0 + BaseTerm(c.snowBase).delta + NewSnowTerm(c.newSnow24h).delta
    + WeekTerm(c.newSnow7d).delta + QualityTerm(c.snowQuality).delta
  }

  /** `score_snow`. */
  function ScoreSnow(conditions: Option<SnowConditions>): (r: Assessment)
    ensures 0.0 <= r.score <= 10.0
    ensures conditions.None? ==> r == Assessment(SnowUnavailablePenalty, [], [SnowUnavailable])
    ensures conditions.Some? ==> r.score == RoundTenth(ClampScore(SnowRaw(conditions.value)))
    ensures conditions.Some? ==> r.score >= 1.0
  {
    match conditions
    case None => Assessment(SnowUnavailablePenalty, [], [SnowUnavailable])
    case Some(c) =>
      var b := BaseTerm(c.snowBase);
      var n := NewSnowTerm(c.newSnow24h);
      var w := WeekTerm(c.newSnow7d);
      var q := QualityTerm(c.snowQuality);
      RoundTenthMonotone(1.0, ClampScore(SnowRaw(c)));
      RoundTenthOfTenths(10);
      Finish(SnowRaw(c), b.highlights + n.highlights + w.highlights + q.highlights,
             b.concerns + n.concerns + w.concerns + q.concerns)
  }

  /** The top of the snow scale: a base of 150 cm or more, 20 cm or more of
      fresh snow in a day and powder reach 10 whatever else is reported. */
  lemma IdealSnowScoresTen(c: SnowConditions)
    requires c.snowBase.Some? && c.snowBase.value >= 150
    requires c.newSnow24h.Some? && c.newSnow24h.value >= 20
    requires Lower(c.snowQuality) == "powder"
    ensures ScoreSnow(Some(c)).score == 10.0
  {
    assert SnowRaw(c) >= 12.0;
    RoundTenthOfTenths(100);
  }

  /** A missing snow report scores below a report that says nothing at all:
      absence is penalised rather than treated as neutral. */
  lemma MissingSnowIsPenalised(c: SnowConditions)
    requires !TruthyInt(c.snowBase) && !TruthyInt(c.newSnow24h) && !TruthyInt(c.newSnow7d)
    requires c.snowQuality == "Unknown"
    ensures ScoreSnow(None).score < ScoreSnow(Some(c)).score
    ensures ScoreSnow(Some(c)).score == 5.0
  {
    UnknownQualityIsNeutral();
    assert SnowRaw(c) == 5.0;
    RoundTenthOfTenths(50);
  }

  /** The placeholder quality of a scrape that found none adds nothing. */
  lemma UnknownQualityIsNeutral()
    ensures QualityTerm("Unknown") == Term(0.0, [], [])
  {
    assert Lower("Unknown") == "unknown";
  }

  // -------------------------------------------------------------- transport

  function TravelHours(minutes: int): real {
    minutes as real / 60.0
  }

  /** The duration step: 10, 8.5, 7, 5.5, 4, 2 at the 2, 2.5, 3, 3.5 and 4
      hour cut-offs. */
  function DurationTerm(minutes: int): (t: Term)
    ensures t.delta in {10.0, 8.5, 7.0, 5.5, 4.0, 2.0}
    ensures t.delta == 10.0 <==> minutes < 120
    ensures t.delta == 8.5 <==> 120 <= minutes < 150
    ensures t.delta == 7.0 <==> 150 <= minutes < 180
    ensures t.delta == 5.5 <==> 180 <= minutes < 210
    ensures t.delta == 4.0 <==> 210 <= minutes < 240
    ensures t.delta == 2.0 <==> minutes >= 240
  {
    var hours := TravelHours(minutes);
    if hours < 2.0 then Term(10.0, [QuickJourney(hours)], [])
    else if hours < 2.5 then Term(8.5, [GoodTravelTime(hours)], [])
    else if hours < 3.0 then Term(7.0, [ReasonableTravelTime(hours)], [])
    else if hours < 3.5 then Term(5.5, [], [])
    else if hours < 4.0 then Term(4.0, [], [LongJourney(hours)])
    else Term(2.0, [], [VeryLongJourney(hours)])
  }

  /** Changes adjust by +0.5, 0, -0.5, -1 for 0, 1, 2, 3 or more changes. */
  function ChangesTerm(changes: int): (t: Term)
    ensures changes == 0 ==> t == Term(0.5, [DirectConnection], [])
    ensures changes == 1 ==> t == Term(0.0, [], [])
    ensures changes == 2 ==> t == Term(-0.5, [], [])
    ensures changes >= 3 ==> t == Term(-1.0, [], [MultipleChanges(changes)])
    ensures changes < 0 ==> t == Term(0.0, [], [])
  {
    if changes == 0 then Term(0.5, [DirectConnection], [])
    else if changes == 1 then Term(0.0, [], [])
    else if changes == 2 then Term(-0.5, [], [])
    else if changes >= 3 then Term(-1.0, [], [MultipleChanges(changes)])
    else Term(0.0, [], [])
  }

  /** The transport score of a journey with this duration and change count. */
  function TransportScoreOf(minutes: int, changes: int): real {
    RoundTenth(ClampScore(DurationTerm(minutes).delta + ChangesTerm(changes).delta))
  }

  /** The two ends of the transport scale: a direct journey under two hours
      is capped at 10, and one of four hours or more with three or more
      changes scores 1. */
  lemma TransportScoreExtremes(minutes: int, changes: int)
    ensures minutes < 120 && changes == 0 ==> TransportScoreOf(minutes, changes) == 10.0
    ensures minutes >= 240 && changes >= 3 ==> TransportScoreOf(minutes, changes) == 1.0
  {
    RoundTenthOfTenths(100);
    RoundTenthOfTenths(10);
  }

  /** `score_transport`. */
  function ScoreTransport(journey: Option<Journey>): (r: Assessment)
    ensures 0.0 <= r.score <= 10.0
    ensures journey.None? ==> r == Assessment(3.0, [], [TransportUnavailable])
    ensures journey.Some? ==> r.score == TransportScoreOf(journey.value.durationMinutes, journey.value.changes)
  {
    match journey
    case None => Assessment(3.0, [], [TransportUnavailable])
    case Some(j) =>
      var d := DurationTerm(j.durationMinutes);
      var c := ChangesTerm(j.changes);
      Finish(d.delta + c.delta, d.highlights + c.highlights, d.concerns + c.concerns)
  }

  lemma DurationTermMonotone(m1: int, m2: int)
    requires m1 <= m2
    ensures DurationTerm(m1).delta >= DurationTerm(m2).delta
  {
    assert TravelHours(m1) <= TravelHours(m2);
  }

  /** A longer journey never scores higher, for the same number of changes. */
  lemma TransportMonotoneInDuration(m1: int, m2: int, changes: int)
    requires m1 <= m2
    ensures TransportScoreOf(m1, changes) >= TransportScoreOf(m2, changes)
  {
    DurationTermMonotone(m1, m2);
    var a := DurationTerm(m1).delta + ChangesTerm(changes).delta;
    var b := DurationTerm(m2).delta + ChangesTerm(changes).delta;
    ClampScoreMonotone(b, a);
    RoundTenthMonotone(ClampScore(b), ClampScore(a));
  }

  /** More changes never score higher, for the same duration. */
  lemma TransportMonotoneInChanges(minutes: int, c1: int, c2: int)
    requires 0 <= c1 <= c2
    ensures TransportScoreOf(minutes, c1) >= TransportScoreOf(minutes, c2)
  {
    var a := DurationTerm(minutes).delta + ChangesTerm(c1).delta;
    var b := DurationTerm(minutes).delta + ChangesTerm(c2).delta;
    ClampScoreMonotone(b, a);
    RoundTenthMonotone(ClampScore(b), ClampScore(a));
  }

  // ------------------------------------------------------------------- size

  /** The size step by skiable kilometres; `round(score, 1)` leaves these
      constants unchanged, so it is not written out. */
  function SizeTerm(km: real): (t: Term)
    ensures 2.0 <= t.delta <= 10.0
    ensures km >= 200.0 <==> t == Term(10.0, [MassiveArea(km)], [])
    ensures 150.0 <= km < 200.0 <==> t == Term(9.0, [VeryLargeArea(km)], [])
    ensures 100.0 <= km < 150.0 <==> t == Term(8.0, [LargeArea(km)], [])
    ensures 70.0 <= km < 100.0 <==> t == Term(7.0, [GoodSizedArea(km)], [])
    ensures 50.0 <= km < 70.0 <==> t == Term(6.0, [], [])
    ensures 30.0 <= km < 50.0 <==> t == Term(5.0, [], [])
    ensures 15.0 <= km < 30.0 <==> t == Term(4.0, [], [SmallArea(km)])
    ensures 5.0 <= km < 15.0 <==> t == Term(3.0, [], [VerySmallArea(km)])
    ensures km < 5.0 <==> t == Term(2.0, [], [TinyArea(km)])
  {
    if km >= 200.0 then Term(10.0, [MassiveArea(km)], [])
    else if km >= 150.0 then Term(9.0, [VeryLargeArea(km)], [])
    else if km >= 100.0 then Term(8.0, [LargeArea(km)], [])
    else if km >= 70.0 then Term(7.0, [GoodSizedArea(km)], [])
    else if km >= 50.0 then Term(6.0, [], [])
    else if km >= 30.0 then Term(5.0, [], [])
    else if km >= 15.0 then Term(4.0, [], [SmallArea(km)])
    else if km >= 5.0 then Term(3.0, [], [VerySmallArea(km)])
    else Term(2.0, [], [TinyArea(km)])
  }

  /** `score_size`: neutral 5.0 when the resort or its size is unknown. */
  function ScoreSize(resort: Option<Resort>): (r: Assessment)
    ensures resort.None? || resort.value.skiableTerrainKm.None? ==> r == Assessment(5.0, [], [SizeUnknown])
    ensures resort.Some? && resort.value.skiableTerrainKm.Some? ==> 2.0 <= r.score <= 10.0
    ensures resort.Some? && resort.value.skiableTerrainKm.Some? ==>
              var t := SizeTerm(resort.value.skiableTerrainKm.value);
              r == Assessment(t.delta, t.highlights, t.concerns)
    ensures 0.0 <= r.score <= 10.0
  {
    if resort.None? || resort.value.skiableTerrainKm.None? then Assessment(5.0, [], [SizeUnknown])
    else
      var t := SizeTerm(resort.value.skiableTerrainKm.value);
      Assessment(t.delta, t.highlights, t.concerns)
  }

  /** A larger ski area never scores lower. */
  lemma SizeMonotone(km1: real, km2: real)
    requires km1 <= km2
    ensures SizeTerm(km1).delta <= SizeTerm(km2).delta
  {
  }

  // ------------------------------------------------------------------ total

  /** `calculate_total_score`: the weighted sum rounded to one decimal. */
  function TotalScore(weather: real, snow: real, transport: real, size: real): (r: real)
    ensures (0.0 <= weather <= 10.0 && 0.0 <= snow <= 10.0 && 0.0 <= transport <= 10.0
             && 0.0 <= size <= 10.0) ==> 0.0 <= r <= 10.0
    ensures r == RoundTenth(0.20 * weather + 0.45 * snow + 0.10 * transport + 0.25 * size)
  {
    var raw := weather * WeatherWeight + snow * SnowWeight + transport * TransportWeight + size * SizeWeight;
    RoundedClampInRange(raw);
    RoundTenth(raw)
  }

  /** The weights sum to one: four equal sub-scores give that same total. */
  lemma TotalOfEqualScores(k: int)
    ensures TotalScore(k as real / 10.0, k as real / 10.0, k as real / 10.0, k as real / 10.0) == k as real / 10.0
  {
    var x := k as real / 10.0;
    assert x * WeatherWeight + x * SnowWeight + x * TransportWeight + x * SizeWeight == x;
    RoundTenthOfTenths(k);
  }

  /** Each sub-score's share of the total: a perfect score in one of them
      and nothing in the others gives 2.0 for weather, 4.5 for snow, 1.0
      for transport and 2.5 for size. */
  lemma SubScoreShares()
    ensures TotalScore(10.0, 0.0, 0.0, 0.0) == 2.0
    ensures TotalScore(0.0, 10.0, 0.0, 0.0) == 4.5
    ensures TotalScore(0.0, 0.0, 10.0, 0.0) == 1.0
    ensures TotalScore(0.0, 0.0, 0.0, 10.0) == 2.5
  {
    RoundTenthOfTenths(20);
    RoundTenthOfTenths(45);
    RoundTenthOfTenths(10);
    RoundTenthOfTenths(25);
  }

  /** Raising any sub-score never lowers the total. */
  lemma TotalMonotone(w1: real, s1: real, t1: real, z1: real, w2: real, s2: real, t2: real, z2: real)
    requires w1 <= w2 && s1 <= s2 && t1 <= t2 && z1 <= z2
    ensures TotalScore(w1, s1, t1, z1) <= TotalScore(w2, s2, t2, z2)
  {
    RoundTenthMonotone(w1 * WeatherWeight + s1 * SnowWeight + t1 * TransportWeight + z1 * SizeWeight,
                       w2 * WeatherWeight + s2 * SnowWeight + t2 * TransportWeight + z2 * SizeWeight);
  }

  /** All scores of one resort, with the notes of the four sub-scores. */
  datatype ResortScore = ResortScore(
    total: real, weather: real, snow: real, transport: real, size: real,
    highlights: seq<Note>, concerns: seq<Note>)

  /** `score_resort`: the four sub-scores, their weighted total, and the
      notes concatenated in weather, snow, transport, size order. */
  function ScoreResort(weather: Option<WeatherForecast>, snow: Option<SnowConditions>,
                       journey: Option<Journey>, resort: Option<Resort>): (r: ResortScore)
    ensures 0.0 <= r.weather <= 10.0 && 0.0 <= r.snow <= 10.0 && 0.0 <= r.transport <= 10.0
    ensures 0.0 <= r.size <= 10.0 && 0.0 <= r.total <= 10.0
    ensures r.weather == ScoreWeather(weather).score && r.snow == ScoreSnow(snow).score
    ensures r.transport == ScoreTransport(journey).score && r.size == ScoreSize(resort).score
    ensures r.total == TotalScore(r.weather, r.snow, r.transport, r.size)
    ensures r.highlights == ScoreWeather(weather).highlights + ScoreSnow(snow).highlights
                            + ScoreTransport(journey).highlights + ScoreSize(resort).highlights
    ensures r.concerns == ScoreWeather(weather).concerns + ScoreSnow(snow).concerns
                          + ScoreTransport(journey).concerns + ScoreSize(resort).concerns
  {
    var w := ScoreWeather(weather);
    var s := ScoreSnow(snow);
    var t := ScoreTransport(journey);
    var z := ScoreSize(resort);
    ResortScore(TotalScore(w.score, s.score, t.score, z.score), w.score, s.score, t.score, z.score,
                w.highlights + s.highlights + t.highlights + z.highlights,
                w.concerns + s.concerns + t.concerns + z.concerns)
  }

  /** With every feed missing and the size unknown, a resort still scores:
      5.0 weather, the 2.5 snow penalty, 3.0 transport, 5.0 size, 3.7 total. */
  lemma AllMissingScore(resort: Resort)
    requires resort.skiableTerrainKm.None?
    ensures ScoreResort(None, None, None, Some(resort)).total == 3.7
    ensures ScoreResort(None, None, None, Some(resort)).concerns
            == [WeatherUnavailable, SnowUnavailable, TransportUnavailable, SizeUnknown]
  {
    assert 5.0 * WeatherWeight + 2.5 * SnowWeight + 3.0 * TransportWeight + 5.0 * SizeWeight == 3.675;
    assert (3.675 * 10.0).Floor == 36;
  }
}

=== FILE: snow.dfy ===
/** The snow service: the two parsers (Open-Meteo daily series and a
    snow-forecast.com page), the quality heuristic, and the read-through
    strategy that prefers the page and falls back to Open-Meteo. */
module SnowService {
  import opened Wrappers
  import opened Numeric
  import opened Text
  import opened Models
  import Cache

  /** Default lifetime of cached snow conditions, in hours. */
  const SnowCacheHours: int := 12

  type SnowCache = Cache.SimpleCache<string, SnowConditions>

  /** The quality labels the heuristic can produce. */
  const HeuristicQualities: set<string> := {"Powder", "Fresh", "Packed", "Variable", "Unknown"}

  /** No 24-hour fall of 5 cm or more and no weekly fall of 20 cm or more. */
  predicate RecentlyDry(newSnow24h: Option<int>, newSnow7d: Option<int>) {
    !(TruthyInt(newSnow24h) && newSnow24h.value >= 5) && !(TruthyInt(newSnow7d) && newSnow7d.value >= 20)
  }

  /** The quality heuristic from the base depth and the recent snowfall. */
  function DetermineSnowQuality(snowBase: Option<int>, newSnow24h: Option<int>, newSnow7d: Option<int>): (q: string)
    ensures q in HeuristicQualities
    ensures q == "Powder" <==> TruthyInt(newSnow24h) && newSnow24h.value >= 15
    ensures q == "Fresh" <==>
              (TruthyInt(newSnow24h) && 5 <= newSnow24h.value < 15)
              || (!(TruthyInt(newSnow24h) && newSnow24h.value >= 5) && TruthyInt(newSnow7d) && newSnow7d.value >= 20)
    ensures q == "Packed" <==>
              RecentlyDry(newSnow24h, newSnow7d) && TruthyInt(snowBase) && snowBase.value >= 30
              && (!TruthyInt(newSnow7d) || newSnow7d.value < 5)
    ensures q == "Unknown" <==> RecentlyDry(newSnow24h, newSnow7d) && !TruthyInt(snowBase)
  {
    if TruthyInt(newSnow24h) && newSnow24h.value >= 15 then "Powder"
    else if TruthyInt(newSnow24h) && newSnow24h.value >= 5 then "Fresh"
    else if TruthyInt(newSnow7d) && newSnow7d.value >= 20 then "Fresh"
    else if TruthyInt(snowBase) && snowBase.value >= 30 then
      (if !TruthyInt(newSnow7d) || newSnow7d.value < 5 then "Packed" else "Variable")
    else if TruthyInt(snowBase) && snowBase.value < 30 then "Variable"
    else "Unknown"
  }

  /** A fresh fall is always labelled Powder or Fresh, and the scorer then
      gives it the largest quality bonus. */
  lemma FreshSnowGetsTopQuality(snowBase: Option<int>, newSnow24h: Option<int>, newSnow7d: Option<int>)
    requires !RecentlyDry(newSnow24h, newSnow7d)
    ensures DetermineSnowQuality(snowBase, newSnow24h, newSnow7d) in {"Powder", "Fresh"}
  {
  }

  /** Python's `xs[-n:]` for `n >= 0`: the last `n` elements, or all of them. */
  function LastN(xs: seq<real>, n: nat): (r: seq<real>)
    ensures |r| == if |xs| <= n then |xs| else n
    ensures r == xs[|xs| - |r|..]
  {
    if |xs| <= n then xs else xs[|xs| - n..]
  }

  /** The three readings derived from Open-Meteo's daily series, before the
      non-positive ones are dropped. */
  datatype Readings = Readings(snowBase: Option<int>, newSnow24h: Option<int>, newSnow7d: Option<int>)

  /** Base depth from the latest reported depth; 24-hour fall from the latest
      reported snowfall; weekly fall from the last seven reported snowfalls.
      Missing (`null`) entries are skipped. */
  function OpenMeteoReadings(snowfall: seq<Option<real>>, depth: seq<Option<real>>): (r: Readings)
    ensures r.snowBase == (match LastPresent(depth) case None => None case Some(d) => Some(RoundHalfEven(d)))
    ensures r.newSnow24h == (match LastPresent(snowfall) case None => None case Some(f) => Some(RoundHalfEven(f)))
    ensures r.newSnow7d.Some? <==> r.newSnow24h.Some?
    ensures r.newSnow7d.Some? ==> r.newSnow7d.value == RoundHalfEven(Sum(LastN(Somes(snowfall), 7)))
  {
    var falls := Somes(snowfall);
    var depths := Somes(depth);
    LastOfSomes(snowfall);
    LastOfSomes(depth);
    Readings(
      if |depths| > 0 then Some(RoundHalfEven(depths[|depths| - 1])) else None,
      if |falls| > 0 then Some(RoundHalfEven(falls[|falls| - 1])) else None,
      if |falls| > 0 then Some(RoundHalfEven(Sum(LastN(falls, 7)))) else None)
  }

  /** When no reported snowfall is negative, the weekly fall is at least the
      24-hour fall: the last reported day is one of the seven summed. */
  lemma WeeklyFallCoversLastDay(snowfall: seq<Option<real>>, depth: seq<Option<real>>)
    requires forall i :: 0 <= i < |snowfall| && snowfall[i].Some? ==> snowfall[i].value >= 0.0
    ensures var r := OpenMeteoReadings(snowfall, depth);
            r.newSnow24h.Some? ==> r.newSnow24h.value <= r.newSnow7d.value
  {
    var falls := Somes(snowfall);
    if |falls| > 0 {
      var week := LastN(falls, 7);
      forall i | 0 <= i < |week| ensures week[i] >= 0.0 {
        assert week[i] in falls;
      }
      SumAtLeastLast(week);
      LastOfSomes(snowfall);
      RoundHalfEvenMonotone(falls[|falls| - 1], Sum(week));
    }
  }

  /** A reading kept in the result: only a strictly positive value survives. */
  function Positive(x: Option<int>): (r: Option<int>)
    ensures r.Some? <==> x.Some? && x.value > 0
    ensures r.Some? ==> r == x
  {
    if TruthyInt(x) && x.value > 0 then x else None
  }

  predicate AnyReading(r: Readings) {
    TruthyInt(r.snowBase) || TruthyInt(r.newSnow24h) || TruthyInt(r.newSnow7d)
  }

  /** Parsing an Open-Meteo response. */
  function ParseOpenMeteo(snowfall: seq<Option<real>>, depth: seq<Option<real>>, resortId: string, now: int): (r: Option<SnowConditions>)
    ensures r.None? <==> !AnyReading(OpenMeteoReadings(snowfall, depth))
    ensures r.Some? ==>
              var rd := OpenMeteoReadings(snowfall, depth);
              && r.value.resortId == resortId && r.value.dateUpdated == now
              && r.value.snowBase == Positive(rd.snowBase)
              && r.value.newSnow24h == Positive(rd.newSnow24h)
              && r.value.newSnow7d == Positive(rd.newSnow7d)
              && r.value.snowSummit.None? && r.value.liftsOpen.None? && r.value.runsOpen.None?
              && r.value.snowQuality == DetermineSnowQuality(rd.snowBase, rd.newSnow24h, rd.newSnow7d)
  {
    var rd := OpenMeteoReadings(snowfall, depth);
    var quality := DetermineSnowQuality(rd.snowBase, rd.newSnow24h, rd.newSnow7d);
    if AnyReading(rd) then
      Some(SnowConditions(resortId, now, Positive(rd.snowBase), None, Positive(rd.newSnow24h),
                          Positive(rd.newSnow7d), quality, None, None))
    else None
  }

  /** A series with nothing reported at all yields no conditions. */
  lemma EmptySeriesGiveNothing(snowfall: seq<Option<real>>, depth: seq<Option<real>>, resortId: string, now: int)
    requires forall i :: 0 <= i < |snowfall| ==> snowfall[i].None?
    requires forall i :: 0 <= i < |depth| ==> depth[i].None?
    ensures ParseOpenMeteo(snowfall, depth, resortId, now).None?
  {
  }

  /** The readings scraped from a snow-forecast.com page: base and summit
      depth and the new-snow figures, each absent when not found. Locating
      them in the HTML is not part of this model. */
  datatype PageReadings = PageReadings(snowBase: Option<int>, snowSummit: Option<int>,
                                       newSnow24h: Option<int>, newSnow7d: Option<int>)

  /** The quality the page's lower-cased text suggests, by the first keyword
      found in a fixed order, falling back to the base depth. */
  function PageQuality(pageText: string, snowBase: Option<int>): (q: string)
    ensures q == "Powder" <==> Contains(pageText, "powder")
    ensures q == "Fresh" <==> !Contains(pageText, "powder") && Contains(pageText, "fresh")
    ensures q == "Packed" <==>
              !Contains(pageText, "powder") && !Contains(pageText, "fresh")
              && (Contains(pageText, "packed") || Contains(pageText, "groomed"))
    ensures q == "Icy" <==>
              !Contains(pageText, "powder") && !Contains(pageText, "fresh")
              && !Contains(pageText, "packed") && !Contains(pageText, "groomed")
              && (Contains(pageText, "icy") || Contains(pageText, "hard"))
    ensures q in {"Variable", "Unknown"} ==>
              (q == "Variable" <==> snowBase.Some? && snowBase.value > 0)
  {
    if Contains(pageText, "powder") then "Powder"
    else if Contains(pageText, "fresh") then "Fresh"
    else if Contains(pageText, "packed") || Contains(pageText, "groomed") then "Packed"
    else if Contains(pageText, "icy") || Contains(pageText, "hard") then "Icy"
    else if TruthyInt(snowBase) && snowBase.value > 0 then "Variable"
    else "Unknown"
  }

  /** Parsing a snow-forecast.com page from its readings and its text. */
  function ParseSnowForecastPage(page: PageReadings, pageText: string, resortId: string, now: int): (r: Option<SnowConditions>)
    ensures r.None? <==>
              !TruthyInt(page.snowBase) && !TruthyInt(page.snowSummit)
              && !TruthyInt(page.newSnow24h) && !TruthyInt(page.newSnow7d)
    ensures r.Some? ==>
              r.value.resortId == resortId && r.value.dateUpdated == now
              && r.value.snowBase == page.snowBase && r.value.snowSummit == page.snowSummit
              && r.value.newSnow24h == page.newSnow24h && r.value.newSnow7d == page.newSnow7d
              && r.value.snowQuality == PageQuality(Lower(pageText), page.snowBase)
              && r.value.liftsOpen.None? && r.value.runsOpen.None?
  {
    if TruthyInt(page.snowBase) || TruthyInt(page.snowSummit) || TruthyInt(page.newSnow24h) || TruthyInt(page.newSnow7d)
    then Some(SnowConditions(resortId, now, page.snowBase, page.snowSummit, page.newSnow24h, page.newSnow7d,
                             PageQuality(Lower(pageText), page.snowBase), None, None))
    else None
  }

  function CacheKey(resortId: string): string {
    "snow:" + resortId
  }

  /** Different resorts never share a cache entry. */
  lemma CacheKeyInjective(a: string, b: string)
    requires CacheKey(a) == CacheKey(b)
    ensures a == b
  {
    assert a == CacheKey(a)[5..] && b == CacheKey(b)[5..];
  }

  /** The two sources, in the order they may be consulted. */
  datatype Source = SnowForecastCom | OpenMeteo

  /** The outcome of `get_conditions`: the conditions, the cache afterwards,
      and the sources actually consulted. */
  datatype SnowFetch = SnowFetch(conditions: Option<SnowConditions>, cache: SnowCache, consulted: seq<Source>)

  /** The resort has a non-empty forecast-page slug. */
  predicate HasSlug(resort: Resort) {
    resort.snowForecastSlug.Some? && resort.snowForecastSlug.value != ""
  }

  /** Whether a read of `resort`'s entry hits the cache. */
  predicate CacheHit(cache: SnowCache, enabled: bool, resort: Resort, now: int) {
    enabled && Cache.Get(cache, CacheKey(resort.id), now).value.Some?
  }

  /** `get_conditions`. What each source would return is a parameter: `page`
      for snow-forecast.com (`None` when the request or the parse fails) and
      `openMeteo` for the fallback. */
  function GetConditions(cache: SnowCache, enabled: bool, ttlHours: int, resort: Resort, now: int,
                         page: Option<SnowConditions>, openMeteo: Option<SnowConditions>): (r: SnowFetch)
    ensures CacheHit(cache, enabled, resort, now) ==>
              r.conditions == Cache.Get(cache, CacheKey(resort.id), now).value && r.consulted == [] && r.cache == cache
    ensures !CacheHit(cache, enabled, resort, now) ==>
              && (SnowForecastCom in r.consulted <==> HasSlug(resort))
              && (OpenMeteo in r.consulted <==> !(HasSlug(resort) && page.Some?))
              && r.conditions == (if HasSlug(resort) && page.Some? then page else openMeteo)
    ensures !CacheHit(cache, enabled, resort, now) && enabled && ttlHours > 0 && r.conditions.Some? ==>
              Cache.Get(r.cache, CacheKey(resort.id), now).value == r.conditions
    ensures r.conditions.None? ==> r.cache.entries.Keys <= cache.entries.Keys
    ensures forall k :: k in cache.entries && k != CacheKey(resort.id) ==>
              k in r.cache.entries && r.cache.entries[k] == cache.entries[k]
    ensures !enabled ==> r.cache == cache
  {
    var key := CacheKey(resort.id);
    if CacheHit(cache, enabled, resort, now) then
      SnowFetch(Cache.Get(cache, key, now).value, cache, [])
    else
      var fromPage := if HasSlug(resort) then page else None;
      var first := if HasSlug(resort) then [SnowForecastCom] else [];
      var consulted := first + (if fromPage.None? then [OpenMeteo] else []);
      var result := if fromPage.Some? then fromPage else openMeteo;
      var lookup := Cache.ReadThrough(cache, enabled, key, now, ttlHours, result);
      SnowFetch(lookup.value, lookup.cache, consulted)
  }

  /** The page is never consulted for a resort without a slug, and the
      fallback is never consulted when the page gave an answer. */
  lemma FallbackOnlyWhenNeeded(cache: SnowCache, enabled: bool, ttlHours: int, resort: Resort, now: int,
                               page: Option<SnowConditions>, openMeteo: Option<SnowConditions>)
    requires !CacheHit(cache, enabled, resort, now)
    ensures var r := GetConditions(cache, enabled, ttlHours, resort, now, page, openMeteo);
            && (!HasSlug(resort) ==> r.consulted == [OpenMeteo] && r.conditions == openMeteo)
            && (HasSlug(resort) && page.Some? ==> r.consulted == [SnowForecastCom] && r.conditions == page)
            && (HasSlug(resort) && page.None? ==> r.consulted == [SnowForecastCom, OpenMeteo])
  {
  }

  /** Fetched conditions are served from the cache, unchanged and without
      consulting any source, until the TTL runs out. */
  lemma GetConditionsThenHit(cache: SnowCache, ttlHours: int, resort: Resort, now: int, later: int,
                             page: Option<SnowConditions>, openMeteo: Option<SnowConditions>,
                             page2: Option<SnowConditions>, openMeteo2: Option<SnowConditions>)
    requires !CacheHit(cache, true, resort, now)
    requires GetConditions(cache, true, ttlHours, resort, now, page, openMeteo).conditions.Some?
    requires now <= later < now + ttlHours * Cache.SecondsPerHour
    ensures var first := GetConditions(cache, true, ttlHours, resort, now, page, openMeteo);
            var second := GetConditions(first.cache, true, ttlHours, resort, later, page2, openMeteo2);
            second.conditions == first.conditions && second.consulted == []
  {
  }
}

=== FILE: text.dfy ===
/** The few string operations of Python's `str` that the services rely on:
    ASCII case mapping, substring search, `split`/`join`, and the decimal
    conversions `str(int)` and `int(str)`. */
module Text {
  import opened Wrappers

  function LowerChar(c: char): char {
    if 'A' <= c <= 'Z' then (c as int + 32) as char else c
  }

  function UpperChar(c: char): char {
    if 'a' <= c <= 'z' then (c as int - 32) as char else c
  }

  /** `s.lower()` on ASCII letters. */
  function Lower(s: string): (r: string)
    ensures |r| == |s|
  {
    if |s| == 0 then "" else [LowerChar(s[0])] + Lower(s[1..])
  }

  /** `s.upper()` on ASCII letters. */
  function Upper(s: string): (r: string)
    ensures |r| == |s|
  {
    if |s| == 0 then "" else [UpperChar(s[0])] + Upper(s[1..])
  }

  /** Python's `word in text` for strings: `word` occurs contiguously. */
  predicate Contains(text: string, word: string)
    decreases |text|
  {
    if |word| > |text| then false
    else if text[..|word|] == word then true
    else Contains(text[1..], word)
  }

  /** `word` occurs in `text` starting at index `i`. */
  predicate OccursAt(text: string, word: string, i: int) {
    0 <= i <= |text| - |word| && text[i..i + |word|] == word
  }

  /** `Contains` agrees with the direct definition of a substring occurrence. */
  lemma {:induction false} ContainsIsOccurrence(text: string, word: string)
    ensures Contains(text, word) <==> exists i :: OccursAt(text, word, i)
    decreases |text|
  {
    if |word| > |text| {
    } else if text[..|word|] == word {
      assert OccursAt(text, word, 0);
    } else {
      ContainsIsOccurrence(text[1..], word);
      if Contains(text[1..], word) {
        var i :| OccursAt(text[1..], word, i);
        assert text[i + 1..i + 1 + |word|] == text[1..][i..i + |word|];
        assert OccursAt(text, word, i + 1);
      }
      if exists i :: OccursAt(text, word, i) {
        var i :| OccursAt(text, word, i);
        assert i != 0;
        assert text[1..][i - 1..i - 1 + |word|] == text[i..i + |word|];
        assert OccursAt(text[1..], word, i - 1);
      }
    }
  }

  /** Number of occurrences of `c` in `s`. */
  function Occurrences(s: string, c: char): nat {
    if |s| == 0 then 0 else (if s[0] == c then 1 else 0) + Occurrences(s[1..], c)
  }

  /** Python's `s.split(sep)` for a one-character separator: the pieces
      between separators, one more piece than there are separators. */
  function Split(s: string, sep: char): (parts: seq<string>)
    ensures |parts| == Occurrences(s, sep) + 1
    ensures forall i :: 0 <= i < |parts| ==> sep !in parts[i]
  {
    if |s| == 0 then [""]
    else
      var rest := Split(s[1..], sep);
      if s[0] == sep then [""] + rest
      else [[s[0]] + rest[0]] + rest[1..]
  }

  /** A separator occurs in a string exactly when it is counted there. */
  lemma {:induction false} OccurrencesPositive(s: string, c: char)
    ensures Occurrences(s, c) > 0 <==> c in s
  {
    if |s| > 0 {
      OccurrencesPositive(s[1..], c);
      assert s == [s[0]] + s[1..];
    }
  }

  /** A character absent from a string is absent from all its pieces. */
  lemma {:induction false} SplitPiecesAvoid(s: string, sep: char, c: char)
    requires c !in s
    ensures forall i :: 0 <= i < |Split(s, sep)| ==> c !in Split(s, sep)[i]
  {
    if |s| > 0 {
      SplitPiecesAvoid(s[1..], sep, c);
      assert s[0] != c;
    }
  }

  /** A string without the separator is split into itself alone. */
  lemma {:induction false} SplitWithoutSeparator(s: string, sep: char)
    requires sep !in s
    ensures Split(s, sep) == [s]
  {
    if |s| > 0 {
      SplitWithoutSeparator(s[1..], sep);
      assert [s[0]] + s[1..] == s;
    }
  }

  /** Splitting at the first separator: the text before it is the first
      piece and the rest is split on its own. */
  lemma {:induction false} SplitAtFirst(a: string, sep: char, b: string)
    requires sep !in a
    ensures Split(a + [sep] + b, sep) == [a] + Split(b, sep)
    decreases |a|
  {
    var s := a + [sep] + b;
    if |a| == 0 {
      assert s[1..] == b;
    } else {
      assert s[1..] == a[1..] + [sep] + b;
      SplitAtFirst(a[1..], sep, b);
      assert [a[0]] + a[1..] == a;
    }
  }

  /** Python's `sep.join(parts)`. */
  function Join(parts: seq<string>, sep: string): string {
    if |parts| == 0 then ""
    else if |parts| == 1 then parts[0]
    else parts[0] + sep + Join(parts[1..], sep)
  }

  /** Splitting and joining back with the same separator is the identity. */
  lemma {:induction false} JoinSplit(s: string, sep: char)
    ensures Join(Split(s, sep), [sep]) == s
    decreases |s|
  {
    if |s| != 0 {
      var rest := Split(s[1..], sep);
      JoinSplit(s[1..], sep);
      if s[0] == sep {
        assert Split(s, sep) == [""] + rest;
        assert ([""] + rest)[1..] == rest;
      } else {
        var parts := [[s[0]] + rest[0]] + rest[1..];
        assert Split(s, sep) == parts;
        if |rest| == 1 {
          assert Join(parts, [sep]) == [s[0]] + rest[0];
        } else {
          assert parts[1..] == rest[1..];
          assert Join(parts, [sep]) == [s[0]] + rest[0] + [sep] + Join(rest[1..], [sep]);
          assert Join(rest, [sep]) == rest[0] + [sep] + Join(rest[1..], [sep]);
        }
        assert s == [s[0]] + s[1..];
      }
    }
  }

  predicate IsDigit(c: char) {
    '0' <= c <= '9'
  }

  predicate AllDigits(s: string) {
    forall i :: 0 <= i < |s| ==> IsDigit(s[i])
  }

  function DigitChar(d: nat): char
    requires d < 10
  {
    ('0' as int + d) as char
  }

  /** The value of a string of decimal digits, leading zeros allowed. */
  function DigitsValue(s: string): nat
    requires AllDigits(s)
  {
    if |s| == 0 then 0
    else DigitsValue(s[..|s| - 1]) * 10 + (s[|s| - 1] as int - '0' as int)
  }

  /** Python's `str(n)` for a natural number. */
  function NatToString(n: nat): (s: string)
    ensures |s| > 0 && AllDigits(s)
  {
    if n < 10 then [DigitChar(n)] else NatToString(n / 10) + [DigitChar(n % 10)]
  }

  /** Python's `str(i)` for an integer. */
  function IntToString(i: int): string {
    if i < 0 then "-" + NatToString(-i) else NatToString(i)
  }

  /** Python's `int(s)` on an unsigned run of ASCII digits, `None` where
      Python raises `ValueError`. */
  function ParseNat(s: string): (r: Option<nat>)
    ensures r.Some? <==> |s| > 0 && AllDigits(s)
  {
    if |s| > 0 && AllDigits(s) then Some(DigitsValue(s)) else None
  }

  /** Python's `int(s)`: an optional sign followed by ASCII digits; `None`
      where Python raises `ValueError`. */
  function ParseInt(s: string): (r: Option<int>)
    ensures r.Some? && |s| > 0 && s[0] == '-' ==> r.value <= 0
    ensures r.Some? && |s| > 0 && IsDigit(s[0]) ==> r.value >= 0
    ensures |s| == 0 ==> r.None?
    ensures r.Some? <==> (|s| > 0 && AllDigits(s)) || (|s| > 1 && (s[0] == '-' || s[0] == '+') && AllDigits(s[1..]))
    ensures |s| > 0 && AllDigits(s) ==> r == Some(DigitsValue(s))
    ensures |s| > 1 && s[0] == '+' && AllDigits(s[1..]) ==> r == Some(DigitsValue(s[1..]))
    ensures |s| > 1 && s[0] == '-' && AllDigits(s[1..]) ==> r.Some? && r.value == -(DigitsValue(s[1..]) as int)
  {
    if |s| > 0 && (s[0] == '-' || s[0] == '+') then
      match ParseNat(s[1..])
      case None => None
      case Some(n) =>
        var m: int := n;
        Some(if s[0] == '-' then -m else m)
    else
      match ParseNat(s)
      case None => None
      case Some(n) => Some(n)
  }

  /** `str` and `int` are inverse on natural numbers. */
  lemma {:induction false} NatToStringValue(n: nat)
    ensures DigitsValue(NatToString(n)) == n
  {
    if n >= 10 {
      NatToStringValue(n / 10);
      var s := NatToString(n);
      assert s[..|s| - 1] == NatToString(n / 10);
    }
  }

  /** `int(str(n)) == n` for every natural number `n`. */
  lemma ParseNatToString(n: nat)
    ensures ParseNat(NatToString(n)) == Some(n)
  {
    NatToStringValue(n);
  }

  /** `int(str(i)) == i` for every integer `i`. */
  lemma ParseIntToString(i: int)
    ensures ParseInt(IntToString(i)) == Some(i)
  {
    if i < 0 {
      var digits := NatToString(-i);
      ParseNatToString(-i);
      assert IntToString(i) == "-" + digits;
      assert ("-" + digits)[1..] == digits;
    } else {
      var digits := NatToString(i);
      ParseNatToString(i);
      assert IsDigit(digits[0]);
    }
  }
}

=== FILE: transport.dfy ===
/** The public-transport service: decoding a connection of the Swiss
    transport API into a journey, the duration format, the read-through
    cache per (origin, destination, date), and the resort lookup that tries
    the resort's name first and its nearest station second. */
module TransportService {
  import opened Wrappers
  import opened Text
  import opened Models
  import Cache

  /** Default lifetime of a cached journey, in hours. */
  const TransportCacheHours: int := 24

  /** The decoded fields of one section endpoint. `stationName` is `Null`
      when the station object or its name is `null`. */
  datatype Endpoint = Endpoint(stationName: JsonField<string>, time: JsonField<string>)

  /** The `journey` object of a section: the line's category and name. */
  datatype JourneyInfo = JourneyInfo(category: JsonField<string>, name: JsonField<string>)

  /** One section of a connection. `journey` is `None` for a walk: the key
      is missing, `null` or an empty object. */
  datatype Section = Section(journey: Option<JourneyInfo>, departure: Endpoint, arrival: Endpoint)

  /** One connection as decoded from the API's JSON. */
  datatype Connection = Connection(
    departure: JsonField<string>,
    arrival: JsonField<string>,
    duration: JsonField<string>,
    transfers: JsonField<int>,
    sections: JsonField<seq<Section>>)

  /** The train categories the source names explicitly. */
  const TrainCategories: seq<string> := ["IC", "IR", "RE", "S", "RJ", "EC", "TGV"]

  /** The categories the API uses for buses; every other category, a
      missing one included, is taken to be a train. */
  const BusCategories: seq<string> := ["B", "BUS", "NFB"]

  function Classify(category: JsonField<string>): (k: TransportKind)
    ensures k == Bus <==> category.Present? && category.value in BusCategories
  {
    if category.Present? && category.value in BusCategories then Bus else Train
  }

  /** `_parse_datetime`: an empty timestamp is read as the current instant;
      any other is handed to the ISO-8601 parser `parseTime`, whose failure
      is `None`. */
  function ParseTimestamp(s: string, parseTime: string -> Option<int>, now: int): (r: Option<int>)
    ensures s == "" ==> r == Some(now)
    ensures s != "" ==> r == parseTime(s)
  {
    if s == "" then Some(now) else parseTime(s)
  }

  /** A section endpoint's time: a missing or `null` time reads as empty. */
  function EndpointTime(f: JsonField<string>, parseTime: string -> Option<int>, now: int): Option<int> {
    match f
    case Present(s) => ParseTimestamp(s, parseTime, now)
    case _ => Some(now)
  }

  /** A string field with a default for a missing key; `null` is rejected
      by the record's string type. */
  function StringOr(f: JsonField<string>, default: string): (r: Option<string>)
    ensures f.Absent? ==> r == Some(default)
    ensures f.Null? <==> r.None?
    ensures f.Present? ==> r == Some(f.value)
  {
    match f
    case Absent => Some(default)
    case Null => None
    case Present(s) => Some(s)
  }

  /** The named train categories, and every unknown or missing category,
      classify as trains. */
  lemma TrainsAndDefault(category: JsonField<string>)
    requires category.Present? ==> category.value in TrainCategories || category.value !in BusCategories
    ensures Classify(category) == Train
  {
  }

  /** `_parse_segment` on a section that has a journey; `None` where the
      source raises and logs. */
  function ParseSegment(info: JourneyInfo, section: Section, parseTime: string -> Option<int>, now: int): (r: Option<JourneySegment>)
    ensures r.Some? <==>
              !section.departure.stationName.Null? && !section.arrival.stationName.Null? && !info.name.Null?
              && EndpointTime(section.departure.time, parseTime, now).Some?
              && EndpointTime(section.arrival.time, parseTime, now).Some?
    ensures r.Some? ==>
              r.value.kind == Classify(info.category)
              && r.value.fromStation == StringOr(section.departure.stationName, "Unknown").value
              && r.value.toStation == StringOr(section.arrival.stationName, "Unknown").value
              && r.value.line == StringOr(info.name, "").value
              && r.value.departure == EndpointTime(section.departure.time, parseTime, now).value
              && r.value.arrival == EndpointTime(section.arrival.time, parseTime, now).value
  {
    var from := StringOr(section.departure.stationName, "Unknown");
    var to := StringOr(section.arrival.stationName, "Unknown");
    var departure := EndpointTime(section.departure.time, parseTime, now);
    var arrival := EndpointTime(section.arrival.time, parseTime, now);
    var line := StringOr(info.name, "");
    if from.Some? && to.Some? && departure.Some? && arrival.Some? && line.Some? then
      Some(JourneySegment(Classify(info.category), from.value, to.value, departure.value, arrival.value, line.value))
    else None
  }

  /** The segments of a connection: one per section with a journey that
      decodes, in section order. Walks and undecodable sections are dropped. */
  function ParseSegments(sections: seq<Section>, parseTime: string -> Option<int>, now: int): (r: seq<JourneySegment>)
    ensures |r| <= |sections|
  {
    if |sections| == 0 then []
    else
      var s := sections[|sections| - 1];
      var last := if s.journey.Some? then ParseSegment(s.journey.value, s, parseTime, now) else None;
      ParseSegments(sections[..|sections| - 1], parseTime, now) + (if last.Some? then [last.value] else [])
  }

  /** Segments are decoded section by section: decoding a concatenation is
      concatenating the decodings, so the order of the sections is kept. */
  lemma {:induction false} ParseSegmentsAppend(a: seq<Section>, b: seq<Section>, parseTime: string -> Option<int>, now: int)
    ensures ParseSegments(a + b, parseTime, now) == ParseSegments(a, parseTime, now) + ParseSegments(b, parseTime, now)
    decreases |b|
  {
    if |b| > 0 {
      var n := |b| - 1;
      assert (a + b)[..|a + b| - 1] == a + b[..n];
      assert (a + b)[|a + b| - 1] == b[n];
      ParseSegmentsAppend(a, b[..n], parseTime, now);
    } else {
      assert a + b == a;
    }
  }

  /** One section decodes to its segment when it has a journey that
      decodes, and to nothing otherwise. */
  lemma ParseSegmentsSingle(s: Section, parseTime: string -> Option<int>, now: int)
    ensures s.journey.Some? && ParseSegment(s.journey.value, s, parseTime, now).Some? ==>
              ParseSegments([s], parseTime, now) == [ParseSegment(s.journey.value, s, parseTime, now).value]
    ensures s.journey.None? || ParseSegment(s.journey.value, s, parseTime, now).None? ==>
              ParseSegments([s], parseTime, now) == []
  {
    assert [s][..0] == [];
  }

  /** A walk contributes no segment. */
  lemma WalkIsDropped(walk: Section, parseTime: string -> Option<int>, now: int)
    requires walk.journey.None?
    ensures ParseSegments([walk], parseTime, now) == []
  {
    ParseSegmentsSingle(walk, parseTime, now);
  }

  /** Prepending a section prepends its segment, if it yields one. */
  lemma ParseSegmentsCons(s: Section, rest: seq<Section>, parseTime: string -> Option<int>, now: int)
    ensures ParseSegments([s] + rest, parseTime, now)
            == (if s.journey.Some? && ParseSegment(s.journey.value, s, parseTime, now).Some?
                then [ParseSegment(s.journey.value, s, parseTime, now).value] else [])
               + ParseSegments(rest, parseTime, now)
  {
    ParseSegmentsAppend([s], rest, parseTime, now);
    ParseSegmentsSingle(s, parseTime, now);
  }

  /** `_parse_duration` before its fallback: `[<days>d]<hours>:<minutes>[:...]`,
      `None` where the source raises. */
  function DurationMinutes(s: string): Option<int> {
    OccurrencesPositive(s, 'd');
    var days := if 'd' in s then ParseInt(Split(s, 'd')[0]) else Some(0);
    var timePart := if 'd' in s then Split(s, 'd')[1] else s;
    var fields := Split(timePart, ':');
    if days.None? || |fields| < 2 then None
    else
      match (ParseInt(fields[0]), ParseInt(fields[1]))
      case (Some(h), Some(m)) => Some(days.value * 24 * 60 + h * 60 + m)
      case _ => None
  }

  /** `_parse_duration`: minutes, or 0 for a string it cannot read. */
  function ParseDuration(s: string): int {
    DurationMinutes(s).GetOr(0)
  }

  /** The API's duration format, `DDdHH:MM:SS`, each field zero-padded to
      two digits (`00d02:45:00`). */
  function FormatDuration(days: nat, hours: nat, minutes: nat): string {
    TwoDigits(days) + "d" + TwoDigits(hours) + ":" + TwoDigits(minutes) + ":00"
  }

  /** A number written with at least two digits, a leading zero below 10. */
  function TwoDigits(n: nat): (s: string)
    ensures |s| >= 2 && AllDigits(s)
  {
    if n < 10 then ['0', DigitChar(n)] else NatToString(n)
  }

  /** `int` reads a padded field back, and the field holds no separator. */
  lemma TwoDigitsParse(n: nat)
    ensures ParseInt(TwoDigits(n)) == Some(n)
    ensures 'd' !in TwoDigits(n) && ':' !in TwoDigits(n)
  {
    var s := TwoDigits(n);
    if n < 10 {
      assert s[..1] == ['0'] && s[..1][..0] == [];
      assert DigitsValue(['0']) == 0;
      assert s[1] as int - '0' as int == n;
      assert DigitsValue(s) == n;
    } else {
      NatToStringParses(n);
    }
    assert IsDigit(s[0]);
    assert forall k :: 0 <= k < |s| ==> IsDigit(s[k]);
  }

  lemma NatToStringParses(n: nat)
    ensures ParseInt(NatToString(n)) == Some(n)
    ensures 'd' !in NatToString(n) && ':' !in NatToString(n)
  {
    ParseIntToString(n);
  }

  /** The day count and the time of day are the two pieces around the 'd'. */
  lemma SplitDays(ds: string, rest: string)
    requires 'd' !in ds && 'd' !in rest
    ensures 'd' in ds + "d" + rest
    ensures Split(ds + "d" + rest, 'd') == [ds, rest]
  {
    var s := ds + "d" + rest;
    assert s == ds + ['d'] + rest && s[|ds|] == 'd';
    SplitAtFirst(ds, 'd', rest);
    SplitWithoutSeparator(rest, 'd');
  }

  /** Hours and minutes are the first two pieces of the time of day. */
  lemma SplitTime(hs: string, ms: string)
    requires ':' !in hs && ':' !in ms
    ensures 'd' !in hs + ":" + ms + ":00" <== 'd' !in hs && 'd' !in ms
    ensures |Split(hs + ":" + ms + ":00", ':')| >= 2
    ensures Split(hs + ":" + ms + ":00", ':')[0] == hs && Split(hs + ":" + ms + ":00", ':')[1] == ms
  {
    var rest := hs + ":" + ms + ":00";
    assert rest == hs + [':'] + (ms + [':'] + "00");
    SplitAtFirst(hs, ':', ms + [':'] + "00");
    SplitAtFirst(ms, ':', "00");
  }

  /** A duration string read from its pieces. */
  lemma DurationFromPieces(s: string, ds: string, rest: string, days: int, hours: int, minutes: int)
    requires 'd' in s && Split(s, 'd') == [ds, rest]
    requires |Split(rest, ':')| >= 2
    requires ParseInt(ds) == Some(days)
    requires ParseInt(Split(rest, ':')[0]) == Some(hours) && ParseInt(Split(rest, ':')[1]) == Some(minutes)
    ensures DurationMinutes(s) == Some(days * 24 * 60 + hours * 60 + minutes)
  {
  }

  /** Any duration laid out in the API's format is read back in minutes. */
  lemma ParseLaidOutDuration(ds: string, hs: string, ms: string, days: int, hours: int, minutes: int)
    requires 'd' !in ds && 'd' !in hs && 'd' !in ms && ':' !in hs && ':' !in ms
    requires ParseInt(ds) == Some(days) && ParseInt(hs) == Some(hours) && ParseInt(ms) == Some(minutes)
    ensures ParseDuration(ds + "d" + hs + ":" + ms + ":00") == days * 24 * 60 + hours * 60 + minutes
  {
    var rest := hs + ":" + ms + ":00";
    SplitTime(hs, ms);
    SplitDays(ds, rest);
    assert ds + "d" + hs + ":" + ms + ":00" == ds + "d" + rest;
    DurationFromPieces(ds + "d" + rest, ds, rest, days, hours, minutes);
  }

  /** Round trip: a formatted duration is read back as its length in minutes. */
  lemma ParseFormattedDuration(days: nat, hours: nat, minutes: nat)
    ensures ParseDuration(FormatDuration(days, hours, minutes)) == days * 24 * 60 + hours * 60 + minutes
  {
    TwoDigitsParse(days);
    TwoDigitsParse(hours);
    TwoDigitsParse(minutes);
    ParseLaidOutDuration(TwoDigits(days), TwoDigits(hours), TwoDigits(minutes), days, hours, minutes);
  }

  /** Without a 'd' the whole string is the time of day and the day count is 0. */
  lemma ParseTimeOfDay(hs: string, ms: string, hours: int, minutes: int)
    requires 'd' !in hs && 'd' !in ms && ':' !in hs && ':' !in ms
    requires ParseInt(hs) == Some(hours) && ParseInt(ms) == Some(minutes)
    ensures ParseDuration(hs + ":" + ms + ":00") == hours * 60 + minutes
  {
    var s := hs + ":" + ms + ":00";
    SplitTime(hs, ms);
    assert 'd' !in s by {
      assert s == hs + [':'] + ms + [':'] + ['0', '0'];
    }
  }

  /** A string with no ':' cannot be read and gives 0 minutes. */
  lemma MalformedDurationIsZero(s: string)
    requires ':' !in s
    ensures ParseDuration(s) == 0
  {
    OccurrencesPositive(s, 'd');
    var timePart := if 'd' in s then Split(s, 'd')[1] else s;
    SplitPiecesAvoid(s, 'd', ':');
    SplitWithoutSeparator(timePart, ':');
  }

  /** A connection's top-level timestamp: missing, `null` and empty all
      make the connection unusable. */
  function TopTimestamp(f: JsonField<string>, parseTime: string -> Option<int>): (r: Option<int>)
    ensures r.Some? ==> f.Present? && f.value != "" && r == parseTime(f.value)
    ensures f.Present? && f.value != "" ==> r == parseTime(f.value)
  {
    if f.Present? && f.value != "" then parseTime(f.value) else None
  }

  /** `_parse_connection`; `None` where the source returns `None` or raises. */
  function ParseConnection(c: Connection, parseTime: string -> Option<int>, now: int): (r: Option<Journey>)
    ensures r.Some? <==>
              TopTimestamp(c.departure, parseTime).Some? && TopTimestamp(c.arrival, parseTime).Some?
              && !c.sections.Null? && !c.transfers.Null?
    ensures r.Some? ==>
              && r.value.departureTime == TopTimestamp(c.departure, parseTime).value
              && r.value.arrivalTime == TopTimestamp(c.arrival, parseTime).value
              && r.value.durationMinutes == (match c.duration
                                             case Absent => ParseDuration("00d00:00:00")
                                             case Null => 0
                                             case Present(s) => ParseDuration(s))
              && r.value.changes == (if c.transfers.Present? then c.transfers.value else 0)
              && r.value.segments == (if c.sections.Present? then ParseSegments(c.sections.value, parseTime, now) else [])
  {
    var departure := TopTimestamp(c.departure, parseTime);
    var arrival := TopTimestamp(c.arrival, parseTime);
    var duration := match c.duration
                    case Absent => ParseDuration("00d00:00:00")
                    case Null => 0
                    case Present(s) => ParseDuration(s);
    if departure.None? || arrival.None? || c.sections.Null? || c.transfers.Null? then None
    else
      var segments := if c.sections.Present? then ParseSegments(c.sections.value, parseTime, now) else [];
      var changes := if c.transfers.Present? then c.transfers.value else 0;
      Some(Journey(departure.value, arrival.value, duration, changes, segments))
  }

  /** The first connection of a response, decoded; no connections (a failed
      request, or a missing, `null` or empty list) gives `None`. */
  function FirstJourney(connections: Option<seq<Connection>>, parseTime: string -> Option<int>, now: int): (r: Option<Journey>)
    ensures connections.None? || |connections.value| == 0 ==> r.None?
    ensures connections.Some? && |connections.value| > 0 ==> r == ParseConnection(connections.value[0], parseTime, now)
  {
    if connections.None? || |connections.value| == 0 then None
    else ParseConnection(connections.value[0], parseTime, now)
  }

  /** Whether a response decodes at all does not depend on the clock. */
  lemma FirstJourneyClockFree(connections: Option<seq<Connection>>, parseTime: string -> Option<int>, now: int, later: int)
    ensures FirstJourney(connections, parseTime, now).Some? == FirstJourney(connections, parseTime, later).Some?
  {
  }

  /** The cache key: origin, destination and travel date. */
  datatype JourneyKey = JourneyKey(from: string, to: string, date: int)

  type JourneyCache = Cache.SimpleCache<JourneyKey, Journey>

  /** What `get_journey` returns, the cache after it, and whether the API
      was requested. */
  datatype JourneyFetch = JourneyFetch(journey: Option<Journey>, cache: JourneyCache, requested: bool)

  predicate JourneyHit(cache: JourneyCache, enabled: bool, key: JourneyKey, now: int) {
    enabled && Cache.Get(cache, key, now).value.Some?
  }

  /** `get_journey`: read through the cache; on a miss request the API
      (its response is `connections`) and decode the first connection. */
  function GetJourney(cache: JourneyCache, enabled: bool, ttlHours: int, from: string, to: string, date: int, now: int,
                      connections: Option<seq<Connection>>, parseTime: string -> Option<int>): (r: JourneyFetch)
    ensures JourneyHit(cache, enabled, JourneyKey(from, to, date), now) ==>
              r.journey == Cache.Get(cache, JourneyKey(from, to, date), now).value && r.cache == cache && !r.requested
    ensures !JourneyHit(cache, enabled, JourneyKey(from, to, date), now) ==>
              r.requested && r.journey == FirstJourney(connections, parseTime, now)
    ensures enabled && r.journey.Some? ==>
              JourneyKey(from, to, date) in r.cache.entries
              && r.cache.entries[JourneyKey(from, to, date)].value == r.journey.value
    ensures enabled && r.journey.Some? && !JourneyHit(cache, enabled, JourneyKey(from, to, date), now) ==>
              r.cache.entries[JourneyKey(from, to, date)].expiry == now + ttlHours * Cache.SecondsPerHour
    ensures forall k :: k in cache.entries && k != JourneyKey(from, to, date) ==>
              k in r.cache.entries && r.cache.entries[k] == cache.entries[k]
    ensures r.journey.None? ==> r.cache.entries.Keys <= cache.entries.Keys
    ensures !enabled ==> r.cache == cache
  {
    var key := JourneyKey(from, to, date);
    if JourneyHit(cache, enabled, key, now) then
      JourneyFetch(Cache.Get(cache, key, now).value, cache, false)
    else
      var lookup := Cache.ReadThrough(cache, enabled, key, now, ttlHours, FirstJourney(connections, parseTime, now));
      JourneyFetch(lookup.value, lookup.cache, true)
  }

  /** The journey with the PostBus leg's minutes added, when it needs one. */
  function WithPostBus(j: Option<Journey>, postbusMinutes: Option<int>): (r: Option<Journey>)
    ensures r.Some? <==> j.Some?
    ensures j.Some? && TruthyInt(postbusMinutes) ==>
              r.value == j.value.(durationMinutes := j.value.durationMinutes + postbusMinutes.value)
    ensures !TruthyInt(postbusMinutes) ==> r == j
  {
    if j.Some? && TruthyInt(postbusMinutes) then
      Some(j.value.(durationMinutes := j.value.durationMinutes + postbusMinutes.value))
    else j
  }

  datatype ResortJourney = ResortJourney(journey: Option<Journey>, cache: JourneyCache)

  /** The API's response for an (origin, destination) pair. */
  type Api = (string, string) -> Option<seq<Connection>>

  /** `get_resort_journey` as written: the PostBus minutes are added to the
      journey object `get_journey` returned. With caching enabled that object
      is the one held by the cache, so the cache entry changes with it. */
  function GetResortJourneyAsWritten(cache: JourneyCache, enabled: bool, ttlHours: int, from: string, resort: Resort,
                                     date: int, now: int, api: Api, parseTime: string -> Option<int>): (r: ResortJourney)
    ensures var byName := GetJourney(cache, enabled, ttlHours, from, resort.name, date, now, api(from, resort.name), parseTime);
            && (byName.journey.Some? ==> r == ResortJourney(byName.journey, byName.cache))
            && (byName.journey.None? && resort.access.nearestStation == "" ==> r == ResortJourney(None, byName.cache))
    ensures var byName := GetJourney(cache, enabled, ttlHours, from, resort.name, date, now, api(from, resort.name), parseTime);
            var station := resort.access.nearestStation;
            var byStation := GetJourney(byName.cache, enabled, ttlHours, from, station, date, now, api(from, station), parseTime);
            var key := JourneyKey(from, station, date);
            byName.journey.None? && station != "" ==>
              && r.journey == WithPostBus(byStation.journey, resort.access.postbusDurationMinutes)
              && (enabled && r.journey.Some? && TruthyInt(resort.access.postbusDurationMinutes) ==>
                    && key in byStation.cache.entries
                    && r.cache.entries == byStation.cache.entries[key := Cache.Entry(r.journey.value, byStation.cache.entries[key].expiry)])
              && (!(enabled && r.journey.Some? && TruthyInt(resort.access.postbusDurationMinutes)) ==> r.cache == byStation.cache)
  {
    var byName := GetJourney(cache, enabled, ttlHours, from, resort.name, date, now, api(from, resort.name), parseTime);
    var station := resort.access.nearestStation;
    if byName.journey.Some? then ResortJourney(byName.journey, byName.cache)
    else if station != "" then
      var byStation := GetJourney(byName.cache, enabled, ttlHours, from, station, date, now, api(from, station), parseTime);
      var adjusted := WithPostBus(byStation.journey, resort.access.postbusDurationMinutes);
      var key := JourneyKey(from, station, date);
      if enabled && adjusted.Some? && TruthyInt(resort.access.postbusDurationMinutes) then
        var shared := byStation.cache.entries[key];
        ResortJourney(adjusted, Cache.SimpleCache(byStation.cache.entries[key := Cache.Entry(adjusted.value, shared.expiry)]))
      else ResortJourney(adjusted, byStation.cache)
    else ResortJourney(None, byName.cache)
  }

  /** `get_resort_journey` with the PostBus minutes added to a copy: the
      resort's name is tried first; failing that, the nearest station, with
      the PostBus leg added; a resort with neither gives `None`. */
  function GetResortJourney(cache: JourneyCache, enabled: bool, ttlHours: int, from: string, resort: Resort,
                            date: int, now: int, api: Api, parseTime: string -> Option<int>): (r: ResortJourney)
    ensures var byName := GetJourney(cache, enabled, ttlHours, from, resort.name, date, now, api(from, resort.name), parseTime);
            && (byName.journey.Some? ==> r == ResortJourney(byName.journey, byName.cache))
            && (byName.journey.None? && resort.access.nearestStation == "" ==> r == ResortJourney(None, byName.cache))
            && (byName.journey.None? && resort.access.nearestStation != "" ==>
                  var byStation := GetJourney(byName.cache, enabled, ttlHours, from, resort.access.nearestStation,
                                              date, now, api(from, resort.access.nearestStation), parseTime);
                  r == ResortJourney(WithPostBus(byStation.journey, resort.access.postbusDurationMinutes), byStation.cache))
  {
    var byName := GetJourney(cache, enabled, ttlHours, from, resort.name, date, now, api(from, resort.name), parseTime);
    var station := resort.access.nearestStation;
    if byName.journey.Some? then ResortJourney(byName.journey, byName.cache)
    else if station != "" then
      var byStation := GetJourney(byName.cache, enabled, ttlHours, from, station, date, now, api(from, station), parseTime);
      ResortJourney(WithPostBus(byStation.journey, resort.access.postbusDurationMinutes), byStation.cache)
    else ResortJourney(None, byName.cache)
  }

  /** The conditions under which the station route is taken on a cold cache:
      neither key cached, no route to the resort's name, a route to its
      station, and a PostBus leg to add. */
  predicate StationRouteOnColdCache(cache: JourneyCache, from: string, resort: Resort, date: int, now: int,
                                    api: Api, parseTime: string -> Option<int>) {
    && JourneyKey(from, resort.name, date) !in cache.entries
    && JourneyKey(from, resort.access.nearestStation, date) !in cache.entries
    && resort.access.nearestStation != ""
    && FirstJourney(api(from, resort.name), parseTime, now).None?
    && FirstJourney(api(from, resort.access.nearestStation), parseTime, now).Some?
    && TruthyInt(resort.access.postbusDurationMinutes)
  }

  /** As written, asking twice for the same resort within the cache's TTL,
      with the same API responses, adds the PostBus minutes twice: the
      second answer is longer than the first by one more PostBus leg. */
  lemma PostBusCountedTwice(cache: JourneyCache, ttlHours: int, from: string, resort: Resort, date: int,
                            now: int, later: int, api: Api, parseTime: string -> Option<int>)
    requires StationRouteOnColdCache(cache, from, resort, date, now, api, parseTime)
    requires now <= later < now + ttlHours * Cache.SecondsPerHour
    ensures var first := GetResortJourneyAsWritten(cache, true, ttlHours, from, resort, date, now, api, parseTime);
            var second := GetResortJourneyAsWritten(first.cache, true, ttlHours, from, resort, date, later, api, parseTime);
            && first.journey.Some? && second.journey.Some?
            && second.journey.value.durationMinutes
               == first.journey.value.durationMinutes + resort.access.postbusDurationMinutes.value
  {
    var station := resort.access.nearestStation;
    var nameKey, stationKey := JourneyKey(from, resort.name, date), JourneyKey(from, station, date);
    var first := GetResortJourneyAsWritten(cache, true, ttlHours, from, resort, date, now, api, parseTime);
    var byName := GetJourney(cache, true, ttlHours, from, resort.name, date, now, api(from, resort.name), parseTime);
    assert nameKey != stationKey;
    var byStation := GetJourney(byName.cache, true, ttlHours, from, station, date, now, api(from, station), parseTime);
    assert stationKey in first.cache.entries && Cache.Live(first.cache.entries[stationKey], later);
    assert nameKey !in first.cache.entries;
    FirstJourneyClockFree(api(from, resort.name), parseTime, now, later);
  }

  /** With the PostBus minutes added to a copy, a repeated request within
      the TTL, with the same API responses, gives the same journey. */
  lemma RepeatedRequestsAgree(cache: JourneyCache, ttlHours: int, from: string, resort: Resort, date: int,
                              now: int, later: int, api: Api, parseTime: string -> Option<int>)
    requires JourneyKey(from, resort.name, date) !in cache.entries
    requires JourneyKey(from, resort.access.nearestStation, date) !in cache.entries
    requires now <= later < now + ttlHours * Cache.SecondsPerHour
    ensures var first := GetResortJourney(cache, true, ttlHours, from, resort, date, now, api, parseTime);
            var second := GetResortJourney(first.cache, true, ttlHours, from, resort, date, later, api, parseTime);
            first.journey.Some? ==> second.journey == first.journey
  {
    var station := resort.access.nearestStation;
    var nameKey, stationKey := JourneyKey(from, resort.name, date), JourneyKey(from, station, date);
    var first := GetResortJourney(cache, true, ttlHours, from, resort, date, now, api, parseTime);
    var byName := GetJourney(cache, true, ttlHours, from, resort.name, date, now, api(from, resort.name), parseTime);
    FirstJourneyClockFree(api(from, resort.name), parseTime, now, later);
    if byName.journey.None? && station != "" {
      var byStation := GetJourney(byName.cache, true, ttlHours, from, station, date, now, api(from, station), parseTime);
      if byStation.journey.Some? {
        assert nameKey != stationKey;
        assert nameKey !in first.cache.entries;
      }
    }
  }
}

=== FILE: weather.dfy ===
/** The weather service: aggregating OpenWeather's three-hourly forecast
    items into one day's forecast, and the read-through cache keyed by the
    coordinates rendered to four decimals and the date. */
module WeatherService {
  import opened Wrappers
  import opened Numeric
  import opened Models
  import Cache

  /** Default lifetime of a cached forecast, in hours. */
  const WeatherCacheHours: int := 6

  /** The eight compass points, clockwise from north. */
  const Directions: seq<string> := ["N", "NE", "E", "SE", "S", "SW", "W", "NW"]

  /** `_degrees_to_direction`: the nearest of the eight compass points. */
  function DegreesToDirection(degrees: real): (r: string)
    ensures r in Directions
  {
    Directions[RoundHalfEven(degrees / 45.0) % 8]
  }

  /** A bearing that is a whole number of eighths of a turn names its own
      compass point. */
  lemma CompassPoints(k: int)
    ensures DegreesToDirection(45.0 * k as real) == Directions[k % 8]
  {
    assert (45.0 * k as real) / 45.0 == k as real;
    RoundHalfEvenOfInt(k);
  }

  /** Adding a full turn does not change the direction. */
  lemma FullTurn(degrees: real)
    ensures DegreesToDirection(degrees + 360.0) == DegreesToDirection(degrees)
  {
    var x := degrees / 45.0;
    var y := (degrees + 360.0) / 45.0;
    assert y == x + 8 as real;
    RoundHalfEvenShift(x, 8);
    EighthTurns(RoundHalfEven(x));
  }

  /** Eight eighths make a whole turn. */
  lemma EighthTurns(k: int)
    ensures (k + 8) % 8 == k % 8
  {
  }

  /** `_get_visibility_description`. */
  function VisibilityOf(cloudCover: int): (v: Visibility)
    ensures v == Good <==> cloudCover < 30
    ensures v == Poor <==> cloudCover >= 70
  {
    if cloudCover < 30 then Good
    else if cloudCover < 70 then Moderate
    else Poor
  }

  function VisibilityRank(v: Visibility): int {
    match v
    case Good => 0
    case Moderate => 1
    case Poor => 2
  }

  /** More cloud never means better visibility. */
  lemma VisibilityMonotone(c1: int, c2: int)
    requires c1 <= c2
    ensures VisibilityRank(VisibilityOf(c1)) <= VisibilityRank(VisibilityOf(c2))
  {
  }

  /** The first entry of an item's `weather` list. */
  datatype Condition = Condition(description: string, icon: string)

  /** One three-hourly item of the forecast list. `day` is the local date
      of its timestamp; `rain3h`, `snow3h` and `windDeg` are absent when
      the API leaves them out; `weather` is empty when it is missing. */
  datatype ForecastItem = ForecastItem(
    day: int,
    temperature: real,
    rain3h: Option<real>,
    snow3h: Option<real>,
    windSpeed: real,
    windDeg: Option<real>,
    clouds: int,
    weather: seq<Condition>)

  /** The items dated `target`, in list order. */
  function ItemsOn(items: seq<ForecastItem>, target: int): (r: seq<ForecastItem>)
    ensures |r| <= |items|
    ensures forall i :: 0 <= i < |r| ==> r[i] in items && r[i].day == target
    ensures forall i :: 0 <= i < |items| && items[i].day == target ==> items[i] in r
  {
    if |items| == 0 then []
    else
      var last := items[|items| - 1];
      ItemsOn(items[..|items| - 1], target) + (if last.day == target then [last] else [])
  }

  /** `c` is the first condition of one of the items. */
  predicate FirstConditionOfSome(items: seq<ForecastItem>, c: Condition) {
    exists i :: 0 <= i < |items| && |items[i].weather| > 0 && items[i].weather[0] == c
  }

  /** The conditions of the items that carry one, in order. */
  function ConditionsOf(items: seq<ForecastItem>): (r: seq<Condition>)
    ensures |r| <= |items|
    ensures forall i :: 0 <= i < |items| && |items[i].weather| > 0 ==> items[i].weather[0] in r
    ensures forall c :: c in r ==> FirstConditionOfSome(items, c)
  {
    if |items| == 0 then []
    else
      var front := items[..|items| - 1];
      var last := items[|items| - 1];
      var r := ConditionsOf(front) + (if |last.weather| > 0 then [last.weather[0]] else []);
      forall c | c in r ensures FirstConditionOfSome(items, c) {
        if c in ConditionsOf(front) {
          var i :| 0 <= i < |front| && |front[i].weather| > 0 && front[i].weather[0] == c;
          assert items[i] == front[i];
        }
      }
      r
  }

  function Descriptions(cs: seq<Condition>): (r: seq<string>)
    ensures |r| == |cs| && forall i :: 0 <= i < |cs| ==> r[i] == cs[i].description
  {
    seq(|cs|, i requires 0 <= i < |cs| => cs[i].description)
  }

  /** `xs.count(x)`. */
  function Count(xs: seq<string>, x: string): (n: nat)
    ensures n <= |xs|
    ensures n > 0 <==> x in xs
  {
    if |xs| == 0 then 0 else Count(xs[..|xs| - 1], x) + (if xs[|xs| - 1] == x then 1 else 0)
  }

  /** The candidate with the largest count in `all`; the earliest wins a tie. */
  function PickMostFrequent(all: seq<string>, candidates: seq<string>): (r: string)
    requires |candidates| > 0
    ensures r in candidates
    ensures forall i :: 0 <= i < |candidates| ==> Count(all, candidates[i]) <= Count(all, r)
  {
    if |candidates| == 1 then candidates[0]
    else
      var rest := PickMostFrequent(all, candidates[1..]);
      if Count(all, candidates[0]) >= Count(all, rest) then candidates[0] else rest
  }

  /** `r` occurs in `xs`, and no value occurs more often. */
  predicate IsMostFrequent(xs: seq<string>, r: string) {
    r in xs && forall x :: x in xs ==> Count(xs, x) <= Count(xs, r)
  }

  /** `max(set(xs), key=xs.count)`, or "Unknown" for an empty list: a most
      frequent value. */
  function MostCommon(xs: seq<string>): (r: string)
    ensures |xs| == 0 ==> r == "Unknown"
    ensures |xs| > 0 ==> IsMostFrequent(xs, r)
  {
    if |xs| == 0 then "Unknown" else PickMostFrequent(xs, xs)
  }

  /** The mean of a non-empty list. */
  function Mean(xs: seq<real>): real
    requires |xs| > 0
  {
    Sum(xs) / |xs| as real
  }

  /** A mean lies within any bounds all the values lie within. */
  lemma MeanBounds(xs: seq<real>, lo: real, hi: real)
    requires |xs| > 0
    requires forall i :: 0 <= i < |xs| ==> lo <= xs[i] <= hi
    ensures lo <= Mean(xs) <= hi
  {
    SumBounds(xs, lo, hi);
  }

  lemma {:induction false} SumBounds(xs: seq<real>, lo: real, hi: real)
    requires forall i :: 0 <= i < |xs| ==> lo <= xs[i] <= hi
    ensures |xs| as real * lo <= Sum(xs) <= |xs| as real * hi
  {
    if |xs| > 0 {
      SumBounds(xs[1..], lo, hi);
    }
  }

  function Temperatures(items: seq<ForecastItem>): (r: seq<real>)
    ensures |r| == |items| && forall i :: 0 <= i < |items| ==> r[i] == items[i].temperature
  {
    seq(|items|, i requires 0 <= i < |items| => items[i].temperature)
  }

  function Rain(items: seq<ForecastItem>): seq<real> {
    seq(|items|, i requires 0 <= i < |items| => items[i].rain3h.GetOr(0.0))
  }

  function Snow(items: seq<ForecastItem>): seq<real> {
    seq(|items|, i requires 0 <= i < |items| => items[i].snow3h.GetOr(0.0))
  }

  function WindSpeeds(items: seq<ForecastItem>): seq<real> {
    seq(|items|, i requires 0 <= i < |items| => items[i].windSpeed)
  }

  function Clouds(items: seq<ForecastItem>): (r: seq<real>)
    ensures |r| == |items| && forall i :: 0 <= i < |items| ==> r[i] == items[i].clouds as real
  {
    seq(|items|, i requires 0 <= i < |items| => items[i].clouds as real)
  }

  /** All cloud covers are percentages. */
  predicate CloudsArePercentages(items: seq<ForecastItem>) {
    forall i :: 0 <= i < |items| ==> 0 <= items[i].clouds <= 100
  }

  /** The day's cloud cover, truncated to an integer, is a percentage. */
  lemma CloudCoverBounds(day: seq<ForecastItem>)
    requires |day| > 0
    ensures CloudsArePercentages(day) ==> 0 <= Trunc(Mean(Clouds(day))) <= 100
  {
    if CloudsArePercentages(day) {
      MeanBounds(Clouds(day), 0.0, 100.0);
    }
  }

  /** `t` is the rounded temperature of one of the day's items. */
  predicate IsItemTemperature(day: seq<ForecastItem>, t: real) {
    exists i :: 0 <= i < |day| && t == RoundTenth(day[i].temperature)
  }

  /** Every item's rounded temperature lies between `low` and `high`. */
  predicate BetweenTemperatures(day: seq<ForecastItem>, low: real, high: real) {
    forall i :: 0 <= i < |day| ==> low <= RoundTenth(day[i].temperature) <= high
  }

  /** The day's lowest and highest temperatures, each rounded to one
      decimal: rounded item temperatures that bound all the others. */
  function TemperatureRange(day: seq<ForecastItem>): (r: (real, real))
    requires |day| > 0
    ensures r.0 <= r.1
    ensures IsItemTemperature(day, r.0) && IsItemTemperature(day, r.1)
    ensures BetweenTemperatures(day, r.0, r.1)
  {
    var temps := Temperatures(day);
    var low := MinOf(temps);
    var high := MaxOf(temps);
    RoundTenthMonotone(low, high);
    forall i | 0 <= i < |day|
      ensures RoundTenth(low) <= RoundTenth(day[i].temperature) <= RoundTenth(high)
    {
      RoundTenthMonotone(low, temps[i]);
      RoundTenthMonotone(temps[i], high);
    }
    (RoundTenth(low), RoundTenth(high))
  }

  /** The day's snowfall: a tenth of the summed three-hourly fall, rounded,
      and only when positive. */
  function Snowfall(day: seq<ForecastItem>): (r: Option<real>)
    ensures r.Some? <==> Sum(Snow(day)) / 10.0 > 0.0
    ensures r.Some? ==> r.value == RoundTenth(Sum(Snow(day)) / 10.0)
  {
    var snowfall := Sum(Snow(day)) / 10.0;
    if snowfall > 0.0 then Some(RoundTenth(snowfall)) else None
  }

  /** A speed reported in metres per second, in kilometres per hour. */
  function KilometresPerHour(metresPerSecond: real): real {
    metresPerSecond * 3.6
  }

  /** The day's cloud cover: the mean of the items' covers, truncated. */
  function CloudCover(day: seq<ForecastItem>): (r: int)
    requires |day| > 0
    ensures CloudsArePercentages(day) ==> 0 <= r <= 100
  {
    CloudCoverBounds(day);
    Trunc(Mean(Clouds(day)))
  }

  /** Aggregating a non-empty day of items. */
  function Aggregate(day: seq<ForecastItem>, target: int): (f: WeatherForecast)
    requires |day| > 0
    ensures f.date == target
    ensures f.temperatureMin <= f.temperatureMax
    ensures IsItemTemperature(day, f.temperatureMin) && IsItemTemperature(day, f.temperatureMax)
    ensures BetweenTemperatures(day, f.temperatureMin, f.temperatureMax)
    ensures f.snowfallCm == Snowfall(day)
    ensures f.snowfallCm.Some? <==> Sum(Snow(day)) / 10.0 > 0.0
    ensures f.snowfallCm.Some? ==> f.snowfallCm.value == RoundTenth(Sum(Snow(day)) / 10.0)
    ensures f.precipitationMm == RoundTenth(Sum(Rain(day)))
    ensures f.windSpeed == RoundTenth(KilometresPerHour(Mean(WindSpeeds(day))))
    ensures f.cloudCover == Trunc(Mean(Clouds(day)))
    ensures f.visibility == VisibilityOf(f.cloudCover)
    ensures CloudsArePercentages(day) ==> 0 <= f.cloudCover <= 100
    ensures f.windDirection == DegreesToDirection(day[0].windDeg.GetOr(0.0))
    ensures f.conditions == MostCommon(Descriptions(ConditionsOf(day)))
    ensures |ConditionsOf(day)| == 0 ==> f.conditions == "Unknown" && f.icon == ""
    ensures |ConditionsOf(day)| > 0 ==> f.icon == ConditionsOf(day)[0].icon
  {
    var range := TemperatureRange(day);
    var conditions := ConditionsOf(day);
    WeatherForecast(
      target,
      range.0,
      range.1,
      RoundTenth(Sum(Rain(day))),
      Snowfall(day),
      RoundTenth(KilometresPerHour(Mean(WindSpeeds(day)))),
      DegreesToDirection(day[0].windDeg.GetOr(0.0)),
      CloudCover(day),
      VisibilityOf(CloudCover(day)),
      MostCommon(Descriptions(conditions)),
      if |conditions| > 0 then conditions[0].icon else "")
  }

  /** A day with a single item is that item's readings: the low and the
      high are its temperature, the rain and snow are its own, the wind is
      its speed in km/h and the cloud cover is its cover. */
  lemma AggregateSingleItem(item: ForecastItem, target: int)
    ensures var f := Aggregate([item], target);
            && f.temperatureMin == RoundTenth(item.temperature) && f.temperatureMax == RoundTenth(item.temperature)
            && f.precipitationMm == RoundTenth(item.rain3h.GetOr(0.0))
            && (f.snowfallCm.Some? <==> item.snow3h.GetOr(0.0) > 0.0)
            && f.windSpeed == RoundTenth(KilometresPerHour(item.windSpeed))
            && f.cloudCover == item.clouds
  {
    var day := [item];
    var f := Aggregate(day, target);
    assert IsItemTemperature(day, f.temperatureMin) && IsItemTemperature(day, f.temperatureMax);
    SingleItemSums(item);
  }

  /** The day's wind speed lies between the calmest and the windiest
      item's speed, each converted to km/h and rounded the same way. */
  lemma WindSpeedWithinItems(day: seq<ForecastItem>, target: int)
    requires |day| > 0
    ensures RoundTenth(KilometresPerHour(MinOf(WindSpeeds(day)))) <= Aggregate(day, target).windSpeed
    ensures Aggregate(day, target).windSpeed <= RoundTenth(KilometresPerHour(MaxOf(WindSpeeds(day))))
  {
    var speeds := WindSpeeds(day);
    MeanBounds(speeds, MinOf(speeds), MaxOf(speeds));
    KilometresPerHourMonotone(MinOf(speeds), Mean(speeds));
    KilometresPerHourMonotone(Mean(speeds), MaxOf(speeds));
  }

  /** Converting to km/h and rounding keeps the order of two speeds. */
  lemma KilometresPerHourMonotone(x: real, y: real)
    requires x <= y
    ensures RoundTenth(KilometresPerHour(x)) <= RoundTenth(KilometresPerHour(y))
  {
    RoundTenthMonotone(KilometresPerHour(x), KilometresPerHour(y));
  }

  /** The per-item readings of a one-item day, summed and averaged. */
  lemma SingleItemSums(item: ForecastItem)
    ensures Sum(Rain([item])) == item.rain3h.GetOr(0.0)
    ensures Sum(Snow([item])) == item.snow3h.GetOr(0.0)
    ensures Mean(WindSpeeds([item])) == item.windSpeed
    ensures Mean(Clouds([item])) == item.clouds as real
  {
    var day := [item];
    assert Rain(day) == [item.rain3h.GetOr(0.0)];
    assert Snow(day) == [item.snow3h.GetOr(0.0)];
    assert WindSpeeds(day) == [item.windSpeed];
    assert Clouds(day) == [item.clouds as real];
    SumSingle(item.rain3h.GetOr(0.0));
    SumSingle(item.snow3h.GetOr(0.0));
    SumSingle(item.windSpeed);
    SumSingle(item.clouds as real);
  }

  lemma SumSingle(x: real)
    ensures Sum([x]) == x
  {
    assert [x][1..] == [];
  }

  /** `_parse_forecast_data`: `None` when no item falls on the target date. */
  function ParseForecast(items: seq<ForecastItem>, target: int): (r: Option<WeatherForecast>)
    ensures r.None? <==> forall i :: 0 <= i < |items| ==> items[i].day != target
    ensures r.Some? ==> r.value == Aggregate(ItemsOn(items, target), target)
  {
    var day := ItemsOn(items, target);
    if |day| == 0 then None else Some(Aggregate(day, target))
  }

  /** The cache key: the coordinates as rendered with four decimals, and
      the date. */
  datatype WeatherKey = WeatherKey(latitude: int, longitude: int, date: int)

  function KeyOf(latitude: real, longitude: real, date: int): WeatherKey {
    WeatherKey(RoundHalfEven(latitude * 10000.0), RoundHalfEven(longitude * 10000.0), date)
  }

  /** Coordinates that agree to four decimals share one cache entry. */
  lemma NearbyCoordinatesShareKey(lat1: real, lon1: real, lat2: real, lon2: real, date: int)
    requires RoundHalfEven(lat1 * 10000.0) == RoundHalfEven(lat2 * 10000.0)
    requires RoundHalfEven(lon1 * 10000.0) == RoundHalfEven(lon2 * 10000.0)
    ensures KeyOf(lat1, lon1, date) == KeyOf(lat2, lon2, date)
  {
  }

  type WeatherCache = Cache.SimpleCache<WeatherKey, WeatherForecast>

  /** What `get_forecast` returns, the cache after it, and whether the API
      was requested. */
  datatype WeatherFetch = WeatherFetch(forecast: Option<WeatherForecast>, cache: WeatherCache, requested: bool)

  predicate WeatherHit(cache: WeatherCache, enabled: bool, key: WeatherKey, now: int) {
    enabled && Cache.Get(cache, key, now).value.Some?
  }

  /** `get_forecast`. `items` is the response's forecast list, `None` when
      the request fails. */
  function GetForecast(cache: WeatherCache, enabled: bool, ttlHours: int, latitude: real, longitude: real,
                       date: int, now: int, items: Option<seq<ForecastItem>>): (r: WeatherFetch)
    ensures WeatherHit(cache, enabled, KeyOf(latitude, longitude, date), now) ==>
              r.forecast == Cache.Get(cache, KeyOf(latitude, longitude, date), now).value && r.cache == cache && !r.requested
    ensures !WeatherHit(cache, enabled, KeyOf(latitude, longitude, date), now) ==>
              r.requested && r.forecast == (if items.None? then None else ParseForecast(items.value, date))
    ensures !WeatherHit(cache, enabled, KeyOf(latitude, longitude, date), now) && enabled && ttlHours > 0 && r.forecast.Some? ==>
              Cache.Get(r.cache, KeyOf(latitude, longitude, date), now).value == r.forecast
    ensures r.forecast.Some? ==> r.forecast.value.date == date || WeatherHit(cache, enabled, KeyOf(latitude, longitude, date), now)
    ensures r.forecast.None? ==> r.cache.entries.Keys <= cache.entries.Keys
    ensures forall k :: k in cache.entries && k != KeyOf(latitude, longitude, date) ==>
              k in r.cache.entries && r.cache.entries[k] == cache.entries[k]
    ensures !enabled ==> r.cache == cache
  {
    var key := KeyOf(latitude, longitude, date);
    if WeatherHit(cache, enabled, key, now) then
      WeatherFetch(Cache.Get(cache, key, now).value, cache, false)
    else
      var fetched := if items.None? then None else ParseForecast(items.value, date);
      var lookup := Cache.ReadThrough(cache, enabled, key, now, ttlHours, fetched);
      WeatherFetch(lookup.value, lookup.cache, true)
  }

  /** A forecast fetched for one point is what a nearby point (the same to
      four decimals) reads from the cache on the same day, without a request. */
  lemma NearbyPointServedFromCache(cache: WeatherCache, ttlHours: int, lat1: real, lon1: real, lat2: real, lon2: real,
                                   date: int, now: int, items: Option<seq<ForecastItem>>, items2: Option<seq<ForecastItem>>)
    requires KeyOf(lat1, lon1, date) == KeyOf(lat2, lon2, date)
    requires ttlHours > 0
    requires GetForecast(cache, true, ttlHours, lat1, lon1, date, now, items).forecast.Some?
    ensures var first := GetForecast(cache, true, ttlHours, lat1, lon1, date, now, items);
            var second := GetForecast(first.cache, true, ttlHours, lat2, lon2, date, now, items2);
            second.forecast == first.forecast && !second.requested
  {
  }
}

=== FILE: wrappers.dfy ===
/** Optional values and the three states a JSON object field can be in. */
module Wrappers {

  /** A value that may be missing, the model of Python's `Optional[T]`. */
  datatype Option<+T> = None | Some(value: T) {

    /** The held value, or `default` when there is none. */
    function GetOr(default: T): T {
      match this
      case Some(v) => v
      case None => default
    }
  }

  /** The present values of a list, in order: `[v for v in xs if v is not None]`. */
  function Somes<T>(xs: seq<Option<T>>): (r: seq<T>)
    ensures |r| <= |xs|
    ensures forall i :: 0 <= i < |xs| && xs[i].Some? ==> xs[i].value in r
    ensures forall x :: x in r ==> Some(x) in xs
  {
    if |xs| == 0 then []
    else
      var last := xs[|xs| - 1];
      Somes(xs[..|xs| - 1]) + (if last.Some? then [last.value] else [])
  }

  /** Collecting the present values of two lists one after the other is
      collecting each and concatenating: the order is kept. */
  lemma {:induction false} SomesAppend<T>(a: seq<Option<T>>, b: seq<Option<T>>)
    ensures Somes(a + b) == Somes(a) + Somes(b)
    decreases |b|
  {
    if |b| == 0 {
      assert a + b == a;
    } else {
      var init := b[..|b| - 1];
      assert (a + b)[..|a + b| - 1] == a + init;
      SomesAppend(a, init);
    }
  }

  /** A present value is kept and a missing one dropped. */
  lemma SomesSingle<T>(x: Option<T>)
    ensures Somes([x]) == if x.Some? then [x.value] else []
  {
    assert [x][..0] == [];
  }

  /** The last present value of a list, found by scanning from the end. */
  function LastPresent<T>(xs: seq<Option<T>>): (r: Option<T>)
    ensures r.Some? ==> r in xs
  {
    if |xs| == 0 then None
    else if xs[|xs| - 1].Some? then xs[|xs| - 1]
    else LastPresent(xs[..|xs| - 1])
  }

  /** Filtering out the absent entries and taking the last one finds the
      same value as scanning back for the last present entry. */
  lemma {:induction false} LastOfSomes<T>(xs: seq<Option<T>>)
    ensures |Somes(xs)| == 0 <==> LastPresent(xs).None?
    ensures |Somes(xs)| > 0 ==> LastPresent(xs) == Some(Somes(xs)[|Somes(xs)| - 1])
  {
    if |xs| > 0 {
      LastOfSomes(xs[..|xs| - 1]);
    }
  }

  /** Python truthiness of an `Optional[int]`: present and non-zero. */
  predicate TruthyInt(x: Option<int>) {
    x.Some? && x.value != 0
  }

  /** Python truthiness of an `Optional[float]`: present and non-zero. */
  predicate TruthyReal(x: Option<real>) {
    x.Some? && x.value != 0.0
  }

  /** A field of a decoded JSON object: missing from the object, present with
      `null`, or present with a value. `dict.get(key, default)` tells the
      first two apart, so the model has to as well. */
  datatype JsonField<+T> = Absent | Null | Present(value: T)

  /** The success/failure outcome of an operation that raises in the source. */
  datatype Result<+R, +E> = Success(value: R) | Failure(error: E)
}
